=== FILE: README.md ===
# replicator: a Dafny model of its decision logic

replicator is a web application for AI image generation. A Flask back end:

- translates the user's prompt with a language model;
- runs an image model on Replicate;
- stores each image with a JSON metadata file;
- serves a paginated gallery.

A jQuery front end:

- builds a parameter form from each model's input schema;
- solves width and height for a chosen aspect ratio;
- collects and sends the form;
- shows the gallery, a full-size viewer and a download menu for phones.

This project models the part of both sides that decides things. It does this with immutable datatypes and pure functions, and it proves what each decision promises. Every browser handler and every modelled route is a function. It takes the state or request, plus the outcomes of the calls it makes (network, file system, clock, randomness), and returns the new state or the reply.

Modules follow the program's files:

| module | models |
|---|---|
| `FormGenerator`, `AspectRatio`, `Constants` | `static/js/modules/form-generator.js` and `constants.js`: field classification, `x-order` ordering, `parseRatio`, `clampAndRound` and the width/height solver |
| `Submission`, `CopySettings` | `static/js/main.js`: the submit-time parameter collector, the `aspect_ratio: "custom"` marker, `saveFormState`, and restoring settings from an image's metadata |
| `ModalNavigation` | `static/js/modules/modal-navigation.js` plus the page's own close handler: the full-size viewer as a state record with an event-driven run |
| `Gallery` | `static/js/modules/gallery.js`: image ids, pagination items, the current page and the page-click guard |
| `ApiClient` | `static/js/modules/api-client.js`: display names, `loadModels`, `loadModelParams`, error messages |
| `MobileDropdown` | `static/js/modules/mobile-dropdown.js`: menu placement and the scroll pin/unpin pair |
| `Storage` | `utils/storage.py`: file names, metadata files and the newest-first paginated listing |
| `ImageConverter` | `utils/image_converter.py`: the tracked temporary files and their expiry |
| `LlmClient`, `OpenAiClient` | `api/llm_client.py`, `api/openai_client.py`: model-name normalisation and error classification |
| `ReplicateClient` | `api/replicate_client.py`: input preparation, seed, output selection and schema lookup |
| `App` | `app.py`: routes, validation order, the model-details cache, saved metadata, error replies |
| `Sorting` | the stable sort used by both sides (`Array.prototype.sort`, Python's `list.sort`) |
| `Coercion` | JavaScript's `parseFloat(v)` and `Number(v)` of a JSON value, as applied to schema defaults |
| `Json`, `Text`, `Numbers`, `Wrappers` | shared vocabulary: JSON values with JavaScript and Python truthiness, ASCII string helpers, `parseFloat`/`parseInt`/`int()`, `Math.round`, floor division, `Option`/`Result` |

Three behaviours of the code are surprising, but the model proves them as written:

- **The page's own close handler hides the viewer without resetting it.** This is the close handler in `main.js`. `ModalNavigation.HideOnlyBreaksInvariant` shows that the viewer keeps its list and position when closed this way. The module's own close resets them.
- **The pagination click guard lets the "next" item of the last page through.** That item is disabled only by styling (`Gallery.ClickGuardOnItems`).
- **`clampAndRound` can overshoot the maximum.** It snaps to the step after clamping (`AspectRatio.ClampAndRoundOvershoots`).

## Model

| member | source | states |
|---|---|---|
| FormGenerator.Classify | static/js/modules/form-generator.js:64-141 | An entry gets no input exactly when its name contains "prompt" in any case. An `enum` becomes a select with the default preselected by strict equality. Otherwise integer/number, boolean (checked iff the default is `true`) and string types get their input, and any other type is skipped with a warning naming it. Only non-boolean width/height inputs are wrapped as dimensions. |
| FormGenerator.Step | static/js/modules/form-generator.js:83 | Step is 1 for integers, else a non-zero `multipleOf`, else 0.01. |
| FormGenerator.InitialValue | static/js/modules/form-generator.js:86-91 | Any defined default is read with `parseFloat` (a number stays itself; text, arrays, booleans and `null` as `Coercion.ParseFloatOf` reads them, NaN when it reads none). A width or height without a default starts at 1024, and other inputs without one have no initial value. |
| FormGenerator.UseRange | static/js/modules/form-generator.js:96-98 | A slider needs both bounds. Width and height always get one when both bounds exist; other inputs only when the span is at most 1000. |
| FormGenerator.ParseFloatValue | static/js/modules/form-generator.js:91 | `parseFloat` of a default yields a number exactly when `Coercion.ParseFloatOf` reads one, and that number; otherwise NaN. A number is unchanged. |
| FormGenerator.ArrayDefaultReadsFirstElement | static/js/modules/form-generator.js:91 | An array default is read through its first element: `[512, 6]` gives 512, and a text first element reads as that text. |
| FormGenerator.Lookup | static/js/modules/form-generator.js:227-228 | `properties[key]` is found exactly when the key is listed, and is that key's entry. |
| FormGenerator.GenerateFormFields | static/js/modules/form-generator.js:144-208 | A schema without properties is invalid. Otherwise the aspect selector exists iff both `width` and `height` are keys, and the entries are a permutation of the properties ordered by `x-order` (missing last), with ties in schema order. Inputs and warnings follow that order. |
| FormGenerator.Sources | static/js/modules/form-generator.js:187-189 | The rendered inputs are exactly the entries that produce one, each once, in increasing position. |
| FormGenerator.WarningsOfUnsupported | static/js/modules/form-generator.js:130-133 | The warnings are exactly those of the unsupported entries. |
| FormGenerator.UnsupportedLeavesFields | static/js/modules/form-generator.js:130-133 | An unsupported entry only warns: removing it leaves the rendered inputs unchanged, and the loop goes on. |
| FormGenerator.FormFieldsFromSchema | static/js/modules/form-generator.js:180-189 | No rendered input is prompt-like. Every rendered input names a schema key, and inputs appear in non-decreasing `x-order`. |
| FormGenerator.NoOrderKeepsKeyOrder | static/js/modules/form-generator.js:180-185 | Without any `x-order`, inputs keep the schema's key order. |
| FormGenerator.PromptStrengthSkipped | static/js/modules/form-generator.js:72 | The prompt test ignores case: "prompt_strength" and "Negative_Prompt" get no input. |
| Sorting.SortPermutation | static/js/modules/form-generator.js:180-185 | The sort applies a permutation of positions. The ranks it produces are non-decreasing, and equal ranks keep their original order (stability). |
| Sorting.StableSort | static/js/modules/form-generator.js:180-185 | The result is a rearrangement of the input (same multiset), ordered by rank, and reads the input through the permutation. |
| Sorting.StableSortOrdered | static/js/modules/form-generator.js:180-185 | An already ordered sequence is left as it is. |
| AspectRatio.ParseRatio | static/js/modules/form-generator.js:14-22 | A non-string or a string without ':' gives 1 (square). |
| AspectRatio.RatioOfParts | static/js/modules/form-generator.js:19-21 | A non-numeric part or a zero denominator gives 1. |
| AspectRatio.ParseRatioOfPieces | static/js/modules/form-generator.js:18-21 | The ratio of "A:B" depends only on the parsed A and B. |
| AspectRatio.ParseRatioOfTerms | static/js/modules/form-generator.js:14-22 | Reading back "N:D" written in decimal gives N / D. |
| AspectRatio.OptionOrientation | static/js/modules/constants.js:51-64 | Options before "1:1" parse above 1, "1:1" parses to 1, and the portrait and tall options after it parse below 1. |
| AspectRatio.Clamp | static/js/modules/form-generator.js:26-28 | The result never exceeds the maximum and is at least a compatible minimum. An in-range value is unchanged, and when the minimum exceeds the maximum the maximum wins. |
| AspectRatio.ClampAndRound | static/js/modules/form-generator.js:25-32 | Without a positive step, the result is the rounded maximum, minimum or value, depending on where the value lies. |
| AspectRatio.ClampAndRoundOnGrid | static/js/modules/form-generator.js:25-32 | When both bounds are multiples of a positive whole step, the result is a multiple of the step within the bounds. |
| AspectRatio.ClampAndRoundOvershoots | static/js/modules/form-generator.js:27-31 | Snapping after clamping overshoots: 1000 with maximum 1000 and step 64 gives 1024. |
| AspectRatio.Anchor | static/js/modules/form-generator.js:238-239 | `maximum \|\| default \|\| 1024`: a zero maximum is absent, a truthy default enters the arithmetic as `Number(default)` (numeric text is its number), and a falsy default falls through to 1024. |
| AspectRatio.NumericTextDefault | static/js/modules/form-generator.js:238-254 | A text default "768" with ratio 2:1 gives 768 × 384. |
| Coercion.ParseFloatOf | static/js/modules/form-generator.js:91 | `parseFloat(v)`: a number is itself, a text is read by `parseFloat`, an empty array is NaN, and so are `undefined`, `null`, booleans, NaN and objects; a non-empty array is covered by `Coercion.ParseFloatOfJoin`. |
| Coercion.NumberOf | static/js/modules/form-generator.js:237-238 | `Number(v)`: `undefined` is NaN, `null` is 0, a boolean is 1 or 0, a text is `Number` of the text, an empty array is 0 and an array of two or more is NaN. |
| Coercion.ParseFloatOfJoin | static/js/modules/form-generator.js:91 | `parseFloat` of an array of texts equals `parseFloat` of their comma-joined text, the array's own text. |
| Coercion.NumberOfJoin | static/js/modules/form-generator.js:237-238 | `Number` of an array of texts equals `Number` of their comma-joined text. |
| Numbers.NumberOfText | static/js/modules/form-generator.js:237-238 | `Number` of a text: blank text is 0; otherwise a number exactly when the trimmed text is a signed decimal literal with at least one digit. |
| Numbers.ParseFloatStopsAtComma | static/js/modules/form-generator.js:91 | `parseFloat` stops at a comma: what follows it never changes the result. |
| Numbers.NumberRejectsComma | static/js/modules/form-generator.js:237-238 | A text holding a comma is never a number to `Number`. |
| AspectRatio.ClampDimension | static/js/modules/form-generator.js:253-254 | NaN passes through clamping; a number is clamped and rounded with its own schema. |
| AspectRatio.Targets | static/js/modules/form-generator.js:238-250 | For a ratio of at least 1, width is the width anchor and height is width / ratio. Below 1, height is the height anchor and width is height × ratio. |
| AspectRatio.HandleAspectRatioChange | static/js/modules/form-generator.js:211-268 | Missing inputs, schema or properties change nothing. "custom" only shows the dimension inputs. Any other choice sets width and height from the solver, each clamped by its own schema (`{}` when absent). |
| AspectRatio.LandscapeWidthIgnoresHeightSchema | static/js/modules/form-generator.js:244-247 | For a landscape or square ratio, the width does not depend on the height schema. |
| AspectRatio.PortraitHeightIgnoresWidthSchema | static/js/modules/form-generator.js:248-250 | For a portrait ratio, the height does not depend on the width schema. |
| AspectRatio.UnconstrainedFollowsRatio | static/js/modules/form-generator.js:238-254 | With unconstrained schemas the anchored side is 1024, and the other side is within half a pixel of what the ratio asks for. |
| AspectRatio.SquareOnBoundedSchema | static/js/modules/form-generator.js:238-254 | "1:1" on a 256..1024 schema with step 8 gives 1024 × 1024. |
| Constants.OptionValues | static/js/modules/constants.js:51-64 | The select's option values are the table's values, in list order. |
| Constants.SelectedIsSquare | static/js/modules/constants.js:57 | Exactly one option is preselected, and it is "1:1". |
| Constants.ValuesDistinct | static/js/modules/constants.js:51-64 | No option value appears twice. |
| Constants.CustomIsLastAndOnly | static/js/modules/constants.js:63 | "custom" is the last option and the only value without ':'. |
| Constants.RatioValuesWellFormed | static/js/modules/constants.js:52-62 | Every other value is "N:D" with positive decimal integers. |
| Constants.RatioTermsOrientation | static/js/modules/constants.js:52-62 | N > D before the square option, N = D at it, N < D after it. |
| Submission.CollectedParameters | static/js/main.js:798-823 | A parameter is sent exactly when some input has a non-empty name and a value other than undefined, null or '' (and, for number inputs, a parsable number). It holds the value of the last such input. |
| Submission.Collect | static/js/main.js:798-823 | At most one warning per input, and every collected key is a non-empty name. |
| Submission.CollectedWarnings | static/js/main.js:805-814 | The console warnings name exactly the number inputs whose text does not parse. |
| Submission.UncheckedBoxIsSent | static/js/main.js:803-821 | An unchecked checkbox is sent as `false`, not left out. |
| Submission.InvalidNumberSkipsOnlyItself | static/js/main.js:805-814 | An unparsable number input is skipped alone: the other parameters are as if it were absent. |
| Submission.WithCustomMarker | static/js/main.js:575-577 | `aspect_ratio` becomes "custom" iff both `width` and `height` are present, and no other key changes. |
| Submission.CustomMarkerIdempotent | static/js/modules/api-client.js:106-109 | Adding the marker twice is adding it once, so the duplicate in the API client changes nothing. |
| Submission.SaveFormState | static/js/main.js:129-138 | Prompt and model are saved only when a model is selected. |
| Submission.Submit | static/js/main.js:789-836 | Nothing happens while generating. A blank trimmed prompt is reported before a missing model, and neither sends anything. Otherwise the state is saved and the trimmed prompt, the model and the collected parameters with the marker are sent. The collector's warnings are logged in every case but the first, since the parameters are collected before the checks. |
| Submission.BlankPromptReportedFirst | static/js/main.js:793-828 | A prompt of white space alone is rejected as missing, whatever the model. |
| Text.TrimEmptyIffBlank | static/js/main.js:793 | Trimming gives the empty string exactly for all-white-space text. |
| CopySettings.FirstMatch | static/js/main.js:932-946 | The position found is the first option within 0.01 of the ratio; "custom" never matches. |
| CopySettings.AspectChoice | static/js/main.js:926-957 | Invalid numbers or a zero height select "custom". Otherwise the first matching option, or "custom" when none matches; the choice is always "custom" or an offered option. |
| CopySettings.Apply | static/js/modules/form-generator.js:36-50 | `applyParamValue` does nothing for undefined or null, and otherwise applies exactly that key and value. |
| CopySettings.ApplyOthers | static/js/main.js:918-922 | The loop applies exactly the saved non-dimension parameters that are neither undefined nor null. |
| CopySettings.Entry | static/js/main.js:926-928 | A saved value that is not undefined comes from the saved entries. |
| CopySettings.ApplyDimensions | static/js/main.js:926-963 | With an aspect select and truthy width and height, the select is set first and the parsed dimensions are applied after it. Otherwise width and height are applied directly. |
| CopySettings.CopySettings | static/js/main.js:891-981 | The prompt (original first) is restored first and the state is saved last. A configured model is selected, and what follows is exactly the saved parameters applied (`ApplyOthers`) and then the dimensions (`ApplyDimensions`); otherwise the parameters are cleared. A failed request shows the error and clears the parameters. |
| CopySettings.ParametersRestored | static/js/main.js:916-922 | After the saved model is selected, a non-dimension parameter is written to its input exactly when it is saved with a value other than `undefined` or `null`. |
| CopySettings.DimensionsAfterSelect | static/js/main.js:918-963 | Width and height are applied only after the other parameters, and after the select when there is one. |
| CopySettings.ExactRatioSelectsItsOption | static/js/main.js:926-957 | A saved size whose width/height exactly equals an option's ratio selects that option. |
| CopySettings.WidescreenRecognised | static/js/main.js:926-957 | 1024 × 576 selects "16:9". |
| ModalNavigation.Show | static/js/modules/modal-navigation.js:24-32 | An empty list changes nothing. From −n on, the position wraps into [0, n) and the image shown is that position's. |
| ModalNavigation.WrapsAround | static/js/modules/modal-navigation.js:28 | Previous from the first image shows the last, and next from the last shows the first. |
| ModalNavigation.Filenames | static/js/modules/modal-navigation.js:42-50 | A name is in the list exactly when it is the non-empty last path segment of some gallery source; every listed name is non-empty. |
| ModalNavigation.FilenamesAppend | static/js/modules/modal-navigation.js:43-50 | The list is built source by source in gallery order: the names of two runs of sources are the first run's names followed by the second's. |
| ModalNavigation.FilenamesOfOne | static/js/modules/modal-navigation.js:45-49 | One source contributes its last path segment, or nothing when that segment is empty. |
| ModalNavigation.FindIndex | static/js/modules/modal-navigation.js:53-54 | The first position holding the name, or −1 exactly when absent. |
| ModalNavigation.Open | static/js/modules/modal-navigation.js:35-75 | Without the viewer's elements nothing changes. Otherwise the viewer is shown at the first position of the clicked file in the gallery list, or alone in a one-element list when absent. |
| ModalNavigation.Close | static/js/modules/modal-navigation.js:78-92 | The viewer is hidden and forgets its list and position; without its elements nothing changes. |
| ModalNavigation.HideOnly | static/js/main.js:1034-1037 | The page's own close only hides the viewer: list and position stay. |
| ModalNavigation.Keydown | static/js/modules/modal-navigation.js:96-108 | Keys act only while the viewer is shown: left steps back, right steps on, Escape closes, and anything else is ignored. |
| ModalNavigation.TouchStart | static/js/modules/modal-navigation.js:111-114 | A touch start records its coordinate and clears the end coordinate; the list, position and visibility stay. |
| ModalNavigation.TouchMove | static/js/modules/modal-navigation.js:116-118 | A touch move records the end coordinate and keeps the start; nothing else changes. |
| ModalNavigation.TouchGesture | static/js/modules/modal-navigation.js:111-138 | A touch that never moves does nothing on release. From non-zero coordinates, a leftward travel of more than 50 pixels steps on, and a travel of 50 pixels or less keeps the image; either way both coordinates are forgotten. |
| ModalNavigation.ClassifySwipe | static/js/modules/modal-navigation.js:121-133 | A swipe needs both coordinates non-zero and a travel strictly above 50 pixels; rightward travel goes back. |
| ModalNavigation.TouchEnd | static/js/modules/modal-navigation.js:120-138 | With a coordinate missing nothing changes. A complete touch steps as the swipe says, keeps list, position and image when the travel is 50 pixels or less, and forgets both coordinates. |
| ModalNavigation.StepKeepsInvariant | static/js/modules/modal-navigation.js:24-138 | Every handler keeps the invariant: a shown viewer has a non-empty list and a valid position, and a closed one has neither. |
| ModalNavigation.RunKeepsInvariant | static/js/modules/modal-navigation.js:24-138 | The invariant holds after any sequence of events from page load. |
| ModalNavigation.HideOnlyBreaksInvariant | static/js/main.js:1023-1037 | After opening, the page's own close leaves a hidden viewer that still holds a list, so the closed-state invariant fails. |
| ModalNavigation.HideOnlyKeepsShownInRange | static/js/main.js:1034-1037 | What does survive it: a shown viewer always shows a valid position of its list. |
| Gallery.StripImageExtension | static/js/modules/gallery.js:29 | The id is the file name with one trailing ".webp" or ".png" removed, and the name itself otherwise. |
| Gallery.StripExtensionRoundTrip | static/js/modules/gallery.js:29 | Stripping undoes appending either extension. |
| Gallery.MakeCard | static/js/modules/gallery.js:28-65 | The card's id is the stripped name, and the original download is named id + ".webp". |
| Gallery.PngDownloadsAsWebp | static/js/modules/gallery.js:46 | A PNG image's original download is offered under the ".webp" name. |
| Gallery.Pagination | static/js/modules/gallery.js:68-99 | Previous targets page − 1 and is disabled iff on page 1. Items 1..totalPages follow in order, exactly the current one active. Next targets page + 1 and is disabled iff on the last page. |
| Gallery.ActiveItems | static/js/modules/gallery.js:81-96 | Exactly one item is active when the page is in range, none otherwise; with no pages the next item stays enabled. |
| Gallery.ClickGuardOnItems | static/js/main.js:862-868 | The click guard ignores exactly the active page and page 1's previous item; the last page's next item gets through. |
| Gallery.LoadGallery | static/js/modules/gallery.js:102-125 | Missing elements change nothing. A failure shows the error and keeps the page. A success moves to the page and shows one card per file and the bar for the page count. |
| Gallery.ReloadOfSamePageIgnored | static/js/main.js:864-867 | After a successful load, clicking the page just loaded does nothing. |
| ApiClient.DisplayName | static/js/modules/api-client.js:35 | The shown name is the id's last '/' segment with every '-' and '_' made a space. |
| ApiClient.DisplayNameDropsOwner | static/js/modules/api-client.js:35 | "owner/model" is shown as "model" is. |
| ApiClient.LoadModels | static/js/modules/api-client.js:20-51 | Null without the select or on failure (select disabled). The list when non-empty (one enabled option per model after the placeholder), and an empty list when empty or absent (select disabled). |
| ApiClient.LoadModelParams | static/js/modules/api-client.js:54-60 | A request is made exactly for a non-empty id; an empty one only empties the container. |
| ApiClient.FirstTruthy | static/js/modules/api-client.js:72 | `a \|\| b \|\| fallback`: the first non-empty candidate, or the fallback. |
| ApiClient.ParamsError | static/js/modules/api-client.js:71-74 | The schema-load error reads "Error N: " followed by the body's error, else its message, else the status text. |
| ApiClient.GenerateError | static/js/modules/api-client.js:121-123 | The generation error is the body's error, else its message, else "Error N". |
| ApiClient.ImproveError | static/js/modules/api-client.js:157-163 | 401 with a ConfigurationError type gives "API Configuration Error: " + message. Otherwise error, then message, then "Unknown error". |
| ApiClient.ErrorPrecedence | static/js/modules/api-client.js:71-123 | Messages prefer the body's `error` to its `message`, and fall back to the status ("Error N", or "Error N: " + status text) only when both are empty. |
| MobileDropdown.Vertical | static/js/modules/mobile-dropdown.js:152-169 | Exactly one of top and bottom is `auto`. Above wins when it fits, else below. Otherwise the menu's middle is the viewport's middle, unless that puts its top less than 20 pixels down, in which case the top is at 20. |
| MobileDropdown.VerticalKeepsClear | static/js/modules/mobile-dropdown.js:152-165 | Placed above or below, the menu keeps a 10-pixel gap from the card and stays 10 pixels inside the viewport. |
| MobileDropdown.Left | static/js/modules/mobile-dropdown.js:172-182 | The menu is centred on the card, then pushed to the 20-pixel margin, the left margin winning. |
| MobileDropdown.LeftWithinMargins | static/js/modules/mobile-dropdown.js:172-182 | On a viewport at least 320 pixels wide, the menu lies within both margins. |
| MobileDropdown.Place | static/js/modules/mobile-dropdown.js:4-195 | Placement happens exactly on viewports at most 767.98 pixels wide, with the vertical and horizontal rules above. |
| MobileDropdown.PinnedTop | static/js/modules/mobile-dropdown.js:116 | The pinned page's `top` is never empty. |
| MobileDropdown.RestoreTarget | static/js/modules/mobile-dropdown.js:119-127 | Unpinning scrolls nowhere exactly when `top` is empty. |
| MobileDropdown.ScrollRoundTrip | static/js/modules/mobile-dropdown.js:112-127 | Pinning and unpinning returns to the same whole-pixel offset. |
| Storage.SavedImageFilename | utils/storage.py:20-46 | Saved images are named "<uuid>.webp". |
| Storage.GeneratedFilename | utils/storage.py:20-22 | A generated name is the UUID, a dot and the extension, nothing more. |
| Storage.SplitExt | utils/storage.py:97 | `os.path.splitext`: the stem plus the extension is the path, and the extension is empty or one dot-led piece without another dot or '/'. |
| Storage.SplitExtOfGenerated | utils/storage.py:20-97 | A generated name splits back into its UUID and its extension. |
| Storage.SaveMetadata | utils/storage.py:84-112 | The metadata file is named stem + ".json". The object gains exactly `timestamp` and `image_filename`, and every other field is kept. |
| Storage.MetadataNamedAfterImage | utils/storage.py:46-97 | A generated image's metadata lives in "<uuid>.json". |
| Storage.GetMetadata | utils/storage.py:114-126 | The stored contents; None when the file is missing (and when it holds `null`). |
| Storage.DeleteFile | utils/storage.py:63-75 | A missing file only warns. A present file is gone afterwards, unless its removal fails; that failure is re-raised and the folder is unchanged. |
| Storage.Newest | utils/storage.py:155-160 | The ".json" files, rearranged newest modification time first. |
| Storage.TotalPages | utils/storage.py:164 | The page count is the ceiling of items / per page: enough pages for every item, none empty at the end. |
| Storage.PageContents | utils/storage.py:165-169 | Page p ≥ 1 is the slice starting at (p − 1) × per page, at most per page long, and empty past the last page. |
| Storage.PagesArePrefix | utils/storage.py:165-169 | The first k pages together are exactly the first k × per page entries: no overlap and no gap. |
| Storage.AllPagesListEverything | utils/storage.py:163-169 | Pages 1 to total_pages list every entry once, in order. |
| Storage.ListImages | utils/storage.py:142-184 | A zero per-page raises. Otherwise the page of the newest-first listing, files whose metadata is empty skipped, with the page count. |
| Storage.ImagesAppend | utils/storage.py:172-175 | A page's metadata is read file by file in listing order: the images of two runs of files are the first run's followed by the second's. |
| Storage.ImagesOfOne | utils/storage.py:174-175 | One file contributes its metadata, or nothing when it is falsy. |
| Storage.ListingBounds | utils/storage.py:163-175 | A page holds at most per page images. A page past the last is empty, with the same page count. |
| ImageConverter.Init | utils/image_converter.py:17-33 | A new converter tracks nothing, and an empty or missing directory means the system's temporary one. |
| ImageConverter.Convert | utils/image_converter.py:40-147 | A missing source fails before anything is made. A conversion failure changes nothing. A success tracks exactly its new file, stamped now, leaving the rest. |
| ImageConverter.Track | utils/image_converter.py:149-152 | The file is tracked with the current time, and other records are unchanged. |
| ImageConverter.ConversionTracksOneMore | utils/image_converter.py:80-152 | A conversion to a fresh name tracks exactly one more file. |
| ImageConverter.CleanupOldFiles | utils/image_converter.py:168-200 | Exactly the records older than the maximum age are dropped, even when deleting fails, and the rest are unchanged. The count is the number of expired files that existed and were removed. |
| ImageConverter.GetTempFileInfo | utils/image_converter.py:202-221 | The total is the number of records, and the old count is the number of expired records (at most the total, zero exactly when none is expired). The directory, maximum age and cleanup interval are the converter's own. |
| ImageConverter.CleanupThenInfo | utils/image_converter.py:168-221 | Right after a cleanup nothing is old at that time. The count is at most the number of records dropped, and the remaining and dropped records make up the original total. |
| LlmClient.NormalizeModelName | api/llm_client.py:39-80 | Exactly the four dated names are replaced by their mapping; every other name is kept. |
| LlmClient.NormalizeIdempotent | api/llm_client.py:50-61 | Normalising twice is normalising once. |
| LlmClient.PrefixedNamesKept | api/llm_client.py:64-65 | Provider-prefixed names are never rewritten. |
| LlmClient.DatedNamesMapped | api/llm_client.py:50-55 | The dated names become "gpt-4.1" and "gpt-4-turbo". |
| LlmClient.ResolveModel | api/llm_client.py:32-35 | The explicit model if non-empty, else `LLM_MODEL`, else "gpt-4", then normalised. |
| LlmClient.Classify | api/llm_client.py:121-137 | A key problem ("authentication", "api key", "invalid", "incorrect" in the lower-cased text) is a ValueError with a fixed text. Otherwise "rate limit" or "too many requests" is a RateLimitError quoting the error. Anything else is re-raised unchanged, keeping its message and its class. |
| LlmClient.Finish | api/llm_client.py:116-195 | A completion returns its stripped text, and a failure is classified. |
| LlmClient.ClassificationIgnoresCase | api/llm_client.py:122 | The class of an error does not depend on letter case. |
| LlmClient.AuthBeforeRateLimit | api/llm_client.py:125-132 | An error naming both a key problem and a rate limit is a key problem. |
| LlmClient.AuthenticationExample | tests/unit/test_llm_client.py:61-67 | "authentication failed" becomes the configuration ValueError. |
| LlmClient.OtherErrorExample | tests/unit/test_llm_client.py:77-83 | "Some other error" is re-raised unchanged. |
| OpenAiClient.TranslateToEnglish | api/openai_client.py:23-78 | A completion returns its stripped text, and a key problem is reported with the "OpenAI" text. |
| OpenAiClient.ImprovePrompt | api/openai_client.py:80-136 | A completion returns its stripped text, and a rate limit is reported with the "OpenAI" prefix. |
| OpenAiClient.SameClassification | api/openai_client.py:62-78 | Both clients put every failure in the same class, and re-raise the same errors. |
| ReplicateClient.GenerateSeed | api/replicate_client.py:105-107 | A seed is the big-endian value of four bytes, reduced below one thousand million. |
| ReplicateClient.EverySeedPossible | api/replicate_client.py:107 | Every seed below one thousand million can be drawn. |
| ReplicateClient.PrepareInput | api/replicate_client.py:38-42 | The prompt is overwritten. A caller's seed is kept, a generated one is added only when absent, and nothing else changes. |
| ReplicateClient.PrepareTwice | api/replicate_client.py:38-42 | Preparing a prepared input again changes nothing. |
| ReplicateClient.SelectOutput | api/replicate_client.py:56-62 | A falsy output is an error. A list gives its first element, and anything else is the URL itself. |
| ReplicateClient.GenerateImage | api/replicate_client.py:23-103 | The caller's parameters become the prepared input. Success needs a run with output and a download, and returns the downloaded file with metadata carrying exactly model_id, prompt and the prepared input. |
| ReplicateClient.GetModelDetails | api/replicate_client.py:111-146 | The schema, unchanged, exactly when there is a latest version with a non-empty schema; None otherwise. |
| App.ParseReplicateModels | app.py:68 | No models exactly when the variable is unset or empty. Otherwise its comma-split pieces, which join back to it. |
| App.ListModels | app.py:186-190 | `/api/models` answers 200 with an object whose only key `models` lists the configured names as texts, in order. |
| App.ListedModelsRebuildVariable | app.py:68 | For a set variable the listed names are at least one text, and joined with commas they give the variable back. |
| App.AbortReply | app.py:110-159 | 400, 404 and 502 replies carry the description as message; a 500 always says the same thing. |
| App.RequireModelId | app.py:98-107 | A request passes exactly for a configured model; otherwise 404 naming it. |
| App.ModelDetails | app.py:192-218 | An unconfigured id is 404 without asking the client. A cached id is answered from the cache. Otherwise the client is asked: a schema is cached and returned, and a failure is 502 with nothing cached. |
| App.CacheIsPermanent | app.py:199-208 | Over any sequence of requests a cached schema stays cached unchanged, later requests for it never ask the client, and the cache holds only configured models. |
| App.FetchedThenCached | tests/unit/test_app.py:119-134 | A fetched schema is served from the cache the second time. |
| App.FailedFetchNotCached | tests/unit/test_app.py:107-117 | A failed fetch caches nothing and gives 502. |
| App.ValidateGenerate | app.py:226-243 | Checks run in order: JSON body, prompt, model id, configured model; the first failure decides the 400 message, and an unconfigured model is named in "Model '<id>' not found or not configured.". A truthy non-object body is the fixed 500. |
| App.Augment | app.py:254-259 | Non-object metadata becomes `{}`. The four fields are added, and other fields are kept. |
| App.SaveGeneration | app.py:261-263 | The image is named by the UUID. Its metadata file is named after it and holds the augmented metadata, the time stamp and the image's name. |
| App.GenerateImage | app.py:222-275 | A failed validation is its 400 reply with no translation or generation. Success (200, files saved) happens exactly when everything goes right; once validation passes, any failure is the fixed 500 "Unexpected error generating image". |
| App.ValidationFailsEarly | tests/unit/test_app.py:185-236 | A missing prompt or model, or an unconfigured model, is a 400 with no translation or generation. |
| App.SavedParametersCarryPromptAndSeed | api/replicate_client.py:38-42 | The saved parameters are the ones the client changed in place: the translated prompt is in them, and so is a seed. |
| App.GeneratedFilesNamedById | app.py:265-269 | The image id is the UUID, the URL is "/images/<uuid>.webp", and both files are named after it. |
| App.DeleteImage | app.py:342-359 | The image file, then the metadata file, is removed; missing files still give a success. A failed removal gives the 500 "Error deleting image", and a failed image removal leaves the metadata file in place. |
| App.DeleteUndoesGenerate | app.py:265-351 | Deleting by the id a generation returned removes exactly the two files it wrote when both removals succeed, and removes neither when the image's removal fails. |
| App.GetMetadata | app.py:326-340 | 404 exactly when the file is missing or holds null; otherwise the stored object. |
| App.PyInt | app.py:314-315 | Python's `int()` of an argument needs at least one character. |
| App.PyIntOfNatToString | app.py:314-315 | A number's own decimal text reads back as it. |
| App.ListImages | app.py:309-324 | 200 exactly when both arguments are integers and per-page is non-zero, and then it carries the storage listing; otherwise the fixed 500. |
| App.DefaultListing | app.py:314-315 | Without arguments, the first page of at most twelve images is returned. |
| App.ImprovePrompt | app.py:278-307 | Missing body or prompt is 400, and a truthy non-object body is 500. An improved text is returned. Any ValueError, whether the key-problem error or one re-raised unchanged, is 401 with a configuration error carrying its message; anything else is 500. |
| App.KeyProblemShownAsConfigurationError | app.py:294-300 | A rejected key reaches the user as "API Configuration Error: " followed by the client's message. |
| App.UnclassifiedErrorByClass | app.py:294-301 | An error with no key or rate keyword reaches the route with its class: a ValueError is 401 carrying its message, any other class is 500. |

## Left out

- Markup and jQuery/Bootstrap work are not modelled: HTML strings, tooltips, range displays, labels (`createLabel`), slide animations, event binding and the `initialize*` functions. Each input is a `Control` value instead.
- `fetch` and the back end's network calls are foreign. This covers litellm, OpenAI, Replicate and the download with `requests`. Their outcomes are parameters (`Completion`, `ModelLookup`, `run`, `download`, `ModelsResponse`, `Response`).
- Flask plumbing is not modelled: routing, the rate limiter (and its 429 handler), CORS, logging and `request.get_json` failures. A request body is a JSON value; a malformed body is not modelled.
- `static/js/modules/storage.js`, `ui.js` and `photoswipe-gallery.js` are not part of this model. They hold persistence over localStorage, the spinner and error modal, and a third-party viewer. `saveFormState` is modelled only as its condition and contents.
- Image pixels (PIL), the background cleanup thread and its lock, and the file system are outside the model. Whether a file exists, whether it can be removed, the current time and the random part of a temporary name are parameters. A temporary path is written `dir + "/" + name + suffix`.
- Randomness is a parameter: UUIDs, `os.urandom` and `time.time`.
- Text handling is ASCII-only. `ToLower`, `trim` and `strip` act on ASCII letters and white space.
- `parseFloat` and `parseInt` skip leading white space, then read a sign, decimal digits and an optional fraction. Exponents, "Infinity" and hexadecimal are not read.
- `Numbers.NumberOfText` (`Number` of a text) reads the same literals with white space allowed on both sides. Exponents, "Infinity" and hexadecimal are not read; such text is taken as NaN.
- The text of a number (`String(n)`) is not built. Reading it back with `parseFloat` or `Number` is taken to give the number itself.
- The `/` page (a rendered template) and `/health` (a fixed reply) are not modelled: neither decides anything.
- Python's `int()` accepts a sign and decimal digits only. Surrounding white space and underscores are not accepted.
- Numbers are exact reals; IEEE-754 rounding error is not modelled. NaN appears only where the code tests for it.
- Scroll offsets are whole pixels; a fractional `scrollY` is not modelled.
- JSON objects are maps. Their key order shows only where the code iterates over it: the schema's properties and the saved parameters are sequences.
- The model-details route's 500 branch cannot be reached in the model. Its calls do not raise: the client turns every error into None.
- `IdText` gives the empty string for a model id that is neither a string nor a boolean. That id only appears in the 400 message.
- `encodeURIComponent` and URL building are not modelled. The back end's `/images/<filename>` route is not modelled either.
- The touch-feedback timers, the backdrop and Escape handlers of the download menu, and listener registration are not modelled.
- Hiding and showing the dimension inputs is not modelled as a step. The form hides them when it has an aspect selector, and the selector hides or shows them. The field's `dimensionWrapper` flag records which inputs this affects.
- `main.js` repeats most of the modules' code (form generation, gallery, viewer, API calls). Each repeated piece is modelled once, from the module. The pieces that exist only in `main.js` are modelled from `main.js`: the collector, copy settings, the click guard, `saveFormState` and the hide-only close.
- `api-client.js` `deleteImage` and the front end's `improvePrompt` success path are request plumbing and are not modelled. Their error messages are modelled in `ApiClient`.
- The rate-limit example of the language-model client's tests has no lemma. The rule it illustrates is stated for every message by `LlmClient.Classify` and `LlmClient.AuthBeforeRateLimit`.
- AspectRatio.ParseRatio: its contract states only the square fallback. The quotient of a well-formed string is stated by `AspectRatio.ParseRatioOfPieces` and `AspectRatio.ParseRatioOfTerms`.
- MobileDropdown.RestoreTarget: its contract states only the empty case. The restored offset is stated by `MobileDropdown.ScrollRoundTrip` for the texts that pinning writes.
- App.PyInt: its contract states only that empty text fails. `App.PyIntOfNatToString` states the value for decimal text.
- OpenAiClient.TranslateToEnglish: its contract states the key-problem text only. The full classification is `OpenAiClient.SameClassification` together with `LlmClient.Classify`.
- OpenAiClient.ImprovePrompt: its contract states the rate-limit text only, for the same reason.

=== FILE: api_client.dfy ===
/** The browser's calls to the back end: the model list and the names shown
    for models, the guard in front of a parameter-schema request, and the
    error messages built from failed responses. */
module ApiClient {
  import opened Wrappers
  import Text
  import Numbers

  /** The name shown for a model id: its last '/'-separated segment with
      every '-' and '_' turned into a space. */
  function DisplayName(modelId: string): (name: string)
    ensures |name| == |Text.LastSegment(modelId, '/')|
    ensures forall i :: 0 <= i < |name| ==> name[i] != '/' && name[i] != '-' && name[i] != '_'
    ensures forall i :: 0 <= i < |name| ==>
      var c := Text.LastSegment(modelId, '/')[i];
      name[i] == if c == '-' || c == '_' then ' ' else c
  {
    Text.ReplaceAll(Text.ReplaceAll(Text.LastSegment(modelId, '/'), '-', ' '), '_', ' ')
  }

  /** The owner part of an id does not show: the name of "owner/model" is
      the name of "model". */
  lemma DisplayNameDropsOwner(owner: string, model: string)
    requires '/' !in model
    ensures DisplayName(owner + "/" + model) == DisplayName(model)
  {
    LastSegmentAfterSeparator(owner, model);
    assert Text.LastSegment(model, '/') == model by {
      LastSegmentWithoutSeparator(model);
    }
  }

  lemma {:induction false} LastSegmentWithoutSeparator(s: string)
    requires '/' !in s
    ensures Text.LastSegment(s, '/') == s
    decreases |s|
  {
    var r := Text.LastSegment(s, '/');
    assert s[|s| - |r|..] == s;
  }

  lemma {:induction false} LastSegmentAfterSeparator(owner: string, model: string)
    requires '/' !in model
    ensures Text.LastSegment(owner + "/" + model, '/') == model
    decreases |model|
  {
    var s := owner + "/" + model;
    if |model| == 0 {
      assert s[|s| - 1] == '/';
    } else {
      var init := model[..|model| - 1];
      assert s[..|s| - 1] == owner + "/" + init;
      assert s[|s| - 1] == model[|model| - 1];
      LastSegmentAfterSeparator(owner, init);
      assert init + [model[|model| - 1]] == model;
    }
  }

  /** An option of the model select: value and text. */
  datatype SelectOption = SelectOption(value: string, text: string, disabled: bool)

  /** The answer to `/api/models`: the `models` field (absent when `None`),
      or a failure. */
  datatype ModelsResponse = ModelsLoaded(models: Option<seq<string>>) | ModelsFailed(error: string)

  /** What `loadModels` returns and leaves in the model select. */
  datatype ModelsOutcome = ModelsOutcome(result: Option<seq<string>>, options: seq<SelectOption>, selectDisabled: bool)

  /** `loadModels`: the list when it is non-empty, an empty list when it is
      empty or absent, `null` on a failure or without the select. */
  function LoadModels(ready: bool, response: ModelsResponse): (r: Option<ModelsOutcome>)
    ensures r.None? <==> !ready
    ensures r.Some? && response.ModelsFailed? ==> r.value.result.None? && r.value.selectDisabled
    ensures r.Some? && response.ModelsLoaded? ==>
      var models := response.models.GetOr([]);
      && r.value.result == Some(models)
      && (r.value.selectDisabled <==> |models| == 0)
      && (|models| > 0 ==>
            |r.value.options| == |models| + 1
            && forall i :: 0 <= i < |models| ==>
                 r.value.options[i + 1] == SelectOption(models[i], DisplayName(models[i]), false))
  {
    if !ready then None
    else match response
      case ModelsFailed(_) =>
        Some(ModelsOutcome(None, [SelectOption("", "Error loading models", true)], true))
      case ModelsLoaded(models) =>
        var placeholder := SelectOption("", "Select model...", true);
        if models.Some? && |models.value| > 0 then
          var ms := models.value;
          var listed := seq(|ms|, i requires 0 <= i < |ms| => SelectOption(ms[i], DisplayName(ms[i]), false));
          Some(ModelsOutcome(Some(ms), [placeholder] + listed, false))
        else
          Some(ModelsOutcome(Some([]), [placeholder, SelectOption("", "No models configured", true)], true))
  }

  /** What `loadModelParams` does before any request. */
  datatype ParamsStart = Untouched | Emptied | Requested(modelId: string)

  /** An empty model id only empties the parameter container (when it
      exists); no request is made then. */
  function LoadModelParams(ready: bool, modelId: Option<string>): (r: ParamsStart)
    ensures r.Requested? <==> ready && modelId.Some? && modelId.value != ""
    ensures r.Requested? ==> r.modelId == modelId.value
    ensures r == Emptied <==> ready && (modelId.None? || modelId.value == "")
  {
    if modelId.None? || modelId.value == "" || !ready then (if ready then Emptied else Untouched)
    else Requested(modelId.value)
  }

  predicate Truthy(o: Option<string>) {
    o.Some? && o.value != ""
  }

  /** JavaScript `a || b || …` over optional strings: the first non-empty
      one, or the fallback. */
  function FirstTruthy(candidates: seq<Option<string>>, fallback: string): (s: string)
    ensures (forall i :: 0 <= i < |candidates| ==> !Truthy(candidates[i])) ==> s == fallback
    ensures forall i :: 0 <= i < |candidates| ==>
      (Truthy(candidates[i]) && (forall j :: 0 <= j < i ==> !Truthy(candidates[j])) ==> s == candidates[i].value)
  {
    if |candidates| == 0 then fallback
    else if Truthy(candidates[0]) then candidates[0].value
    else FirstTruthy(candidates[1..], fallback)
  }

  /** A response body's `error` and `message` fields; absent when `None`. */
  datatype ErrorBody = ErrorBody(error: Option<string>, message: Option<string>, typ: Option<string>)

  /** The text a template literal gives an optional string. */
  function Printed(s: Option<string>): string {
    match s
    case None => "undefined"
    case Some(t) => t
  }

  /** The message of a failed parameter-schema request: the status, then
      the body's error, its message, or the status text. */
  function ParamsError(status: nat, body: ErrorBody, statusText: string): (m: string)
    ensures var prefix := "Error " + Numbers.NatToString(status) + ": ";
      && |prefix| <= |m| && m[..|prefix|] == prefix
      && m[|prefix|..] == if Truthy(body.error) then body.error.value
                          else if Truthy(body.message) then body.message.value
                          else statusText
  {
    var c := [body.error, body.message];
    assert c[0] == body.error && c[1] == body.message;
    "Error " + Numbers.NatToString(status) + ": " + FirstTruthy([body.error, body.message], statusText)
  }

  /** The message of a failed generation request: the body's error, its
      message, or "Error N" for status N. */
  function GenerateError(status: nat, body: ErrorBody): (m: string)
    ensures Truthy(body.error) ==> m == body.error.value
    ensures !Truthy(body.error) && Truthy(body.message) ==> m == body.message.value
    ensures !Truthy(body.error) && !Truthy(body.message) ==> m == "Error " + Numbers.NatToString(status)
  {
    var c := [body.error, body.message];
    assert c[0] == body.error && c[1] == body.message;
    FirstTruthy([body.error, body.message], "Error " + Numbers.NatToString(status))
  }

  /** The message of a failed prompt improvement. */
  function ImproveError(status: nat, body: ErrorBody): (m: string)
    ensures status == 401 && body.typ == Some("ConfigurationError") ==>
      m == "API Configuration Error: " + Printed(body.message)
    ensures !(status == 401 && body.typ == Some("ConfigurationError")) ==>
      && (Truthy(body.error) ==> m == body.error.value)
      && (!Truthy(body.error) && Truthy(body.message) ==> m == body.message.value)
      && (!Truthy(body.error) && !Truthy(body.message) ==> m == "Unknown error")
  {
    var c := [body.error, body.message];
    assert c[0] == body.error && c[1] == body.message;
    if status == 401 && body.typ == Some("ConfigurationError") then "API Configuration Error: " + Printed(body.message)
    else FirstTruthy([body.error, body.message], "Unknown error")
  }

  /** Error messages prefer the body's `error` field to its `message`, and
      fall back to the status only when both are empty or absent. */
  lemma ErrorPrecedence(status: nat, body: ErrorBody, statusText: string)
    ensures body.error.Some? && body.error.value != "" ==>
      && GenerateError(status, body) == body.error.value
      && ParamsError(status, body, statusText) == "Error " + Numbers.NatToString(status) + ": " + body.error.value
    ensures (body.error.None? || body.error.value == "") && body.message.Some? && body.message.value != "" ==>
      GenerateError(status, body) == body.message.value
    ensures (body.error.None? || body.error.value == "") && (body.message.None? || body.message.value == "") ==>
      && GenerateError(status, body) == "Error " + Numbers.NatToString(status)
      && ParamsError(status, body, statusText) == "Error " + Numbers.NatToString(status) + ": " + statusText
  {
    var c := [body.error, body.message];
    assert c[0] == body.error && c[1] == body.message;
  }
}

=== FILE: app.dfy ===
/** The Flask application's routes as functions from a request (and the
    outcomes of the calls they make) to a reply: the configured model list,
    the model-details cache, image generation with its validation order and
    the metadata it saves, prompt improvement, the gallery listing, metadata
    lookup and deletion. */
module App {
  import opened Wrappers
  import opened Json
  import Text
  import Numbers
  import Storage
  import LlmClient
  import ReplicateClient
  import ApiClient
  import Coercion

  /** `REPLICATE_MODELS`: the comma-separated pieces of the variable, none
      when it is unset or empty. */
  function ParseReplicateModels(env: Option<string>): (models: seq<string>)
    ensures models == [] <==> env.None? || env.value == ""
    ensures models != [] ==> Text.Join(models, ',') == env.value
    ensures forall i :: 0 <= i < |models| ==> ',' !in models[i]
  {
    if env.Some? && env.value != "" then
      Text.JoinSplit(env.value, ',');
      Text.Split(env.value, ',')
    else []
  }

  /** A reply: status code and JSON body. */
  datatype Reply = Reply(status: nat, body: Value)

  /** `get_models`: the configured model ids, in order. */
  function ListModels(models: seq<string>): (r: Reply)
    ensures r.status == 200 && r.body.Obj? && r.body.fields.Keys == {"models"}
    ensures r.body.fields["models"].Arr? && |r.body.fields["models"].items| == |models|
    ensures forall i :: 0 <= i < |models| ==> r.body.fields["models"].items[i] == Str(models[i])
  {
    Reply(200, Obj(map["models" := Arr(Coercion.Strs(models))]))
  }

  /** The listed models joined by commas give back a non-empty
      `REPLICATE_MODELS` variable. */
  lemma ListedModelsRebuildVariable(env: string)
    requires env != ""
    ensures var listed := ListModels(ParseReplicateModels(Some(env))).body.fields["models"].items;
      && |listed| >= 1
      && (forall i :: 0 <= i < |listed| ==> listed[i].Str?)
      && Text.Join(seq(|listed|, i requires 0 <= i < |listed| => listed[i].s), ',') == env
  {
    var models := ParseReplicateModels(Some(env));
    var listed := ListModels(models).body.fields["models"].items;
    assert seq(|listed|, i requires 0 <= i < |listed| => listed[i].s) == models;
  }

  /** An `abort` with a description. */
  datatype Abort = BadRequest(description: string) | NotFound(description: string)
                 | BadGateway(description: string) | InternalError(description: string)

  function ErrorBody(error: string, message: string, typ: string): Value {
    Obj(map["error" := Str(error), "message" := Str(message), "type" := Str(typ)])
  }

  /** The error handlers: the description becomes the message, except that
      a 500 always says the same thing. */
  function AbortReply(a: Abort): (r: Reply)
    ensures !a.InternalError? ==>
      r.body.Obj? && "message" in r.body.fields && r.body.fields["message"] == Str(a.description)
    ensures a.InternalError? ==> r == Reply(500, ErrorBody("Internal server error", "An unexpected error occurred", "InternalServerError"))
    ensures r.status == match a
      case BadRequest(_) => 400
      case NotFound(_) => 404
      case BadGateway(_) => 502
      case InternalError(_) => 500
  {
    match a
    case BadRequest(d) => Reply(400, ErrorBody("Bad request", d, "BadRequestError"))
    case NotFound(d) => Reply(404, ErrorBody("Not found", d, "NotFoundError"))
    case BadGateway(d) => Reply(502, ErrorBody("Bad gateway", d, "BadGatewayError"))
    case InternalError(_) => Reply(500, ErrorBody("Internal server error", "An unexpected error occurred", "InternalServerError"))
  }

  function Ok(body: Value): Reply {
    Reply(200, body)
  }

  function ModelNotFound(modelId: string): string {
    "Model '" + modelId + "' not found or not configured."
  }

  /** `require_model_id`: `None` lets the request through. */
  function RequireModelId(models: seq<string>, modelId: string): (r: Option<Reply>)
    ensures r.None? <==> modelId in models
    ensures r.Some? ==> r.value == AbortReply(NotFound(ModelNotFound(modelId)))
  {
    if modelId !in models then Some(AbortReply(NotFound(ModelNotFound(modelId)))) else None
  }

  /** A model-details request's reply, the cache afterwards, and whether the
      client was asked.  `lookup` is what the client's lookup gives. */
  datatype Served = Served(reply: Reply, cache: map<string, Value>, called: bool)

  /** `get_model_details_route`. */
  function ModelDetails(models: seq<string>, cache: map<string, Value>, modelId: string,
                        lookup: ReplicateClient.ModelLookup): (s: Served)
    ensures modelId !in models ==>
      s == Served(AbortReply(NotFound(ModelNotFound(modelId))), cache, false)
    ensures modelId in models && modelId in cache ==> s == Served(Ok(cache[modelId]), cache, false)
    ensures modelId in models && modelId !in cache ==> s.called
    ensures s.called ==>
      var details := ReplicateClient.GetModelDetails(lookup);
      && (details.Some? ==> s == Served(Ok(details.value), cache[modelId := details.value], true))
      && (details.None? ==> s == Served(AbortReply(BadGateway("Failed to fetch model details from Replicate")), cache, true))
  {
    match RequireModelId(models, modelId)
    case Some(reply) => Served(reply, cache, false)
    case None =>
      if modelId in cache then Served(Ok(cache[modelId]), cache, false)
      else
        var details := ReplicateClient.GetModelDetails(lookup);
        if details.Some? && PyTruthy(details.value) then Served(Ok(details.value), cache[modelId := details.value], true)
        else Served(AbortReply(BadGateway("Failed to fetch model details from Replicate")), cache, true)
  }

  /** What the cache holds: configured models and non-empty schemas. */
  predicate CacheInv(models: seq<string>, cache: map<string, Value>) {
    forall k :: k in cache ==> k in models && PyTruthy(cache[k])
  }

  datatype DetailsRequest = DetailsRequest(modelId: string, lookup: ReplicateClient.ModelLookup)

  /** A sequence of model-details requests, the cache carried from one to
      the next. */
  function ServeAll(models: seq<string>, cache: map<string, Value>, requests: seq<DetailsRequest>)
    : (r: (map<string, Value>, seq<Served>))
    ensures |r.1| == |requests|
    decreases |requests|
  {
    if |requests| == 0 then (cache, [])
    else
      var first := ModelDetails(models, cache, requests[0].modelId, requests[0].lookup);
      var rest := ServeAll(models, first.cache, requests[1..]);
      (rest.0, [first] + rest.1)
  }

  /** Once a model's details are cached they stay cached, unchanged, and
      every later request for that model is answered from the cache without
      asking the client; the cache holds only configured models. */
  lemma {:induction false} CacheIsPermanent(models: seq<string>, cache: map<string, Value>,
                                           requests: seq<DetailsRequest>)
    requires CacheInv(models, cache)
    ensures var (final, served) := ServeAll(models, cache, requests);
      && CacheInv(models, final)
      && (forall k :: k in cache ==> k in final && final[k] == cache[k])
      && (forall i :: 0 <= i < |requests| && requests[i].modelId in cache ==>
            !served[i].called && served[i].reply == Ok(cache[requests[i].modelId]))
    decreases |requests|
  {
    if |requests| > 0 {
      var first := ModelDetails(models, cache, requests[0].modelId, requests[0].lookup);
      assert CacheInv(models, first.cache);
      assert forall k :: k in cache ==> k in first.cache && first.cache[k] == cache[k];
      CacheIsPermanent(models, first.cache, requests[1..]);
      var (final, served) := ServeAll(models, cache, requests);
      forall i | 0 <= i < |requests| && requests[i].modelId in cache
        ensures !served[i].called && served[i].reply == Ok(cache[requests[i].modelId])
      {
        if i > 0 {
          assert requests[i] == requests[1..][i - 1];
          assert served[i] == ServeAll(models, first.cache, requests[1..]).1[i - 1];
        }
      }
    }
  }

  /** A fetched schema is cached: asking again never calls the client. */
  lemma FetchedThenCached(models: seq<string>, cache: map<string, Value>, modelId: string,
                          lookup: ReplicateClient.ModelLookup, again: ReplicateClient.ModelLookup)
    requires modelId in models && modelId !in cache
    requires lookup.LatestVersion? && PyTruthy(lookup.schema)
    ensures var first := ModelDetails(models, cache, modelId, lookup);
      var second := ModelDetails(models, first.cache, modelId, again);
      first.called && !second.called && second.reply == first.reply == Ok(lookup.schema)
  {
  }

  /** A failed fetch caches nothing and gives 502. */
  lemma FailedFetchNotCached(models: seq<string>, cache: map<string, Value>, modelId: string,
                             lookup: ReplicateClient.ModelLookup)
    requires modelId in models && modelId !in cache
    requires !lookup.LatestVersion? || !PyTruthy(lookup.schema)
    ensures var s := ModelDetails(models, cache, modelId, lookup);
      s.cache == cache && s.reply.status == 502 && s.called
  {
  }

  /** The text of a model id in the not-configured message. */
  function IdText(v: Value): string {
    match v
    case Str(s) => s
    case Bool(b) => if b then "True" else "False"
    case _ => ""
  }

  /** `generate_image`'s checks, in order: `None` when the request passes. */
  function ValidateGenerate(models: seq<string>, data: Value): (r: Option<Abort>)
    ensures !PyTruthy(data) ==> r == Some(BadRequest("Invalid JSON payload"))
    ensures PyTruthy(data) && !data.Obj? ==> r == Some(InternalError("Unexpected error generating image"))
    ensures data.Obj? && PyTruthy(data) ==>
      var prompt := Get(data.fields, "prompt", Null);
      var modelId := Get(data.fields, "model_id", Null);
      && (!PyTruthy(prompt) ==> r == Some(BadRequest("Prompt is required")))
      && (PyTruthy(prompt) && !PyTruthy(modelId) ==> r == Some(BadRequest("Model ID is required")))
      && (PyTruthy(prompt) && PyTruthy(modelId) ==>
            (r.None? <==> modelId.Str? && modelId.s in models))
      && (PyTruthy(prompt) && PyTruthy(modelId) && !(modelId.Str? && modelId.s in models) ==>
            r == Some(BadRequest(ModelNotFound(IdText(modelId)))))
      && (r.None? ==> modelId.Str? && modelId.s in models)
  {
    if !PyTruthy(data) then Some(BadRequest("Invalid JSON payload"))
    else if !data.Obj? then Some(InternalError("Unexpected error generating image"))
    else
      var prompt := Get(data.fields, "prompt", Null);
      var modelId := Get(data.fields, "model_id", Null);
      if !PyTruthy(prompt) then Some(BadRequest("Prompt is required"))
      else if !PyTruthy(modelId) then Some(BadRequest("Model ID is required"))
      else if !(modelId.Str? && modelId.s in models) then Some(BadRequest(ModelNotFound(IdText(modelId))))
      else None
  }

  /** The saved metadata: the generation's metadata (an empty object when it
      is not one) with the original prompt, the translation, the model and
      the parameters as the client left them. */
  function Augment(metadata: Value, prompt: Value, translated: string, modelId: string,
                   parameters: map<string, Value>): (m: map<string, Value>)
    ensures m.Keys == (if metadata.Obj? then metadata.fields.Keys else {})
                      + {"original_prompt", "translated_prompt", "model_id", "parameters"}
    ensures m["original_prompt"] == prompt && m["translated_prompt"] == Str(translated)
    ensures m["model_id"] == Str(modelId) && m["parameters"] == Obj(parameters)
    ensures metadata.Obj? ==> forall k :: k in metadata.fields ==>
      (k != "original_prompt" && k != "translated_prompt" && k != "model_id" && k != "parameters") ==>
        m[k] == metadata.fields[k]
  {
    var base := if metadata.Obj? then metadata.fields else map[];
    base["original_prompt" := prompt]["translated_prompt" := Str(translated)]
        ["model_id" := Str(modelId)]["parameters" := Obj(parameters)]
  }

  /** The files a successful generation writes: the image's name, and the
      metadata file's name and contents. */
  datatype Saved = Saved(imageFilename: string, metadataFilename: string, metadata: map<string, Value>)

  /** The reply, the files written, and how far the request got. */
  datatype Generation = Generation(reply: Reply, saved: Option<Saved>, translated: bool, generated: bool)

  /** The outside world of one generation: the translation's outcome, the
      random seed, the model run and the download, the UUID of the saved
      image and the time stamp of its metadata. */
  datatype World = World(translation: LlmClient.Outcome, seed: nat, run: Result<Value, string>,
                         download: Result<string, string>, uuid: string, timestamp: string)

  /** The files written for a generated image: the image named by the UUID,
      and its metadata file holding the augmented metadata, the image's name
      and the time stamp. */
  function SaveGeneration(runMetadata: map<string, Value>, prompt: Value, translated: string,
                          modelId: string, input: map<string, Value>, uuid: string, timestamp: string)
    : (s: Saved)
    ensures s.imageFilename == Storage.SavedImageFilename(uuid)
    ensures s.metadataFilename == Storage.SplitExt(s.imageFilename).0 + ".json"
    ensures s.metadata.Keys == runMetadata.Keys + {"original_prompt", "translated_prompt", "model_id",
                                                   "parameters", "timestamp", "image_filename"}
    ensures s.metadata["original_prompt"] == prompt && s.metadata["translated_prompt"] == Str(translated)
    ensures s.metadata["model_id"] == Str(modelId) && s.metadata["parameters"] == Obj(input)
    ensures s.metadata["image_filename"] == Str(s.imageFilename) && s.metadata["timestamp"] == Str(timestamp)
  {
    var metadata := Augment(Obj(runMetadata), prompt, translated, modelId, input);
    var imageFilename := Storage.SavedImageFilename(uuid);
    var (metadataFilename, saved) := Storage.SaveMetadata(imageFilename, metadata, timestamp);
    KeptByStamp(metadata, saved, timestamp, imageFilename);
    Saved(imageFilename, metadataFilename, saved)
  }

  /** Stamping the metadata keeps the four fields added before. */
  lemma KeptByStamp(metadata: map<string, Value>, saved: map<string, Value>, timestamp: string, imageFilename: string)
    requires forall k :: k in metadata && k != "timestamp" && k != "image_filename" ==> k in saved && saved[k] == metadata[k]
    requires "original_prompt" in metadata && "translated_prompt" in metadata
    requires "model_id" in metadata && "parameters" in metadata
    ensures saved["original_prompt"] == metadata["original_prompt"]
    ensures saved["translated_prompt"] == metadata["translated_prompt"]
    ensures saved["model_id"] == metadata["model_id"] && saved["parameters"] == metadata["parameters"]
  {
    assert |"original_prompt"| == 15 && |"translated_prompt"| == 17 && |"model_id"| == 8 && |"parameters"| == 10;
    assert |"timestamp"| == 9 && |"image_filename"| == 14;
  }

  /** The reply to a successful generation. */
  function SuccessBody(imageFilename: string): Value {
    Obj(map["status" := Str("success"),
            "image_id" := Str(Storage.SplitExt(imageFilename).0),
            "image_url" := Str("/images/" + imageFilename)])
  }

  /** Everything a generation needs goes right. */
  predicate Succeeds(models: seq<string>, data: Value, w: World) {
    && ValidateGenerate(models, data).None?
    && data.Obj?
    && w.translation.Returned?
    && Get(data.fields, "parameters", Obj(map[])).Obj?
    && w.run.Success? && PyTruthy(w.run.value)
    && w.download.Success?
  }

  /** `generate_image`. */
  function GenerateImage(models: seq<string>, data: Value, w: World): (g: Generation)
    ensures ValidateGenerate(models, data).Some? ==>
      g == Generation(AbortReply(ValidateGenerate(models, data).value), None, false, false)
    ensures g.saved.Some? <==> g.reply.status == 200
    ensures g.reply.status == 200 <==> Succeeds(models, data, w)
    ensures g.reply.status != 200 ==> g.reply.status == 400 || g.reply == AbortReply(InternalError("Unexpected error generating image"))
    ensures ValidateGenerate(models, data).None? && !Succeeds(models, data, w) ==>
      g.reply == AbortReply(InternalError("Unexpected error generating image")) && g.translated
    ensures g.generated ==> g.translated
    ensures Succeeds(models, data, w) ==>
      var t := w.translation.text;
      var modelId := data.fields["model_id"].s;
      var input := ReplicateClient.PrepareInput(Get(data.fields, "parameters", Obj(map[])).fields, t, w.seed);
      && g.saved == Some(SaveGeneration(ReplicateClient.RunMetadata(modelId, t, input), data.fields["prompt"],
                                        t, modelId, input, w.uuid, w.timestamp))
      && g.reply.body == SuccessBody(g.saved.value.imageFilename)
  {
    match ValidateGenerate(models, data)
    case Some(a) => Generation(AbortReply(a), None, false, false)
    case None =>
      var prompt := data.fields["prompt"];
      var modelId := data.fields["model_id"].s;
      var params := Get(data.fields, "parameters", Obj(map[]));
      var failed := AbortReply(InternalError("Unexpected error generating image"));
      if !w.translation.Returned? then Generation(failed, None, true, false)
      else if !params.Obj? then Generation(failed, None, true, false)
      else
        var t := w.translation.text;
        var (input, result) := ReplicateClient.GenerateImage(t, modelId, params.fields, w.seed, w.run, w.download);
        if result.Failure? then Generation(failed, None, true, true)
        else
          var saved := SaveGeneration(result.value.metadata, prompt, t, modelId, input, w.uuid, w.timestamp);
          Generation(Ok(SuccessBody(saved.imageFilename)), Some(saved), true, true)
  }

  /** A request that fails validation gets a 400 and neither translates nor
      generates; the first failing check decides the message. */
  lemma ValidationFailsEarly(models: seq<string>, data: Value, w: World)
    requires data.Obj? && PyTruthy(data)
    ensures var g := GenerateImage(models, data, w);
      var prompt, modelId := Get(data.fields, "prompt", Null), Get(data.fields, "model_id", Null);
      && (!PyTruthy(prompt) ==> g.reply == AbortReply(BadRequest("Prompt is required")))
      && (PyTruthy(prompt) && !PyTruthy(modelId) ==> g.reply == AbortReply(BadRequest("Model ID is required")))
      && (!(modelId.Str? && modelId.s in models) ==> g.reply.status == 400 && !g.translated && !g.generated)
  {
  }

  /** The saved parameters are the caller's, with the translated prompt in
      them and a seed added when the caller sent none. */
  lemma SavedParametersCarryPromptAndSeed(models: seq<string>, data: Value, w: World)
    requires Succeeds(models, data, w)
    ensures var s := GenerateImage(models, data, w).saved.value;
      var params := s.metadata["parameters"].fields;
      && s.metadata["parameters"].Obj?
      && params["prompt"] == s.metadata["translated_prompt"]
      && "seed" in params
      && var sent := Get(data.fields, "parameters", Obj(map[])).fields;
      && ("seed" !in sent ==> params["seed"] == Num(w.seed as real))
      && ("seed" in sent ==> params["seed"] == sent["seed"])
  {
  }

  /** The image id of a generated image is its UUID, and both files are
      named after it. */
  lemma GeneratedFilesNamedById(models: seq<string>, data: Value, w: World)
    requires w.uuid != "" && '.' !in w.uuid && '/' !in w.uuid
    requires Succeeds(models, data, w)
    ensures var g := GenerateImage(models, data, w);
      && g.reply.body == SuccessBody(w.uuid + ".webp")
      && Storage.SplitExt(w.uuid + ".webp").0 == w.uuid
      && g.saved.value.imageFilename == w.uuid + ".webp"
      && g.saved.value.metadataFilename == w.uuid + ".json"
  {
    Storage.SplitExtOfGenerated(w.uuid, "webp");
  }

  /** `delete_image`: the image file, then the metadata file.  Missing files
      only produce warnings.  `imageRemovable` and `metadataRemovable` say
      whether `os.remove` succeeds on each; the first failure stops the
      request with a 500, so a failed image removal leaves the metadata file
      in place. */
  function DeleteImage(images: set<string>, metadata: set<string>, imageId: string,
                       imageRemovable: bool, metadataRemovable: bool)
    : (r: (Reply, set<string>, set<string>))
    ensures var imageFails := imageId + ".webp" in images && !imageRemovable;
      var metadataFails := imageId + ".json" in metadata && !metadataRemovable;
      && (r.0 == Ok(Obj(map["status" := Str("success")])) <==> !imageFails && !metadataFails)
      && (imageFails || metadataFails ==> r.0 == AbortReply(InternalError("Error deleting image")))
      && r.1 == (if imageFails then images else images - {imageId + ".webp"})
      && r.2 == (if imageFails || metadataFails then metadata else metadata - {imageId + ".json"})
  {
    var failed := AbortReply(InternalError("Error deleting image"));
    match Storage.DeleteFile(images, imageId + ".webp", imageRemovable)
    case None => (failed, images, metadata)
    case Some((imagesAfter, _)) =>
      match Storage.DeleteFile(metadata, imageId + ".json", metadataRemovable)
      case None => (failed, imagesAfter, metadata)
      case Some((metadataAfter, _)) => (Ok(Obj(map["status" := Str("success")])), imagesAfter, metadataAfter)
  }

  /** Deleting by the id a generation returned removes exactly the two files
      it wrote when both removals succeed, and removes nothing when the
      image's removal fails. */
  lemma DeleteUndoesGenerate(uuid: string, s: Saved, images: set<string>, metadata: set<string>,
                             imageRemovable: bool, metadataRemovable: bool)
    requires uuid != "" && '.' !in uuid && '/' !in uuid
    requires s.imageFilename == Storage.SavedImageFilename(uuid)
    requires s.metadataFilename == Storage.SplitExt(s.imageFilename).0 + ".json"
    ensures var r := DeleteImage(images + {s.imageFilename}, metadata + {s.metadataFilename},
                                 SuccessBody(s.imageFilename).fields["image_id"].s,
                                 imageRemovable, metadataRemovable);
      && (imageRemovable && metadataRemovable ==>
            r.0.status == 200 && r.1 == images - {s.imageFilename} && r.2 == metadata - {s.metadataFilename})
      && (!imageRemovable ==>
            r.0.status == 500 && r.1 == images + {s.imageFilename} && r.2 == metadata + {s.metadataFilename})
  {
    Storage.SplitExtOfGenerated(uuid, "webp");
  }

  /** `get_metadata`: the stored object, or 404 when the file is missing or
      holds `null`. */
  function GetMetadata(folder: map<string, Value>, imageId: string): (r: Reply)
    ensures r.status == 404 <==> imageId + ".json" !in folder || folder[imageId + ".json"] == Null
    ensures r.status == 404 ==> r == AbortReply(NotFound("Metadata not found"))
    ensures r.status != 404 ==> r == Ok(folder[imageId + ".json"])
  {
    var metadata := Storage.GetMetadata(folder, imageId + ".json");
    if metadata == Null then AbortReply(NotFound("Metadata not found")) else Ok(metadata)
  }

  /** Python's `int(text)` on a query argument: an optional sign and
      decimal digits. */
  function PyInt(text: string): (r: Option<int>)
    ensures r.Some? ==> |text| > 0
  {
    var (sign, digits) := Numbers.Sign(text);
    if |digits| > 0 && Numbers.AllDigits(digits) then Some(sign * Numbers.DigitsValue(digits)) else None
  }

  /** A number's own decimal text reads back as it. */
  lemma PyIntOfNatToString(n: nat)
    ensures PyInt(Numbers.NatToString(n)) == Some(n)
  {
    var s := Numbers.NatToString(n);
    Numbers.DigitsValueOfNatToString(n);
    assert Numbers.Sign(s) == (1, s);
  }

  /** A query argument with its default. */
  function IntArg(arg: Option<string>, default: int): Option<int> {
    match arg
    case None => Some(default)
    case Some(text) => PyInt(text)
  }

  /** `list_images`: the page of the listing; a malformed argument or a
      `per_page` of 0 is a 500. */
  function ListImages(entries: seq<Storage.Entry>, page: Option<string>, perPage: Option<string>)
    : (r: Reply)
    ensures r.status == 200 <==>
      IntArg(page, 1).Some? && IntArg(perPage, 12).Some? && IntArg(perPage, 12).value != 0
    ensures r.status != 200 ==> r == AbortReply(InternalError("Error listing images"))
    ensures r.status == 200 ==>
      var listing := Storage.ListImages(entries, IntArg(page, 1).value, IntArg(perPage, 12).value).value;
      r.body == Obj(map["images" := Arr(listing.images), "total_pages" := Num(listing.totalPages as real)])
  {
    var failed := AbortReply(InternalError("Error listing images"));
    match (IntArg(page, 1), IntArg(perPage, 12))
    case (Some(p), Some(n)) =>
      (match Storage.ListImages(entries, p, n)
       case Success(listing) =>
         Ok(Obj(map["images" := Arr(listing.images), "total_pages" := Num(listing.totalPages as real)]))
       case Failure(_) => failed)
    case _ => failed
  }

  /** Without arguments the first twelve listed files make the page. */
  lemma DefaultListing(entries: seq<Storage.Entry>)
    ensures ListImages(entries, None, None).status == 200
    ensures |ListImages(entries, None, None).body.fields["images"].items| <= 12
  {
    Storage.ListingBounds(entries, 1, 12);
  }

  /** `improve_prompt`: the improved text, 401 with a configuration error
      for any `ValueError` (the client's key-problem error, or a `ValueError`
      it re-raised unchanged), 400 for a bad request, 500 for anything
      else. */
  function ImprovePrompt(data: Value, outcome: LlmClient.Outcome): (r: Reply)
    ensures !PyTruthy(data) ==> r == AbortReply(BadRequest("Invalid JSON payload"))
    ensures PyTruthy(data) && !data.Obj? ==> r == AbortReply(InternalError("Error improving prompt"))
    ensures data.Obj? && PyTruthy(data) && !PyTruthy(Get(data.fields, "prompt", Null)) ==>
      r == AbortReply(BadRequest("Prompt is required"))
    ensures data.Obj? && PyTruthy(Get(data.fields, "prompt", Null)) ==>
      && (outcome.Returned? ==> r == Ok(Obj(map["improved_prompt" := Str(outcome.text)])))
      && (outcome.ValueError? || (outcome.Reraised? && outcome.valueError) ==>
            r == Reply(401, ErrorBody("Configuration error", outcome.message, "ConfigurationError")))
      && (outcome.RateLimitError? || (outcome.Reraised? && !outcome.valueError) ==>
            r == AbortReply(InternalError("Error improving prompt")))
  {
    if !PyTruthy(data) then AbortReply(BadRequest("Invalid JSON payload"))
    else if !data.Obj? then AbortReply(InternalError("Error improving prompt"))
    else if !PyTruthy(Get(data.fields, "prompt", Null)) then AbortReply(BadRequest("Prompt is required"))
    else match outcome
      case Returned(t) => Ok(Obj(map["improved_prompt" := Str(t)]))
      case ValueError(m) => Reply(401, ErrorBody("Configuration error", m, "ConfigurationError"))
      case Reraised(m, true) => Reply(401, ErrorBody("Configuration error", m, "ConfigurationError"))
      case _ => AbortReply(InternalError("Error improving prompt"))
  }

  /** A string field of a reply body as the browser reads it. */
  function Field(body: Value, key: string): Option<string> {
    if body.Obj? && key in body.fields && body.fields[key].Str? then Some(body.fields[key].s) else None
  }

  function BrowserView(r: Reply): ApiClient.ErrorBody {
    ApiClient.ErrorBody(Field(r.body, "error"), Field(r.body, "message"), Field(r.body, "type"))
  }

  /** A rejected key reaches the user as a configuration error carrying the
      client's message. */
  lemma KeyProblemShownAsConfigurationError(data: Value, message: string, valueError: bool)
    requires data.Obj? && PyTruthy(Get(data.fields, "prompt", Null))
    ensures var r := ImprovePrompt(data, LlmClient.Classify("LLM", message, valueError));
      LlmClient.AuthKeyword(Text.ToLower(message)) ==>
        && r.status == 401
        && ApiClient.ImproveError(r.status, BrowserView(r))
             == "API Configuration Error: " + LlmClient.AuthMessage("LLM")
  {
  }

  /** Whether a failed improvement is a 401 or a 500 depends on the class of
      the error as well as on its text: a `ValueError` that names neither a
      key problem nor a rate limit is re-raised by the client and still
      answered as a configuration error carrying its own text, while any
      other such error is a 500. */
  lemma UnclassifiedErrorByClass(data: Value, message: string, valueError: bool)
    requires data.Obj? && PyTruthy(Get(data.fields, "prompt", Null))
    requires !LlmClient.AuthKeyword(Text.ToLower(message)) && !LlmClient.RateKeyword(Text.ToLower(message))
    ensures var r := ImprovePrompt(data, LlmClient.ImprovePrompt(LlmClient.Raised(message, valueError)));
      && (valueError ==> r == Reply(401, ErrorBody("Configuration error", message, "ConfigurationError")))
      && (!valueError ==> r == AbortReply(InternalError("Error improving prompt")))
  {
  }
}

=== FILE: aspect_ratio.dfy ===
/** Aspect-ratio handling of the parameter form: reading an "N:D" option,
    clamping a dimension to its schema, and the width/height solver that runs
    when another ratio is picked. */
module AspectRatio {
  import opened Wrappers
  import opened Json
  import Text
  import Numbers
  import Constants
  import FormGenerator
  import Coercion

  /** The quotient of two parsed parts; 1 when either part is not a number
      or the denominator is zero. */
  function RatioOfParts(num: Option<real>, den: Option<real>): (r: real)
    ensures num.None? || den.None? || den.value == 0.0 ==> r == 1.0
  {
    if den != Some(0.0) && num.Some? && den.Some? then num.value / den.value else 1.0
  }

  /** `parseRatio`: `N / D` for a string "N:D" whose parts start with numbers
      and whose denominator is not zero; 1 (square) for anything else.  Only
      the first two pieces count. */
  function ParseRatio(v: Value): (r: real)
    ensures !v.Str? || ':' !in v.s ==> r == 1.0
  {
    if !JsTruthy(v) || !v.Str? || ':' !in v.s then 1.0
    else
      var parts := Text.Split(v.s, ':');
      SplitHasTwo(v.s);
      RatioOfParts(Numbers.ParseFloat(parts[0]), Numbers.ParseFloat(parts[1]))
  }

  /** A string with the separator splits into at least two pieces. */
  lemma SplitHasTwo(s: string)
    requires ':' in s
    ensures |Text.Split(s, ':')| >= 2
  {
    var i := Text.IndexOf(s, ':');
    assert i < |s|;
  }

  /** The ratio of a string with a separator is that of its first two
      pieces. */
  lemma ParseRatioOfSplit(s: string)
    requires ':' in s
    ensures |Text.Split(s, ':')| >= 2
    ensures ParseRatio(Str(s)) ==
      RatioOfParts(Numbers.ParseFloat(Text.Split(s, ':')[0]), Numbers.ParseFloat(Text.Split(s, ':')[1]))
  {
    SplitHasTwo(s);
  }

  /** A ratio read from "A:B" depends only on the texts A and B. */
  lemma ParseRatioOfPieces(a: string, b: string)
    requires ':' !in a && ':' !in b
    ensures ParseRatio(Str(a + ":" + b)) == RatioOfParts(Numbers.ParseFloat(a), Numbers.ParseFloat(b))
  {
    var s := a + ":" + b;
    assert ':' in s by {
      assert s[|a|] == ':';
    }
    ParseRatioOfSplit(s);
    assert s == a + [':'] + b;
    Text.SplitPair(a, ':', b);
  }

  lemma NoColonInDigits(n: nat)
    ensures ':' !in Numbers.NatToString(n)
  {
    var a := Numbers.NatToString(n);
    assert forall k :: 0 <= k < |a| ==> Numbers.IsDigit(a[k]);
  }

  /** Reading back "N:D" written in decimal gives N / D. */
  lemma ParseRatioOfTerms(n: nat, d: nat)
    requires d > 0
    ensures ParseRatio(Str(Numbers.NatToString(n) + ":" + Numbers.NatToString(d))) == n as real / d as real
  {
    NoColonInDigits(n);
    NoColonInDigits(d);
    ParseRatioOfPieces(Numbers.NatToString(n), Numbers.NatToString(d));
    Numbers.ParseFloatOfNatToString(n);
    Numbers.ParseFloatOfNatToString(d);
    assert ParseRatio(Str(Numbers.NatToString(n) + ":" + Numbers.NatToString(d)))
           == RatioOfParts(Some(n as real), Some(d as real));
    RatioOfNaturals(n, d);
  }

  lemma RatioOfNaturals(n: nat, d: nat)
    requires d > 0
    ensures RatioOfParts(Some(n as real), Some(d as real)) == n as real / d as real
  {
  }

  /** A quotient of naturals compares with 1 as numerator with denominator. */
  lemma QuotientVersusOne(n: nat, d: nat)
    requires d > 0
    ensures n > d ==> n as real / d as real > 1.0
    ensures n == d ==> n as real / d as real == 1.0
    ensures n < d ==> n as real / d as real < 1.0
  {
  }

  /** The options listed before the square one are landscape (ratio above 1),
      the square one is 1, and those after it are portrait (below 1). */
  lemma OptionOrientation()
    ensures forall i :: 0 <= i < |Constants.RatioTerms| ==>
      var r := ParseRatio(Str(Constants.AspectRatios[i].value));
      && (i < Constants.SquareIndex ==> r > 1.0)
      && (i == Constants.SquareIndex ==> r == 1.0)
      && (i > Constants.SquareIndex ==> r < 1.0)
  {
    forall i | 0 <= i < |Constants.RatioTerms|
      ensures var r := ParseRatio(Str(Constants.AspectRatios[i].value));
        && (i < Constants.SquareIndex ==> r > 1.0)
        && (i == Constants.SquareIndex ==> r == 1.0)
        && (i > Constants.SquareIndex ==> r < 1.0)
    {
      var (n, d) := Constants.RatioTerms[i];
      assert Constants.AspectRatios[i].value == Numbers.NatToString(n) + ":" + Numbers.NatToString(d)
        && d > 0 && (i < Constants.SquareIndex ==> n > d) && (i == Constants.SquareIndex ==> n == d)
        && (i > Constants.SquareIndex ==> n < d) by {
        Constants.RatioValuesWellFormed();
        Constants.RatioTermsOrientation();
      }
      ParseRatioOfTerms(n, d);
      QuotientVersusOne(n, d);
    }
  }

  /** Raise to the minimum, then lower to the maximum: when the two clash the
      maximum wins. */
  function Clamp(value: real, min: Option<real>, max: Option<real>): (c: real)
    ensures max.Some? ==> c <= max.value
    ensures min.Some? && (max.None? || min.value <= max.value) ==> min.value <= c
    ensures (min.None? || min.value <= value) && (max.None? || value <= max.value) ==> c == value
    ensures max.Some? && min.Some? && min.value > max.value ==> c == max.value
  {
    var low := if min.Some? && value < min.value then min.value else value;
    if max.Some? && low > max.value then max.value else low
  }

  /** The nearest multiple of a positive step; other steps leave the value. */
  function Snap(x: real, multipleOf: Option<real>): real {
    if multipleOf.Some? && multipleOf.value > 0.0
    then Numbers.Round(x / multipleOf.value) as real * multipleOf.value
    else x
  }

  /** `clampAndRound`: clamp, then snap to the step, then round. */
  function ClampAndRound(value: real, min: Option<real>, max: Option<real>, multipleOf: Option<real>): (r: int)
    ensures multipleOf.None? || multipleOf.value <= 0.0 ==>
      && (max.Some? && (value > max.value || (min.Some? && min.value > max.value)) ==> r == Numbers.Round(max.value))
      && (min.Some? && value < min.value && (max.None? || min.value <= max.value) ==> r == Numbers.Round(min.value))
      && ((min.None? || min.value <= value) && (max.None? || value <= max.value) ==> r == Numbers.Round(value))
  {
    Numbers.Round(Snap(Clamp(value, min, max), multipleOf))
  }

  /** A value between two multiples of a positive step divides to a quotient
      between the two factors. */
  lemma QuotientBetween(c: real, lo: int, hi: int, m: real)
    requires m > 0.0 && lo as real * m <= c <= hi as real * m
    ensures lo as real <= c / m <= hi as real
  {
  }

  /** With bounds that are multiples of a positive whole step, the result is a
      multiple of the step inside the bounds. */
  lemma ClampAndRoundOnGrid(value: real, lo: int, hi: int, m: nat)
    requires m > 0 && lo <= hi
    ensures var r := ClampAndRound(value, Some((lo * m) as real), Some((hi * m) as real), Some(m as real));
      exists k :: lo <= k <= hi && r == k * m
  {
    var min, max := (lo * m) as real, (hi * m) as real;
    assert min == lo as real * m as real && max == hi as real * m as real;
    var c := Clamp(value, Some(min), Some(max));
    QuotientBetween(c, lo, hi, m as real);
    var k := Numbers.Round(c / m as real);
    Numbers.RoundOfInt(lo);
    Numbers.RoundOfInt(hi);
    Numbers.RoundMonotone(lo as real, c / m as real);
    Numbers.RoundMonotone(c / m as real, hi as real);
    assert Snap(c, Some(m as real)) == (k * m) as real;
    Numbers.RoundOfInt(k * m);
    assert ClampAndRound(value, Some(min), Some(max), Some(m as real)) == k * m;
    assert lo <= k <= hi;
  }

  /** Snapping happens after clamping, so a maximum that is not on the step's
      grid can be overshot: 1000 with a maximum of 1000 and a step of 64
      becomes 1024. */
  lemma ClampAndRoundOvershoots()
    ensures ClampAndRound(1000.0, None, Some(1000.0), Some(64.0)) == 1024
  {
    assert Numbers.Round(1000.0 / 64.0) == 16;
  }

  /** `maximum || default || 1024`: a zero maximum counts as absent, and so
      does a falsy default.  The chosen default enters the arithmetic that
      follows as `Number(default)`: a numeric text such as "768" is its
      number, and `None` stands for NaN. */
  function Anchor(schema: FormGenerator.PropertySchema): (r: Option<real>)
    ensures schema.maximum.Some? && schema.maximum.value != 0.0 ==> r == Some(schema.maximum.value)
    ensures (schema.maximum.None? || schema.maximum.value == 0.0) && !JsTruthy(schema.defaultValue) ==> r == Some(1024.0)
    ensures (schema.maximum.None? || schema.maximum.value == 0.0) && JsTruthy(schema.defaultValue)
            ==> r == Coercion.NumberOf(schema.defaultValue)
  {
    if schema.maximum.Some? && JsTruthy(Num(schema.maximum.value)) then Some(schema.maximum.value)
    else if JsTruthy(schema.defaultValue) then Coercion.NumberOf(schema.defaultValue)
    else Some(1024.0)
  }

  /** `clampAndRound` of a possibly NaN value: NaN passes through. */
  function ClampDimension(v: Option<real>, schema: FormGenerator.PropertySchema): (r: Option<int>)
    ensures r.Some? <==> v.Some?
  {
    match v
    case None => None
    case Some(x) => Some(ClampAndRound(x, schema.minimum, schema.maximum, schema.multipleOf))
  }

  /** Unclamped width and height for a ratio: the side the ratio favours
      takes its anchor and the other side follows from the ratio.  `None`
      stands for NaN. */
  function Targets(ratio: real, widthSchema: FormGenerator.PropertySchema, heightSchema: FormGenerator.PropertySchema)
    : (t: (Option<real>, Option<real>))
    ensures ratio >= 1.0 ==> t.0 == Anchor(widthSchema) && (t.1.Some? <==> t.0.Some?)
    ensures ratio >= 1.0 && t.0.Some? ==> t.1.value * ratio == t.0.value
    ensures ratio < 1.0 ==> t.1 == Anchor(heightSchema) && (t.0.Some? <==> t.1.Some?)
    ensures ratio < 1.0 && t.1.Some? ==> t.0.value == t.1.value * ratio
  {
    if ratio >= 1.0 then
      var w := Anchor(widthSchema);
      (w, if w.Some? then Some(w.value / ratio) else None)
    else
      var h := Anchor(heightSchema);
      (if h.Some? then Some(h.value * ratio) else None, h)
  }

  /** Width and height for a ratio, each clamped by its own schema. */
  function Solve(ratio: real, widthSchema: FormGenerator.PropertySchema, heightSchema: FormGenerator.PropertySchema)
    : (r: (Option<int>, Option<int>))
  {
    var t := Targets(ratio, widthSchema, heightSchema);
    (ClampDimension(t.0, widthSchema), ClampDimension(t.1, heightSchema))
  }

  datatype AspectOutcome =
    | MissingElements                  // nothing happens
    | ShowDimensionInputs              // "custom": the width/height inputs are shown
    | SetDimensions(width: Option<int>, height: Option<int>)

  /** `handleAspectRatioChange`.  `ready` says the form container and both
      dimension inputs exist; `selected` is the select's value. */
  function HandleAspectRatioChange(ready: bool, schema: Option<FormGenerator.InputSchema>, selected: Value)
    : (r: AspectOutcome)
    ensures r.MissingElements? <==> !ready || schema.None? || schema.value.properties.None?
    ensures r.ShowDimensionInputs? <==> !r.MissingElements? && selected == Str(Constants.Custom)
    ensures r.SetDimensions? ==>
      var props := schema.value.properties.value;
      (r.width, r.height) == Solve(ParseRatio(selected),
                                  FormGenerator.Lookup(props, "width").GetOr(FormGenerator.EmptySchema),
                                  FormGenerator.Lookup(props, "height").GetOr(FormGenerator.EmptySchema))
  {
    if !ready || schema.None? || schema.value.properties.None? then MissingElements
    else
      var props := schema.value.properties.value;
      var widthSchema := FormGenerator.Lookup(props, "width").GetOr(FormGenerator.EmptySchema);
      var heightSchema := FormGenerator.Lookup(props, "height").GetOr(FormGenerator.EmptySchema);
      if StrictEquals(selected, Str(Constants.Custom)) then ShowDimensionInputs
      else
        var (w, h) := Solve(ParseRatio(selected), widthSchema, heightSchema);
        SetDimensions(w, h)
  }

  /** For a landscape or square ratio the width depends only on the width
      schema: the height schema's maximum and default play no part. */
  lemma LandscapeWidthIgnoresHeightSchema(ratio: real, ws: FormGenerator.PropertySchema,
                                          hs1: FormGenerator.PropertySchema, hs2: FormGenerator.PropertySchema)
    requires ratio >= 1.0
    ensures Solve(ratio, ws, hs1).0 == Solve(ratio, ws, hs2).0
  {
    assert Targets(ratio, ws, hs1).0 == Targets(ratio, ws, hs2).0;
  }

  /** Symmetrically, a portrait ratio takes its height from the height
      schema alone. */
  lemma PortraitHeightIgnoresWidthSchema(ratio: real, ws1: FormGenerator.PropertySchema,
                                         ws2: FormGenerator.PropertySchema, hs: FormGenerator.PropertySchema)
    requires ratio < 1.0
    ensures Solve(ratio, ws1, hs).1 == Solve(ratio, ws2, hs).1
  {
    assert Targets(ratio, ws1, hs).1 == Targets(ratio, ws2, hs).1;
  }

  /** Without bounds or step, `clampAndRound` is plain rounding. */
  lemma ClampAndRoundUnbounded(x: real)
    ensures ClampAndRound(x, None, None, None) == Numbers.Round(x)
  {
  }

  /** With unconstrained schemas the anchored side is 1024 and the other side
      is within half a pixel of what the ratio asks for. */
  lemma UnconstrainedFollowsRatio(ratio: real, ws: FormGenerator.PropertySchema, hs: FormGenerator.PropertySchema)
    requires ratio > 0.0
    requires ws.minimum.None? && ws.maximum.None? && ws.multipleOf.None? && !JsTruthy(ws.defaultValue)
    requires hs.minimum.None? && hs.maximum.None? && hs.multipleOf.None? && !JsTruthy(hs.defaultValue)
    ensures var (w, h) := Solve(ratio, ws, hs);
      && w.Some? && h.Some?
      && (ratio >= 1.0 ==> w.value == 1024 && 1024.0 - 0.5 * ratio < h.value as real * ratio <= 1024.0 + 0.5 * ratio)
      && (ratio < 1.0 ==> h.value == 1024 && 1024.0 * ratio - 0.5 < w.value as real <= 1024.0 * ratio + 0.5)
  {
    var t := Targets(ratio, ws, hs);
    assert Anchor(ws) == Some(1024.0) && Anchor(hs) == Some(1024.0);
    assert t.0.Some? && t.1.Some?;
    ClampAndRoundUnbounded(t.0.value);
    ClampAndRoundUnbounded(t.1.value);
    Numbers.RoundOfInt(1024);
    var (w, h) := Solve(ratio, ws, hs);
    assert w == Some(Numbers.Round(t.0.value)) && h == Some(Numbers.Round(t.1.value));
    if ratio >= 1.0 {
      assert t.0.value == 1024.0 && t.1.value * ratio == 1024.0;
      ScaleBounds(t.1.value, h.value as real, ratio, 1024.0);
    } else {
      assert t.1.value == 1024.0 && t.0.value == 1024.0 * ratio;
    }
  }

  /** Multiplying `x - 1/2 < y <= x + 1/2` through by a positive factor. */
  lemma ScaleBounds(x: real, y: real, f: real, p: real)
    requires f > 0.0 && x - 0.5 < y <= x + 0.5 && x * f == p
    ensures p - 0.5 * f < y * f <= p + 0.5 * f
  {
    var d := y - x;
    assert y * f == p + d * f;
    assert (d + 0.5) * f > 0.0;
    assert (0.5 - d) * f >= 0.0;
  }

  lemma ClampAndRoundOnStep(x: real, min: real, max: real, m: real)
    requires min <= x <= max && m > 0.0
    requires Numbers.Round(x / m) as real * m == x
    requires Numbers.Round(x) as real == x
    ensures ClampAndRound(x, Some(min), Some(max), Some(m)) as real == x
  {
  }

  /** A square pick on a 256..1024 schema with step 8 gives 1024 by 1024. */
  lemma SquareOnBoundedSchema()
    ensures var s := FormGenerator.PropertySchema(Some("integer"), None, Some(256.0), Some(1024.0), Some(8.0),
                                                 Num(1024.0), None, None, None);
      Solve(ParseRatio(Str(Constants.AspectRatios[Constants.SquareIndex].value)), s, s) == (Some(1024), Some(1024))
  {
    var s := FormGenerator.PropertySchema(Some("integer"), None, Some(256.0), Some(1024.0), Some(8.0),
                                         Num(1024.0), None, None, None);
    OptionOrientation();
    assert Targets(1.0, s, s) == (Some(1024.0), Some(1024.0));
    assert Numbers.Round(1024.0 / 8.0) == 128;
    Numbers.RoundOfInt(1024);
    ClampAndRoundOnStep(1024.0, 256.0, 1024.0, 8.0);
  }

  /** A default given as text is read as its number: with a default of
      "768", no maximum and a 2:1 ratio, the width is 768 and the height
      384. */
  lemma NumericTextDefault()
    ensures var s := FormGenerator.PropertySchema(Some("integer"), None, None, None, None,
                                                 Str("768"), None, None, None);
      Solve(2.0, s, s) == (Some(768), Some(384))
  {
    var s := FormGenerator.PropertySchema(Some("integer"), None, None, None, None,
                                         Str("768"), None, None, None);
    NumberOf768();
    assert Anchor(s) == Some(768.0);
    assert Targets(2.0, s, s) == (Some(768.0), Some(384.0));
    Numbers.RoundOfInt(768);
    Numbers.RoundOfInt(384);
  }

  lemma NumberOf768()
    ensures Coercion.NumberOf(Str("768")) == Some(768.0)
  {
    assert Numbers.NatToString(768) == "768";
    Numbers.NumberOfNatToString(768);
  }
}

=== FILE: coercion.dfy ===
/** How the browser turns a schema default into a number: `parseFloat(v)`
    and the implicit `Number(v)` of arithmetic both read the text `String(v)`.
    The text of an array is its elements' texts joined by commas, with
    `undefined` and `null` elements contributing nothing; the text of an
    object is "[object Object]"; the text of a number is digits that both
    readers give back exactly.  The texts are not built here: each function
    states what its reader takes from them, and the lemmas at the end tie
    the array cases to the joined text. */
module Coercion {
  import opened Wrappers
  import opened Json
  import Numbers
  import Text

  /** `parseFloat(v)`.  An array is read through its first element, since
      the comma after it ends the number; "null", "true", "NaN" and
      "[object Object]" hold no number.  `None` stands for NaN. */
  function ParseFloatOf(v: Value): (r: Option<real>)
    ensures v.Num? ==> r == Some(v.n)
    ensures v.Str? ==> r == Numbers.ParseFloat(v.s)
    ensures v.Arr? && |v.items| == 0 ==> r.None?
    ensures v.Undefined? || v.Null? || v.Bool? || v.NaN? || v.Obj? ==> r.None?
  {
    match v
    case Num(n) => Some(n)
    case Str(s) => Numbers.ParseFloat(s)
    case Arr(items) => if |items| == 0 then None else ParseFloatOf(items[0])
    case _ => None
  }

  /** `Number` of the text an array element contributes: `undefined` and
      `null` contribute nothing, which reads as 0, and "true", "false",
      "NaN" and "[object Object]" are not numbers. */
  function NumberOfElement(v: Value): (r: Option<real>)
    ensures v.Undefined? || v.Null? ==> r == Some(0.0)
    ensures v.Bool? || v.NaN? || v.Obj? ==> r.None?
  {
    match v
    case Undefined => Some(0.0)
    case Null => Some(0.0)
    case Num(n) => Some(n)
    case Str(s) => Numbers.NumberOfText(s)
    case Arr(items) =>
      if |items| == 0 then Some(0.0)
      else if |items| == 1 then NumberOfElement(items[0])
      else None
    case _ => None
  }

  /** `Number(v)`: `undefined` is NaN, `null` is 0, a boolean is 1 or 0, and
      every other value is read from its text; an array of two or more
      elements has a comma in its text and is never a number. */
  function NumberOf(v: Value): (r: Option<real>)
    ensures v.Undefined? || v.NaN? || v.Obj? ==> r.None?
    ensures v.Null? ==> r == Some(0.0)
    ensures v.Bool? ==> r == Some(if v.b then 1.0 else 0.0)
    ensures v.Num? ==> r == Some(v.n)
    ensures v.Str? ==> r == Numbers.NumberOfText(v.s)
    ensures v.Arr? && |v.items| == 0 ==> r == Some(0.0)
    ensures v.Arr? && |v.items| >= 2 ==> r.None?
  {
    match v
    case Undefined => None
    case Bool(b) => Some(if b then 1.0 else 0.0)
    case _ => NumberOfElement(v)
  }

  /** An array of texts. */
  function Strs(parts: seq<string>): (vs: seq<Value>)
    ensures |vs| == |parts|
    ensures forall i :: 0 <= i < |parts| ==> vs[i] == Str(parts[i])
  {
    seq(|parts|, i requires 0 <= i < |parts| => Str(parts[i]))
  }

  /** `parseFloat` of an array of texts is `parseFloat` of their
      comma-joined text. */
  lemma {:induction false} ParseFloatOfJoin(parts: seq<string>)
    requires |parts| >= 1
    ensures ParseFloatOf(Arr(Strs(parts))) == Numbers.ParseFloat(Text.Join(parts, ','))
  {
    if |parts| > 1 {
      assert Text.Join(parts, ',') == parts[0] + "," + Text.Join(parts[1..], ',');
      Numbers.ParseFloatStopsAtComma(parts[0], Text.Join(parts[1..], ','));
    }
  }

  /** `Number` of an array of texts is `Number` of their comma-joined
      text. */
  lemma {:induction false} NumberOfJoin(parts: seq<string>)
    requires |parts| >= 1
    ensures NumberOf(Arr(Strs(parts))) == Numbers.NumberOfText(Text.Join(parts, ','))
  {
    if |parts| > 1 {
      var joined := Text.Join(parts, ',');
      assert joined == parts[0] + [','] + Text.Join(parts[1..], ',');
      assert joined[|parts[0]|] == ',';
      Numbers.NumberRejectsComma(joined);
    } else {
      var v := Arr(Strs(parts));
      assert v.items[0] == Str(parts[0]) && |v.items| == 1;
      assert NumberOfElement(v.items[0]) == Numbers.NumberOfText(parts[0]);
      assert NumberOf(v) == NumberOfElement(v) == NumberOfElement(v.items[0]);
    }
  }
}

=== FILE: constants.dfy ===
/** Configuration data of the front end: the aspect-ratio options offered next
    to width/height parameters and the swipe distance of the image viewer. */
module Constants {
  import Text
  import Numbers

  /** Minimum horizontal travel, in CSS pixels, for a touch gesture to count
      as a swipe. */
  const SwipeThreshold: int := 50

  /** The sentinel option that leaves width and height to the user. */
  const Custom: string := "custom"

  datatype AspectRatio = AspectRatio(value: string, labelText: string, selected: bool)

  const AspectRatios: seq<AspectRatio> := [
    AspectRatio("21:9", "21:9 (Cinematic)", false),
    AspectRatio("16:9", "16:9 (Widescreen)", false),
    AspectRatio("3:2", "3:2", false),
    AspectRatio("4:3", "4:3", false),
    AspectRatio("5:4", "5:4", false),
    AspectRatio("1:1", "1:1 (Square)", true),
    AspectRatio("4:5", "4:5 (Portrait)", false),
    AspectRatio("3:4", "3:4 (Portrait)", false),
    AspectRatio("2:3", "2:3 (Portrait)", false),
    AspectRatio("9:16", "9:16 (Tall/Story)", false),
    AspectRatio("9:21", "9:21 (Tall Cinematic)", false),
    AspectRatio("custom", "Custom", false)
  ]

  /** The option values in list order, as the aspect-ratio select offers them. */
  function OptionValues(): (vs: seq<string>)
    ensures |vs| == |AspectRatios|
    ensures forall i :: 0 <= i < |vs| ==> vs[i] == AspectRatios[i].value
  {
    seq(|AspectRatios|, i requires 0 <= i < |AspectRatios| => AspectRatios[i].value)
  }

  /** Position of the square option. */
  const SquareIndex: nat := 5

  /** Exactly one option is preselected, and it is the square one. */
  lemma SelectedIsSquare()
    ensures forall i :: 0 <= i < |AspectRatios| ==> (AspectRatios[i].selected <==> i == SquareIndex)
    ensures AspectRatios[SquareIndex].value == "1:1"
  {
  }

  /** No option value appears twice. */
  lemma ValuesDistinct()
    ensures forall i, j :: 0 <= i < j < |AspectRatios| ==> AspectRatios[i].value != AspectRatios[j].value
  {
  }

  /** The custom option is the last one and the only value without ':'. */
  lemma CustomIsLastAndOnly()
    ensures AspectRatios[|AspectRatios| - 1].value == Custom
    ensures forall i :: 0 <= i < |AspectRatios| ==> (':' !in AspectRatios[i].value <==> i == |AspectRatios| - 1)
  {
  }

  /** Numerator and denominator spelled by each non-custom option, in list
      order. */
  const RatioTerms: seq<(nat, nat)> := [
    (21, 9), (16, 9), (3, 2), (4, 3), (5, 4), (1, 1), (4, 5), (3, 4), (2, 3), (9, 16), (9, 21)
  ]

  /** Every option except the last is written "N:D" with positive decimal
      integers N and D. */
  lemma RatioValuesWellFormed()
    ensures |RatioTerms| == |AspectRatios| - 1
    ensures forall i :: 0 <= i < |RatioTerms| ==>
      && RatioTerms[i].0 > 0 && RatioTerms[i].1 > 0
      && AspectRatios[i].value == Numbers.NatToString(RatioTerms[i].0) + ":" + Numbers.NatToString(RatioTerms[i].1)
  {
    assert Numbers.NatToString(1) == "1" && Numbers.NatToString(2) == "2" && Numbers.NatToString(3) == "3";
    assert Numbers.NatToString(4) == "4" && Numbers.NatToString(5) == "5" && Numbers.NatToString(9) == "9";
    assert Numbers.NatToString(16) == "16" && Numbers.NatToString(21) == "21";
  }

  /** Numerator above denominator before the square option, equal at it,
      below after it. */
  lemma RatioTermsOrientation()
    ensures forall i :: 0 <= i < |RatioTerms| ==>
      && (i < SquareIndex ==> RatioTerms[i].0 > RatioTerms[i].1)
      && (i == SquareIndex ==> RatioTerms[i].0 == RatioTerms[i].1)
      && (i > SquareIndex ==> RatioTerms[i].0 < RatioTerms[i].1)
  {
  }
}

=== FILE: copy_settings.dfy ===
/** "Copy settings" on a gallery card: the image's saved metadata is put back
    into the form.  The prompt and the model are restored, every saved
    parameter except the dimensions is applied, and the dimensions go through
    the aspect-ratio select: the first option within 0.01 of width / height is
    selected, "custom" when none is, and the saved values are applied after
    the select's change handler has run. */
module CopySettings {
  import opened Wrappers
  import opened Json
  import Numbers
  import Constants
  import FormGenerator
  import AspectRatio

  /** Tolerance of the ratio comparison. */
  const Tolerance: real := 0.01

  function Abs(x: real): real {
    if x < 0.0 then -x else x
  }

  /** The ratio of option `o` is within the tolerance of `ratio`; the custom
      option never matches. */
  predicate Matches(o: string, ratio: real) {
    o != Constants.Custom && Abs(ratio - AspectRatio.ParseRatio(Str(o))) < Tolerance
  }

  /** Position of the first matching option, `|options|` when none matches. */
  function FirstMatch(options: seq<string>, ratio: real): (i: nat)
    ensures i <= |options|
    ensures i < |options| ==> Matches(options[i], ratio)
    ensures forall j :: 0 <= j < i ==> !Matches(options[j], ratio)
  {
    if |options| == 0 then 0
    else if Matches(options[0], ratio) then 0
    else 1 + FirstMatch(options[1..], ratio)
  }

  /** The option selected for a saved width and height, given as the values
      `parseFloat` produced. */
  function AspectChoice(options: seq<string>, width: Value, height: Value): (o: string)
    requires width.Num? || width.NaN?
    requires height.Num? || height.NaN?
    ensures !(width.Num? && height.Num? && height.n != 0.0) ==> o == Constants.Custom
    ensures width.Num? && height.Num? && height.n != 0.0 ==>
      var i := FirstMatch(options, width.n / height.n);
      o == if i < |options| then options[i] else Constants.Custom
    ensures o == Constants.Custom || o in options
  {
    if width.Num? && height.Num? && height.n != 0.0 then
      var i := FirstMatch(options, width.n / height.n);
      if i < |options| then options[i] else Constants.Custom
    else Constants.Custom
  }

  /** The effects of copying settings, in the order they happen. */
  datatype Action =
    | ShowError(message: string)
    | ClearParameters                 // the parameter container is emptied
    | SetPrompt(text: Value)
    | SelectModel(id: string)         // parameters of that model are loaded
    | ApplyParam(key: string, value: Value)
    | SelectAspect(option: string)    // the select's change handler runs
    | SaveFormState

  /** The saved metadata of an image; `parameters` is `None` when it is
      missing or falsy, and otherwise lists the object's entries in order. */
  datatype Metadata = Metadata(originalPrompt: Value, prompt: Value, modelId: Value,
                               parameters: Option<seq<(string, Value)>>)

  datatype MetadataResponse = MetadataLoaded(data: Metadata) | MetadataFailed(error: Option<string>)

  predicate IsDimension(key: string) {
    key == "width" || key == "height"
  }

  /** `applyParamValue(key, value)`: nothing for `undefined` or `null`. */
  function Apply(key: string, value: Value): (acts: seq<Action>)
    ensures |acts| <= 1
    ensures acts == [] <==> value == Undefined || value == Null
    ensures forall a :: a in acts ==> a == ApplyParam(key, value)
  {
    if value == Undefined || value == Null then [] else [ApplyParam(key, value)]
  }

  /** The entry loop: every saved parameter except width and height. */
  function ApplyOthers(entries: seq<(string, Value)>): (acts: seq<Action>)
    ensures forall a :: a in acts ==> a.ApplyParam? && !IsDimension(a.key)
    ensures forall k, v :: ApplyParam(k, v) in acts <==>
      (k, v) in entries && !IsDimension(k) && v != Undefined && v != Null
  {
    if |entries| == 0 then []
    else
      var (k, v) := entries[0];
      (if IsDimension(k) then [] else Apply(k, v)) + ApplyOthers(entries[1..])
  }

  /** The value of `key` in an object's entries, `undefined` when absent. */
  function Entry(entries: seq<(string, Value)>, key: string): (v: Value)
    ensures v != Undefined ==> (key, v) in entries
  {
    if |entries| == 0 then Undefined
    else if entries[0].0 == key then entries[0].1
    else Entry(entries[1..], key)
  }

  /** The dimensions part, once the other parameters are applied. */
  function ApplyDimensions(entries: seq<(string, Value)>, hasSelector: bool, options: seq<string>)
    : (acts: seq<Action>)
    ensures var w, h := Entry(entries, "width"), Entry(entries, "height");
      if hasSelector && JsTruthy(w) && JsTruthy(h) then
        var mw, mh := FormGenerator.ParseFloatValue(w), FormGenerator.ParseFloatValue(h);
        acts == [SelectAspect(AspectChoice(options, mw, mh))] + Apply("width", mw) + Apply("height", mh)
      else acts == Apply("width", w) + Apply("height", h)
  {
    var w, h := Entry(entries, "width"), Entry(entries, "height");
    if hasSelector && JsTruthy(w) && JsTruthy(h) then
      var mw, mh := FormGenerator.ParseFloatValue(w), FormGenerator.ParseFloatValue(h);
      [SelectAspect(AspectChoice(options, mw, mh))] + Apply("width", mw) + Apply("height", mh)
    else Apply("width", w) + Apply("height", h)
  }

  /** The copy-settings click handler.  `modelOptions` are the values of the
      model select; `hasSelector` says whether the loaded parameter form has
      an aspect-ratio select, whose option values are `aspectOptions`. */
  function CopySettings(response: MetadataResponse, modelOptions: seq<string>, hasSelector: bool,
                        aspectOptions: seq<string>): (acts: seq<Action>)
    ensures response.MetadataFailed? ==>
      acts == [ShowError("Error copying settings: "
                 + if response.error.Some? && response.error.value != "" then response.error.value
                   else "Unknown error"),
               ClearParameters]
    ensures response.MetadataLoaded? ==>
      var d := response.data;
      && |acts| >= 3
      && acts[0] == SetPrompt(JsOr(JsOr(d.originalPrompt, d.prompt), Str("")))
      && acts[|acts| - 1] == SaveFormState
      && (acts[1].SelectModel? <==> d.modelId.Str? && d.modelId.s != "" && d.modelId.s in modelOptions)
      && (acts[1].SelectModel? ==> acts[1] == SelectModel(d.modelId.s))
      && (!acts[1].SelectModel? ==> acts[1] == ClearParameters && |acts| == 3)
      && (acts[1].SelectModel? ==>
            acts[2..|acts| - 1] == match d.parameters
                                   case None => []
                                   case Some(entries) =>
                                     ApplyOthers(entries) + ApplyDimensions(entries, hasSelector, aspectOptions))
  {
    match response
    case MetadataFailed(e) =>
      var message := if e.Some? && e.value != "" then e.value else "Unknown error";
      [ShowError("Error copying settings: " + message), ClearParameters]
    case MetadataLoaded(d) =>
      var prompt := JsOr(JsOr(d.originalPrompt, d.prompt), Str(""));
      var restore :=
        if d.modelId.Str? && d.modelId.s != "" && d.modelId.s in modelOptions then
          [SelectModel(d.modelId.s)]
            + match d.parameters
              case None => []
              case Some(entries) => ApplyOthers(entries) + ApplyDimensions(entries, hasSelector, aspectOptions)
        else [ClearParameters];
      [SetPrompt(prompt)] + restore + [SaveFormState]
  }

  /** Once the saved model is selected, every saved parameter other than
      width and height that holds a value is written to its input, and
      nothing else is written outside the dimensions. */
  lemma ParametersRestored(d: Metadata, modelOptions: seq<string>, hasSelector: bool,
                           aspectOptions: seq<string>, entries: seq<(string, Value)>)
    requires d.modelId.Str? && d.modelId.s != "" && d.modelId.s in modelOptions
    requires d.parameters == Some(entries)
    ensures var acts := CopySettings(MetadataLoaded(d), modelOptions, hasSelector, aspectOptions);
      forall k, v :: !IsDimension(k) ==>
        (ApplyParam(k, v) in acts <==> (k, v) in entries && v != Undefined && v != Null)
  {
    var acts := CopySettings(MetadataLoaded(d), modelOptions, hasSelector, aspectOptions);
    var others := ApplyOthers(entries);
    var dims := ApplyDimensions(entries, hasSelector, aspectOptions);
    assert acts == [acts[0], acts[1]] + (others + dims) + [SaveFormState];
    forall k, v | !IsDimension(k)
      ensures ApplyParam(k, v) in acts <==> ApplyParam(k, v) in others
    {
      assert ApplyParam(k, v) !in dims;
    }
  }

  /** With an aspect select, a width or height is applied only after the
      select has been set; without one they are applied directly, once each,
      after the other parameters. */
  lemma DimensionsAfterSelect(entries: seq<(string, Value)>, hasSelector: bool, options: seq<string>)
    ensures var acts := ApplyOthers(entries) + ApplyDimensions(entries, hasSelector, options);
      forall i :: 0 <= i < |acts| && acts[i].ApplyParam? && IsDimension(acts[i].key) ==>
        i >= |ApplyOthers(entries)|
        && (hasSelector && JsTruthy(Entry(entries, "width")) && JsTruthy(Entry(entries, "height")) ==>
              acts[|ApplyOthers(entries)|].SelectAspect? && i > |ApplyOthers(entries)|)
  {
  }

  /** The ratio of each non-custom option, in list order. */
  const OptionRatios: seq<real> := [
    21.0 / 9.0, 16.0 / 9.0, 3.0 / 2.0, 4.0 / 3.0, 5.0 / 4.0, 1.0,
    4.0 / 5.0, 3.0 / 4.0, 2.0 / 3.0, 9.0 / 16.0, 9.0 / 21.0
  ]

  /** Each listed option reads as its ratio. */
  lemma OptionRatiosParsed(i: nat)
    requires i < |OptionRatios|
    ensures AspectRatio.ParseRatio(Str(Constants.OptionValues()[i])) == OptionRatios[i]
  {
    Constants.RatioValuesWellFormed();
    var (n, d) := Constants.RatioTerms[i];
    AspectRatio.ParseRatioOfTerms(n, d);
    assert n as real / d as real == OptionRatios[i] by {
      RatioTermsAreOptionRatios(i);
    }
  }

  lemma RatioTermsAreOptionRatios(i: nat)
    requires i < |OptionRatios|
    ensures |Constants.RatioTerms| == |OptionRatios|
    ensures Constants.RatioTerms[i].0 as real / Constants.RatioTerms[i].1 as real == OptionRatios[i]
  {
  }

  /** Consecutive option ratios are further apart than twice the tolerance. */
  lemma RatiosDescend()
    ensures forall i :: 0 < i < |OptionRatios| ==> OptionRatios[i] + 2.0 * Tolerance <= OptionRatios[i - 1]
  {
  }

  lemma {:induction false} RatiosSeparated(i: nat, j: nat)
    requires j < i < |OptionRatios|
    ensures OptionRatios[i] + 2.0 * Tolerance <= OptionRatios[j]
    decreases i - j
  {
    RatiosDescend();
    if j + 1 < i {
      RatiosSeparated(i, j + 1);
    }
  }

  /** A saved size whose width / height is exactly the ratio of an option
      selects that option. */
  lemma ExactRatioSelectsItsOption(i: nat, width: real, height: real)
    requires i < |OptionRatios| && height != 0.0 && width / height == OptionRatios[i]
    ensures AspectChoice(Constants.OptionValues(), Num(width), Num(height)) == Constants.OptionValues()[i]
  {
    var options := Constants.OptionValues();
    forall j | 0 <= j <= i
      ensures options[j] != Constants.Custom && AspectRatio.ParseRatio(Str(options[j])) == OptionRatios[j]
    {
      OptionRatiosParsed(j);
      Constants.CustomIsLastAndOnly();
    }
    RatioSelectsItsOption(options, i, width / height);
  }

  /** Options reading as the listed ratios select the one whose ratio is met
      exactly. */
  lemma RatioSelectsItsOption(options: seq<string>, i: nat, ratio: real)
    requires i < |OptionRatios| && i < |options| && ratio == OptionRatios[i]
    requires forall j :: 0 <= j <= i ==>
      options[j] != Constants.Custom && AspectRatio.ParseRatio(Str(options[j])) == OptionRatios[j]
    ensures FirstMatch(options, ratio) == i
  {
    assert Matches(options[i], ratio);
    forall j | 0 <= j < i ensures !Matches(options[j], ratio) {
      RatiosSeparated(i, j);
    }
    FirstMatchIs(options, ratio, i);
  }

  /** `FirstMatch` finds a match preceded by none. */
  lemma {:induction false} FirstMatchIs(options: seq<string>, ratio: real, i: nat)
    requires i < |options| && Matches(options[i], ratio)
    requires forall j :: 0 <= j < i ==> !Matches(options[j], ratio)
    ensures FirstMatch(options, ratio) == i
    decreases i
  {
    if i > 0 {
      FirstMatchIs(options[1..], ratio, i - 1);
    }
  }

  /** A 1024 x 576 image is recognised as 16:9. */
  lemma WidescreenRecognised()
    ensures AspectChoice(Constants.OptionValues(), Num(1024.0), Num(576.0)) == "16:9"
  {
    ExactRatioSelectsItsOption(1, 1024.0, 576.0);
  }
}

=== FILE: form_generator.dfy ===
/** The schema-driven parameter form of the front end: which input each model
    parameter gets, and in which order the inputs appear.  Markup is not
    modelled; each input is described by a `Control`. */
module FormGenerator {
  import opened Wrappers
  import opened Json
  import Text
  import Numbers
  import Sorting
  import Coercion

  /** One entry of a model's input schema; `None` is a key the entry leaves
      out (JavaScript `undefined`). */
  datatype PropertySchema = PropertySchema(
    typ: Option<string>,
    enumValues: Option<seq<Value>>,
    minimum: Option<real>,
    maximum: Option<real>,
    multipleOf: Option<real>,
    defaultValue: Value,
    description: Option<string>,
    format: Option<string>,
    xOrder: Option<real>)

  /** The `{}` a missing entry is replaced with. */
  const EmptySchema: PropertySchema :=
    PropertySchema(None, None, None, None, None, Undefined, None, None, None)

  type Properties = seq<(string, PropertySchema)>

  /** A model's input schema; `properties` lists its entries in key order and
      is `None` when the schema has none. */
  datatype InputSchema = InputSchema(properties: Option<Properties>)

  predicate HasKey(props: Properties, key: string) {
    exists i :: 0 <= i < |props| && props[i].0 == key
  }

  /** `properties[key]`. */
  function Lookup(props: Properties, key: string): (r: Option<PropertySchema>)
    ensures r.Some? <==> HasKey(props, key)
    ensures r.Some? ==> exists i :: 0 <= i < |props| && props[i] == (key, r.value)
  {
    if |props| == 0 then None
    else if props[0].0 == key then Some(props[0].1)
    else
      var r := Lookup(props[1..], key);
      assert forall i :: 0 <= i < |props| - 1 ==> props[1..][i] == props[i + 1];
      r
  }

  predicate IsDimension(name: string) {
    name == "width" || name == "height"
  }

  /** Parameters whose name contains "prompt" in any letter case are left to
      the main prompt box. */
  predicate MentionsPrompt(name: string) {
    Text.Contains(Text.ToLower(name), "prompt")
  }

  datatype Control =
    | Select(options: seq<Value>, selected: seq<bool>)
    | NumberInput(slider: bool, min: Option<real>, max: Option<real>, step: real, initial: Option<Value>)
    | Checkbox(checked: bool)
    | TextInput(multiline: bool, text: Value)

  datatype Field = Field(name: string, control: Control, dimensionWrapper: bool)

  /** What one schema entry turns into. */
  datatype Outcome = Skipped | Made(field: Field) | Unsupported(warning: string)

  predicate IsNumeric(typ: Option<string>) {
    typ == Some("integer") || typ == Some("number")
  }

  /** The types the form knows how to render. */
  predicate IsRendered(typ: Option<string>) {
    IsNumeric(typ) || typ == Some("boolean") || typ == Some("string")
  }

  /** JavaScript `parseFloat(v)` of a default value, as a value: the number
      read from the default's text, NaN when there is none. */
  function ParseFloatValue(v: Value): (r: Value)
    ensures r.Num? || r.NaN?
    ensures r.Num? <==> Coercion.ParseFloatOf(v).Some?
    ensures r.Num? ==> r.n == Coercion.ParseFloatOf(v).value
    ensures v.Num? ==> r == v
  {
    match Coercion.ParseFloatOf(v)
    case Some(x) => Num(x)
    case None => NaN
  }

  /** An array default is read through its text, whose first comma ends
      the number: `[512, 6]` starts at 512, and a text element is read as
      `parseFloat` reads it on its own. */
  lemma ArrayDefaultReadsFirstElement(s: string, rest: seq<Value>)
    ensures ParseFloatValue(Arr([Num(512.0), Num(6.0)])) == Num(512.0)
    ensures ParseFloatValue(Arr([Str(s)] + rest)) == ParseFloatValue(Str(s))
  {
    assert ([Str(s)] + rest)[0] == Str(s);
  }

  /** Step attribute of a numeric input. */
  function Step(schema: PropertySchema): (step: real)
    ensures schema.typ == Some("integer") ==> step == 1.0
    ensures schema.typ != Some("integer") && schema.multipleOf.Some? && schema.multipleOf.value != 0.0
            ==> step == schema.multipleOf.value
    ensures schema.typ != Some("integer") && (schema.multipleOf.None? || schema.multipleOf.value == 0.0)
            ==> step == 0.01
  {
    if schema.typ == Some("integer") then 1.0
    else if schema.multipleOf.Some? && JsTruthy(Num(schema.multipleOf.value)) then schema.multipleOf.value
    else 0.01
  }

  /** Initial value of a numeric input: the parsed default, 1024 for a width
      or height without one, nothing otherwise. */
  function InitialValue(name: string, schema: PropertySchema): (r: Option<Value>)
    ensures schema.defaultValue.Num? ==> r == Some(schema.defaultValue)
    ensures schema.defaultValue != Undefined ==>
      r == Some(ParseFloatValue(schema.defaultValue))
      && (r.value.Num? <==> Coercion.ParseFloatOf(schema.defaultValue).Some?)
    ensures schema.defaultValue == Undefined ==> (r.Some? <==> IsDimension(name))
    ensures schema.defaultValue == Undefined && IsDimension(name) ==> r == Some(Num(1024.0))
  {
    var v := if IsDimension(name) && schema.defaultValue == Undefined then Num(1024.0) else schema.defaultValue;
    if v == Undefined then None else Some(ParseFloatValue(v))
  }

  /** Whether a numeric input is a range slider. */
  function UseRange(name: string, schema: PropertySchema): (slider: bool)
    ensures slider ==> schema.minimum.Some? && schema.maximum.Some?
    ensures IsDimension(name) && schema.minimum.Some? && schema.maximum.Some? ==> slider
    ensures !IsDimension(name) && schema.minimum.Some? && schema.maximum.Some? ==>
              (slider <==> schema.maximum.value - schema.minimum.value <= 1000.0)
  {
    if IsDimension(name) then schema.minimum.Some? && schema.maximum.Some?
    else schema.minimum.Some? && schema.maximum.Some? && schema.maximum.value - schema.minimum.value <= 1000.0
  }

  /** A string input becomes a text area for the textarea format or a
      description mentioning "multi-line" in any letter case. */
  predicate Multiline(schema: PropertySchema) {
    || schema.format == Some("textarea")
    || (schema.description.Some? && schema.description.value != ""
        && Text.Contains(Text.ToLower(schema.description.value), "multi-line"))
  }

  /** `${schema.type}` in a template string. */
  function TypeText(typ: Option<string>): string {
    match typ
    case None => "undefined"
    case Some(t) => t
  }

  const UnsupportedPrefix: string := "Unsupported parameter type for "

  /** Which input, if any, one schema entry gets.  Precedence: a prompt-like
      name, then `enum`, then the numeric types, boolean, string; any other
      type is reported and skipped. */
  function Classify(name: string, schema: PropertySchema): (r: Outcome)
    ensures r.Skipped? <==> MentionsPrompt(name)
    ensures r.Unsupported? <==> !MentionsPrompt(name) && schema.enumValues.None? && !IsRendered(schema.typ)
    ensures r.Unsupported? ==> r.warning == UnsupportedPrefix + name + ": " + TypeText(schema.typ)
    ensures r.Made? ==> r.field.name == name
    ensures r.Made? ==> (r.field.dimensionWrapper <==> IsDimension(name) && !r.field.control.Checkbox?)
    ensures r.Made? && schema.enumValues.Some? ==>
              && r.field.control.Select?
              && r.field.control.options == schema.enumValues.value
              && |r.field.control.selected| == |r.field.control.options|
              && forall i :: 0 <= i < |r.field.control.options| ==>
                   (r.field.control.selected[i] <==> StrictEquals(r.field.control.options[i], schema.defaultValue))
    ensures r.Made? && schema.enumValues.None? ==>
              && (r.field.control.NumberInput? <==> IsNumeric(schema.typ))
              && (r.field.control.Checkbox? <==> schema.typ == Some("boolean"))
              && (r.field.control.TextInput? <==> schema.typ == Some("string"))
    ensures r.Made? && r.field.control.NumberInput? ==>
              && r.field.control.step == Step(schema)
              && r.field.control.slider == UseRange(name, schema)
              && r.field.control.min == schema.minimum
              && r.field.control.max == schema.maximum
              && r.field.control.initial == InitialValue(name, schema)
    ensures r.Made? && r.field.control.Checkbox? ==> (r.field.control.checked <==> schema.defaultValue == Bool(true))
    ensures r.Made? && r.field.control.TextInput? ==> r.field.control.multiline == Multiline(schema)
  {
    var dim := IsDimension(name);
    if MentionsPrompt(name) then Skipped
    else if schema.enumValues.Some? then
      var opts := schema.enumValues.value;
      var sel := seq(|opts|, i requires 0 <= i < |opts| => StrictEquals(opts[i], schema.defaultValue));
      Made(Field(name, Select(opts, sel), dim))
    else if IsNumeric(schema.typ) then
      Made(Field(name, NumberInput(UseRange(name, schema), schema.minimum, schema.maximum, Step(schema),
                                   InitialValue(name, schema)), dim))
    else if schema.typ == Some("boolean") then
      Made(Field(name, Checkbox(schema.defaultValue == Bool(true)), false))
    else if schema.typ == Some("string") then
      var multi := Multiline(schema);
      var initial := if multi then JsOr(schema.defaultValue, Str("")) else schema.defaultValue;
      Made(Field(name, TextInput(multi, initial), dim))
    else
      Unsupported(UnsupportedPrefix + name + ": " + TypeText(schema.typ))
  }

  /** Ordering key: `x-order`, entries without one last. */
  function EntryRank(e: (string, PropertySchema)): Sorting.Rank {
    match e.1.xOrder
    case Some(o) => Sorting.Finite(o)
    case None => Sorting.Infinite
  }

  function Outcomes(entries: Properties): (outs: seq<Outcome>)
    ensures |outs| == |entries|
    ensures forall i :: 0 <= i < |entries| ==> outs[i] == Classify(entries[i].0, entries[i].1)
  {
    seq(|entries|, i requires 0 <= i < |entries| => Classify(entries[i].0, entries[i].1))
  }

  /** The inputs that are rendered, in order. */
  function FieldsOf(outs: seq<Outcome>): seq<Field> {
    if |outs| == 0 then []
    else (if outs[0].Made? then [outs[0].field] else []) + FieldsOf(outs[1..])
  }

  /** The console warnings, in order. */
  function WarningsOf(outs: seq<Outcome>): seq<string> {
    if |outs| == 0 then []
    else (if outs[0].Unsupported? then [outs[0].warning] else []) + WarningsOf(outs[1..])
  }

  /** Where each rendered input comes from: `FieldsOf(outs)` is exactly the
      `Made` outcomes, each once, in their order. */
  function Sources(outs: seq<Outcome>): (src: seq<nat>)
    ensures |src| == |FieldsOf(outs)|
    ensures forall k :: 0 <= k < |src| ==> src[k] < |outs| && outs[src[k]] == Made(FieldsOf(outs)[k])
    ensures forall k, l :: 0 <= k < l < |src| ==> src[k] < src[l]
    ensures forall i :: 0 <= i < |outs| && outs[i].Made? ==> i in src
    decreases |outs|
  {
    if |outs| == 0 then []
    else
      var tail := Sources(outs[1..]);
      var shifted := seq(|tail|, k requires 0 <= k < |tail| => tail[k] + 1);
      var head: seq<nat> := if outs[0].Made? then [0] else [];
      var src := head + shifted;
      SourcesStep(outs, tail, shifted, head, src);
      src
  }

  lemma SourcesStep(outs: seq<Outcome>, tail: seq<nat>, shifted: seq<nat>, head: seq<nat>, src: seq<nat>)
    requires |outs| > 0
    requires |tail| == |FieldsOf(outs[1..])|
    requires forall k :: 0 <= k < |tail| ==> tail[k] < |outs[1..]| && outs[1..][tail[k]] == Made(FieldsOf(outs[1..])[k])
    requires forall k, l :: 0 <= k < l < |tail| ==> tail[k] < tail[l]
    requires forall i :: 0 <= i < |outs[1..]| && outs[1..][i].Made? ==> i in tail
    requires |shifted| == |tail| && forall k :: 0 <= k < |tail| ==> shifted[k] == tail[k] + 1
    requires head == if outs[0].Made? then [0] else []
    requires src == head + shifted
    ensures |src| == |FieldsOf(outs)|
    ensures forall k :: 0 <= k < |src| ==> src[k] < |outs| && outs[src[k]] == Made(FieldsOf(outs)[k])
    ensures forall k, l :: 0 <= k < l < |src| ==> src[k] < src[l]
    ensures forall i :: 0 <= i < |outs| && outs[i].Made? ==> i in src
  {
    FieldsOfFirst(outs);
    forall k | 0 <= k < |tail| ensures outs[tail[k] + 1] == outs[1..][tail[k]] {
    }
    SourcesStepPoints(outs, FieldsOf(outs), FieldsOf(outs[1..]), tail, shifted, head, src);
    SourcesStepComplete(outs, tail, shifted, head, src);
  }

  /** The first field comes from the first outcome when that one is made. */
  lemma FieldsOfFirst(outs: seq<Outcome>)
    requires |outs| > 0
    ensures FieldsOf(outs) == (if outs[0].Made? then [outs[0].field] else []) + FieldsOf(outs[1..])
  {
  }

  lemma SourcesStepPoints(outs: seq<Outcome>, fs: seq<Field>, rest: seq<Field>, tail: seq<nat>,
                          shifted: seq<nat>, head: seq<nat>, src: seq<nat>)
    requires |outs| > 0
    requires fs == (if outs[0].Made? then [outs[0].field] else []) + rest
    requires |tail| == |rest|
    requires forall k :: 0 <= k < |tail| ==> tail[k] < |outs| - 1 && outs[tail[k] + 1] == Made(rest[k])
    requires |shifted| == |tail| && forall k :: 0 <= k < |tail| ==> shifted[k] == tail[k] + 1
    requires head == if outs[0].Made? then [0] else []
    requires src == head + shifted
    ensures |src| == |fs|
    ensures forall k :: 0 <= k < |src| ==> src[k] < |outs| && outs[src[k]] == Made(fs[k])
  {
    forall k | 0 <= k < |src|
      ensures src[k] < |outs| && outs[src[k]] == Made(fs[k])
    {
      if k >= |head| {
        var m := k - |head|;
        assert src[k] == tail[m] + 1;
        assert fs[k] == rest[m];
      }
    }
  }

  lemma SourcesStepComplete(outs: seq<Outcome>, tail: seq<nat>, shifted: seq<nat>, head: seq<nat>, src: seq<nat>)
    requires |outs| > 0
    requires forall i :: 0 <= i < |outs[1..]| && outs[1..][i].Made? ==> i in tail
    requires |shifted| == |tail| && forall k :: 0 <= k < |tail| ==> shifted[k] == tail[k] + 1
    requires head == if outs[0].Made? then [0] else []
    requires src == head + shifted
    ensures forall i :: 0 <= i < |outs| && outs[i].Made? ==> i in src
  {
    forall i | 0 <= i < |outs| && outs[i].Made?
      ensures i in src
    {
      if i > 0 {
        assert outs[1..][i - 1] == outs[i];
        var m :| 0 <= m < |tail| && tail[m] == i - 1;
        assert src[|head| + m] == i;
      }
    }
  }

  /** The warnings are exactly those of the unsupported entries. */
  lemma {:induction false} WarningsOfUnsupported(outs: seq<Outcome>)
    ensures forall w :: w in WarningsOf(outs) <==> exists i :: 0 <= i < |outs| && outs[i] == Unsupported(w)
    decreases |outs|
  {
    if |outs| > 0 {
      WarningsOfUnsupported(outs[1..]);
      forall w ensures w in WarningsOf(outs) <==> exists i :: 0 <= i < |outs| && outs[i] == Unsupported(w)
      {
        if exists i :: 0 <= i < |outs| && outs[i] == Unsupported(w) {
          var i :| 0 <= i < |outs| && outs[i] == Unsupported(w);
          if i > 0 {
            assert outs[1..][i - 1] == Unsupported(w);
          }
        }
        if w in WarningsOf(outs[1..]) {
          var i :| 0 <= i < |outs[1..]| && outs[1..][i] == Unsupported(w);
          assert outs[i + 1] == Unsupported(w);
        }
      }
    }
  }

  /** An unsupported entry only adds a warning: dropping it leaves the
      rendered inputs as they are. */
  lemma {:induction false} UnsupportedLeavesFields(outs: seq<Outcome>, i: nat)
    requires i < |outs| && outs[i].Unsupported?
    ensures FieldsOf(outs[..i] + outs[i + 1..]) == FieldsOf(outs)
    decreases i
  {
    if i > 0 {
      UnsupportedLeavesFields(outs[1..], i - 1);
      assert outs[..i] + outs[i + 1..] == [outs[0]] + (outs[1..][..i - 1] + outs[1..][i..]);
    } else {
      assert outs[..i] + outs[i + 1..] == outs[1..];
    }
  }

  datatype Form =
    | InvalidSchema
    | Form(aspectSelector: bool, entries: Properties, fields: seq<Field>, warnings: seq<string>)
  {
    /** The "no additional configurable parameters" notice. */
    predicate ShowsNoParameters() {
      Form? && !aspectSelector && |fields| == 0
    }
  }

  /** `generateFormFields`: the aspect selector when both dimensions are
      parameters, then one input per entry, ordered by `x-order`. */
  function GenerateFormFields(schema: Option<InputSchema>): (r: Form)
    ensures r.InvalidSchema? <==> schema.None? || schema.value.properties.None?
    ensures r.Form? ==>
      var props := schema.value.properties.value;
      && (r.aspectSelector <==> HasKey(props, "width") && HasKey(props, "height"))
      && |r.entries| == |props|
      && multiset(r.entries) == multiset(props)
      && Sorting.Ordered(r.entries, EntryRank)
      && (var p := Sorting.SortPermutation(props, EntryRank);
          forall k :: 0 <= k < |r.entries| ==> r.entries[k] == props[p[k]])
      && r.fields == FieldsOf(Outcomes(r.entries))
      && r.warnings == WarningsOf(Outcomes(r.entries))
  {
    if schema.None? || schema.value.properties.None? then InvalidSchema
    else
      var props := schema.value.properties.value;
      var sorted := Sorting.StableSort(props, EntryRank);
      var outs := Outcomes(sorted);
      Form(HasKey(props, "width") && HasKey(props, "height"), sorted, FieldsOf(outs), WarningsOf(outs))
  }

  /** No rendered input is for a prompt-like parameter, every rendered input
      is for a key of the schema, and inputs follow the sorted order. */
  lemma FormFieldsFromSchema(schema: InputSchema)
    requires schema.properties.Some?
    ensures var r := GenerateFormFields(Some(schema));
      var props := schema.properties.value;
      var src := Sources(Outcomes(r.entries));
      && |src| == |r.fields|
      && (forall k :: 0 <= k < |r.fields| ==> !MentionsPrompt(r.fields[k].name) && HasKey(props, r.fields[k].name))
      && (forall k, l :: 0 <= k < l < |r.fields| ==>
            Sorting.RankLe(EntryRank(r.entries[src[k]]), EntryRank(r.entries[src[l]])))
  {
    var r := GenerateFormFields(Some(schema));
    var props := schema.properties.value;
    var outs := Outcomes(r.entries);
    var src := Sources(outs);
    forall k | 0 <= k < |r.fields|
      ensures !MentionsPrompt(r.fields[k].name) && HasKey(props, r.fields[k].name)
    {
      var e := r.entries[src[k]];
      assert outs[src[k]] == Classify(e.0, e.1);
      assert e in multiset(props);
    }
  }

  /** Without any `x-order`, inputs keep the schema's key order. */
  lemma NoOrderKeepsKeyOrder(schema: InputSchema)
    requires schema.properties.Some?
    requires forall i :: 0 <= i < |schema.properties.value| ==> schema.properties.value[i].1.xOrder.None?
    ensures GenerateFormFields(Some(schema)).entries == schema.properties.value
  {
    Sorting.StableSortOrdered(schema.properties.value, EntryRank);
  }

  /** The name test ignores letter case: "Prompt_Strength" is skipped just as
      "prompt_strength" is, so a numeric strength parameter gets no input. */
  lemma PromptStrengthSkipped(schema: PropertySchema)
    ensures Classify("prompt_strength", schema) == Skipped
    ensures Classify("Negative_Prompt", schema) == Skipped
  {
    Text.ContainsAt(Text.ToLower("prompt_strength"), "prompt", 0);
    Text.ContainsAt(Text.ToLower("Negative_Prompt"), "prompt", 9);
  }
}

=== FILE: gallery.dfy ===
/** The image gallery: the id of an image derived from its file name, the
    pagination bar as a sequence of items, the current-page state that a
    successful load updates, and the guard on pagination clicks. */
module Gallery {
  import opened Wrappers
  import opened Json
  import Text

  /** The file name with one trailing ".webp" or ".png" removed. */
  function StripImageExtension(filename: string): (id: string)
    ensures id == filename || id + ".webp" == filename || id + ".png" == filename
    ensures id == filename <==> !Text.EndsWith(filename, ".webp") && !Text.EndsWith(filename, ".png")
  {
    if Text.EndsWith(filename, ".webp") then filename[..|filename| - 5]
    else if Text.EndsWith(filename, ".png") then filename[..|filename| - 4]
    else filename
  }

  /** Stripping undoes appending either extension. */
  lemma StripExtensionRoundTrip(id: string)
    ensures StripImageExtension(id + ".webp") == id
    ensures StripImageExtension(id + ".png") == id
  {
    assert (id + ".webp")[..|id|] == id;
    assert (id + ".png")[..|id|] == id;
    assert !Text.EndsWith(id + ".png", ".webp") by {
      var s := id + ".png";
      if |s| >= 5 {
        assert s[|s| - 5..][4] == s[|s| - 1] == 'g';
      }
    }
  }

  /** What a gallery card offers for one image. */
  datatype Card = Card(filename: string, imageId: string, downloadName: string)

  function MakeCard(filename: string): (c: Card)
    ensures c.filename == filename && c.imageId == StripImageExtension(filename)
    ensures c.downloadName == c.imageId + ".webp"
  {
    var id := StripImageExtension(filename);
    Card(filename, id, id + ".webp")
  }

  /** The original download of a PNG image is offered under the ".webp" name. */
  lemma PngDownloadsAsWebp(id: string)
    ensures MakeCard(id + ".png").downloadName == id + ".webp"
  {
    StripExtensionRoundTrip(id);
  }

  datatype ItemKind = Previous | Number | Next

  /** One pagination item: the page its link targets and its state. */
  datatype PageItem = PageItem(kind: ItemKind, target: int, disabled: bool, active: bool)

  function NumberItems(first: int, totalPages: int, currentPage: int): (items: seq<PageItem>)
    ensures |items| == if first <= totalPages then totalPages - first + 1 else 0
    ensures forall k :: 0 <= k < |items| ==>
      items[k] == PageItem(Number, first + k, false, first + k == currentPage)
    decreases totalPages - first
  {
    if first > totalPages then []
    else [PageItem(Number, first, false, first == currentPage)] + NumberItems(first + 1, totalPages, currentPage)
  }

  /** `createPagination`: a previous item, the pages 1..totalPages, a next
      item. */
  function Pagination(currentPage: int, totalPages: int): (items: seq<PageItem>)
    ensures |items| == 2 + (if totalPages > 0 then totalPages else 0)
    ensures items[0] == PageItem(Previous, currentPage - 1, currentPage == 1, false)
    ensures items[|items| - 1] == PageItem(Next, currentPage + 1, currentPage == totalPages, false)
    ensures forall k :: 1 <= k < |items| - 1 ==> items[k] == PageItem(Number, k, false, k == currentPage)
  {
    [PageItem(Previous, currentPage - 1, currentPage == 1, false)]
      + NumberItems(1, totalPages, currentPage)
      + [PageItem(Next, currentPage + 1, currentPage == totalPages, false)]
  }

  /** Exactly one item is active when the current page is in range, none
      otherwise; and with no pages at all the next item stays enabled. */
  lemma ActiveItems(currentPage: int, totalPages: int)
    ensures var items := Pagination(currentPage, totalPages);
      && (1 <= currentPage <= totalPages ==>
            items[currentPage].active && forall k :: 0 <= k < |items| && k != currentPage ==> !items[k].active)
      && (!(1 <= currentPage <= totalPages) ==> forall k :: 0 <= k < |items| ==> !items[k].active)
    ensures totalPages == 0 && currentPage == 1 ==> !Pagination(currentPage, totalPages)[1].disabled
  {
  }

  /** The pagination click handler loads `page` when it is truthy and differs
      from the current page. */
  predicate LoadsOnClick(page: int, currentPage: int) {
    JsTruthy(Num(page as real)) && page != currentPage
  }

  /** On the bar, the click guard ignores exactly the active page and the
      previous item of page 1 (whose target, 0, is falsy).  The next item of
      the last page is disabled only by its styling: the guard lets it
      through. */
  lemma ClickGuardOnItems(currentPage: int, totalPages: int)
    requires currentPage >= 1
    ensures var items := Pagination(currentPage, totalPages);
      forall k :: 0 <= k < |items| ==>
        (LoadsOnClick(items[k].target, currentPage) <==> !items[k].active && !(items[k].kind == Previous && items[k].disabled))
  {
  }

  /** What the gallery shows. */
  datatype View = View(currentPage: int, cards: seq<Card>, pagination: seq<PageItem>)

  /** The answer to `/api/images?page=…`. */
  datatype Response = Loaded(filenames: seq<string>, totalPages: int) | LoadFailed(error: string)

  /** `loadGallery(page)`: the outcome is the new view and the error shown,
      if any.  Nothing happens while the gallery elements are missing. */
  function LoadGallery(ready: bool, view: View, page: int, response: Response): (r: (View, Option<string>))
    ensures !ready ==> r == (view, None)
    ensures ready && response.LoadFailed? ==> r == (view, Some("Error loading gallery: " + response.error))
    ensures ready && response.Loaded? ==>
      && r.1.None? && r.0.currentPage == page
      && r.0.pagination == Pagination(page, response.totalPages)
      && |r.0.cards| == |response.filenames|
      && forall k :: 0 <= k < |r.0.cards| ==> r.0.cards[k] == MakeCard(response.filenames[k])
  {
    if !ready then (view, None)
    else match response
      case LoadFailed(e) => (view, Some("Error loading gallery: " + e))
      case Loaded(files, total) =>
        var cards := seq(|files|, k requires 0 <= k < |files| => MakeCard(files[k]));
        (View(page, cards, Pagination(page, total)), None)
  }

  /** After a successful load, clicking the page just loaded does nothing. */
  lemma ReloadOfSamePageIgnored(view: View, page: int, filenames: seq<string>, totalPages: int)
    ensures var v := LoadGallery(true, view, page, Loaded(filenames, totalPages)).0;
      !LoadsOnClick(page, v.currentPage)
  {
  }
}

=== FILE: image_converter.dfy ===
/** The image converter's bookkeeping of temporary files: each conversion
    records its output file with the time it was made, and a cleanup drops
    every record older than the maximum age, deleting the file when it is
    still there.  Pixels, the file system and the clock are outside the
    model: whether files exist, whether they can be removed, and the current
    time are parameters. */
module ImageConverter {
  import opened Wrappers

  /** The converter: where temporary files go, the cleanup period and the
      maximum age in seconds, and the tracked files with their creation
      times. */
  datatype Converter = Converter(tempDir: string, cleanupInterval: int, maxAge: int,
                                 tempFiles: map<string, real>)

  /** A new converter tracks nothing; an empty or missing directory means
      the system's temporary directory. */
  function Init(tempDir: Option<string>, systemTemp: string, cleanupInterval: int, maxAge: int)
    : (c: Converter)
    ensures c.tempFiles == map[]
    ensures c.tempDir == if tempDir.Some? && tempDir.value != "" then tempDir.value else systemTemp
  {
    var dir := if tempDir.Some? && tempDir.value != "" then tempDir.value else systemTemp;
    Converter(dir, cleanupInterval, maxAge, map[])
  }

  datatype Format = Jpeg | Png

  function Suffix(f: Format): string {
    match f
    case Jpeg => ".jpg"
    case Png => ".png"
  }

  function Label(f: Format): string {
    match f
    case Jpeg => "JPEG"
    case Png => "PNG"
  }

  /** `convert_to_jpg` / `convert_to_png`.  `tempName` is the random part of
      the name the system picks, `failure` the error of the conversion
      itself, if any.  A missing source is refused before any file is made;
      a successful conversion tracks its output at time `now`. */
  function Convert(c: Converter, format: Format, sourcePath: string, sourceExists: bool,
                   tempName: string, failure: Option<string>, now: real)
    : (r: (Converter, Result<string, string>))
    ensures !sourceExists ==> r == (c, Failure("Source file does not exist: " + sourcePath))
    ensures sourceExists && failure.Some? ==>
      r == (c, Failure("Image conversion to " + Label(format) + " failed: " + failure.value))
    ensures r.1.Failure? ==> r.0 == c
    ensures r.1.Success? ==>
      && r.1.value == c.tempDir + "/" + tempName + Suffix(format)
      && r.0.tempFiles.Keys == c.tempFiles.Keys + {r.1.value}
      && r.0.tempFiles[r.1.value] == now
      && (forall p :: p in c.tempFiles && p != r.1.value ==> r.0.tempFiles[p] == c.tempFiles[p])
      && r.0.(tempFiles := c.tempFiles) == c
  {
    if !sourceExists then (c, Failure("Source file does not exist: " + sourcePath))
    else match failure
      case Some(e) => (c, Failure("Image conversion to " + Label(format) + " failed: " + e))
      case None =>
        var path := c.tempDir + "/" + tempName + Suffix(format);
        (Track(c, path, now), Success(path))
  }

  /** `_track_temp_file`. */
  function Track(c: Converter, path: string, now: real): (r: Converter)
    ensures r.tempFiles.Keys == c.tempFiles.Keys + {path}
    ensures r.tempFiles[path] == now
    ensures forall p :: p in c.tempFiles && p != path ==> r.tempFiles[p] == c.tempFiles[p]
  {
    c.(tempFiles := c.tempFiles[path := now])
  }

  /** A conversion to a fresh name tracks exactly one more file. */
  lemma ConversionTracksOneMore(c: Converter, format: Format, sourcePath: string, tempName: string, now: real)
    requires c.tempDir + "/" + tempName + Suffix(format) !in c.tempFiles
    ensures var r := Convert(c, format, sourcePath, true, tempName, None, now);
      |r.0.tempFiles| == |c.tempFiles| + 1
  {
    var path := c.tempDir + "/" + tempName + Suffix(format);
    var r := Convert(c, format, sourcePath, true, tempName, None, now);
    assert r.0.tempFiles.Keys == c.tempFiles.Keys + {path};
  }

  /** A record is expired when it is strictly older than the maximum age. */
  predicate Expired(c: Converter, now: real, p: string)
    requires p in c.tempFiles
  {
    now - c.tempFiles[p] > c.maxAge as real
  }

  function ExpiredFiles(c: Converter, now: real): (s: set<string>)
    ensures s <= c.tempFiles.Keys
  {
    set p | p in c.tempFiles && Expired(c, now, p)
  }

  /** The outcome of a cleanup: the converter, the number of files deleted,
      and the files left on disk. */
  datatype Cleanup = Cleanup(converter: Converter, count: nat, disk: set<string>)

  /** `cleanup_old_files` at time `now`.  `disk` holds the files that exist
      and `undeletable` those whose removal fails. */
  method CleanupOldFiles(c: Converter, now: real, disk: set<string>, undeletable: set<string>)
    returns (r: Cleanup)
    ensures r.converter.(tempFiles := c.tempFiles) == c
    ensures forall p :: p in r.converter.tempFiles <==> p in c.tempFiles && !Expired(c, now, p)
    ensures forall p :: p in r.converter.tempFiles ==> r.converter.tempFiles[p] == c.tempFiles[p]
    ensures var deleted := set p | p in ExpiredFiles(c, now) && p in disk && p !in undeletable;
      r.count == |deleted| && r.disk == disk - deleted
  {
    var todo := c.tempFiles.Keys;
    var toRemove: set<string> := {};
    var deleted: set<string> := {};
    var count := 0;
    var onDisk := disk;
    while todo != {}
      invariant todo <= c.tempFiles.Keys
      invariant toRemove == set p | p in c.tempFiles.Keys - todo && Expired(c, now, p)
      invariant deleted == set p | p in toRemove && p in disk && p !in undeletable
      invariant count == |deleted|
      invariant onDisk == disk - deleted
      decreases |todo|
    {
      var p :| p in todo;
      if Expired(c, now, p) {
        if p in onDisk && p !in undeletable {
          onDisk := onDisk - {p};
          deleted := deleted + {p};
          count := count + 1;
        }
        toRemove := toRemove + {p};
      }
      todo := todo - {p};
    }
    assert toRemove == ExpiredFiles(c, now);
    var kept := map p | p in c.tempFiles && p !in toRemove :: c.tempFiles[p];
    r := Cleanup(c.(tempFiles := kept), count, onDisk);
  }

  /** `get_temp_file_info` at time `now`: the number of tracked files and of
      expired ones. */
  datatype Info = Info(totalFiles: nat, oldFiles: nat, tempDir: string, maxAgeSeconds: int,
                       cleanupIntervalSeconds: int)

  function GetTempFileInfo(c: Converter, now: real): (i: Info)
    ensures i.oldFiles <= i.totalFiles == |c.tempFiles|
    ensures i.oldFiles == |ExpiredFiles(c, now)|
    ensures i.oldFiles == 0 <==> forall p :: p in c.tempFiles ==> !Expired(c, now, p)
    ensures i.tempDir == c.tempDir && i.maxAgeSeconds == c.maxAge
    ensures i.cleanupIntervalSeconds == c.cleanupInterval
  {
    var expired := ExpiredFiles(c, now);
    assert expired <= c.tempFiles.Keys;
    SubsetCard(expired, c.tempFiles.Keys);
    assert forall p :: p in c.tempFiles && Expired(c, now, p) ==> p in expired;
    assert |expired| == 0 <==> expired == {};
    assert expired != {} ==> exists p :: p in c.tempFiles && Expired(c, now, p) by {
      if expired != {} {
        var p :| p in expired;
      }
    }
    Info(|c.tempFiles|, |expired|, c.tempDir, c.maxAge, c.cleanupInterval)
  }

  lemma SubsetCard<T>(a: set<T>, b: set<T>)
    requires a <= b
    ensures |a| <= |b|
  {
    if a != b {
      assert b == a + (b - a);
    }
  }

  /** Right after a cleanup at time `now` nothing tracked is expired at that
      time, and the number of deleted files is at most the number of records
      dropped. */
  method CleanupThenInfo(c: Converter, now: real, disk: set<string>, undeletable: set<string>)
    returns (count: nat, info: Info)
    ensures info.oldFiles == 0
    ensures count <= |ExpiredFiles(c, now)|
    ensures info.totalFiles + |ExpiredFiles(c, now)| == |c.tempFiles|
  {
    var r := CleanupOldFiles(c, now, disk, undeletable);
    count := r.count;
    info := GetTempFileInfo(r.converter, now);
    var expired := ExpiredFiles(c, now);
    var deleted := set p | p in expired && p in disk && p !in undeletable;
    SubsetCard(deleted, expired);
    assert r.converter.tempFiles.Keys == c.tempFiles.Keys - expired;
    assert c.tempFiles.Keys == r.converter.tempFiles.Keys + expired;
  }
}

=== FILE: json.dfy ===
/** JSON-like values as both halves of the application see them: the browser
    (JavaScript, with `undefined` and `NaN`) and the Flask back end (Python,
    where `null` is `None`).  The two languages disagree on truthiness, so both
    tests are defined here and kept apart. */
module Json {

  datatype Value =
    | Undefined                      // JavaScript `undefined`, an absent property
    | Null                           // JSON `null`, Python `None`
    | Bool(b: bool)
    | Num(n: real)                   // a finite number
    | NaN                            // JavaScript `NaN`, Python `float('nan')`
    | Str(s: string)
    | Arr(items: seq<Value>)
    | Obj(fields: map<string, Value>)

  /** JavaScript truthiness: arrays and objects are truthy even when empty. */
  predicate JsTruthy(v: Value) {
    match v
    case Undefined => false
    case Null => false
    case Bool(b) => b
    case Num(n) => n != 0.0
    case NaN => false
    case Str(s) => s != ""
    case Arr(_) => true
    case Obj(_) => true
  }

  /** Python truthiness: empty containers are falsy, `float('nan')` is truthy. */
  predicate PyTruthy(v: Value) {
    match v
    case Undefined => false
    case Null => false
    case Bool(b) => b
    case Num(n) => n != 0.0
    case NaN => true
    case Str(s) => s != ""
    case Arr(items) => |items| > 0
    case Obj(fields) => |fields| > 0
  }

  /** JavaScript `a || b`. */
  function JsOr(a: Value, b: Value): (r: Value)
    ensures JsTruthy(a) ==> r == a
    ensures !JsTruthy(a) ==> r == b
  {
    if JsTruthy(a) then a else b
  }

  /** JavaScript `a === b` on values decoded from JSON: `NaN` equals nothing,
      and two arrays or objects decoded at different places are never the
      same object. */
  predicate StrictEquals(a: Value, b: Value) {
    && a == b
    && !a.NaN?
    && !a.Arr?
    && !a.Obj?
  }

  /** Python `d.get(key, default)` on a dict. */
  function Get(fields: map<string, Value>, key: string, default: Value): (r: Value)
    ensures key in fields ==> r == fields[key]
    ensures key !in fields ==> r == default
  {
    if key in fields then fields[key] else default
  }
}

=== FILE: llm_client.dfy ===
/** The language-model client behind prompt translation and improvement:
    the configured model name and its normalisation, and how a failed
    completion is classified from the text of its error.  The completion
    itself is a foreign call; its outcome is a parameter. */
module LlmClient {
  import opened Wrappers
  import Text

  /** Dated model names the completion library does not know, with the name
      used instead. */
  const Mappings: map<string, string> := map[
    "gpt-4-1-2025-04-14" := "gpt-4.1",
    "gpt-4.1-2025-04-14" := "gpt-4.1",
    "gpt-4-turbo-2024-04-09" := "gpt-4-turbo",
    "gpt-4-turbo-preview" := "gpt-4-turbo"
  ]

  /** OpenAI models passed on as they are (the list only decides whether a
      warning is logged). */
  const StandardModels: seq<string> := [
    "gpt-4", "gpt-4.1", "gpt-4.1-mini", "gpt-4.1-nano",
    "gpt-4-turbo", "gpt-4o", "gpt-4o-mini",
    "gpt-3.5-turbo", "gpt-3.5-turbo-16k",
    "o3", "o3-mini", "o4-mini", "o1-mini", "o1-preview"
  ]

  /** `_normalize_model_name`: a mapped name is replaced, every other name
      (provider-prefixed, standard or unknown) is kept. */
  function NormalizeModelName(model: string): (r: string)
    ensures model in Mappings ==> r == Mappings[model]
    ensures model !in Mappings ==> r == model
  {
    if model in Mappings then Mappings[model]
    else if '/' in model then model
    else if model in StandardModels then model
    else model
  }

  /** No mapping target is itself mapped. */
  lemma TargetsAreNotMapped()
    ensures forall m :: m in Mappings ==> Mappings[m] !in Mappings
  {
  }

  /** Normalising twice is normalising once. */
  lemma NormalizeIdempotent(model: string)
    ensures NormalizeModelName(NormalizeModelName(model)) == NormalizeModelName(model)
  {
    TargetsAreNotMapped();
  }

  /** Names with a provider prefix are never rewritten. */
  lemma PrefixedNamesKept(model: string)
    requires '/' in model
    ensures NormalizeModelName(model) == model
  {
    MappedNamesUnprefixed();
  }

  lemma MappedNamesUnprefixed()
    ensures forall m :: m in Mappings ==> '/' !in m
  {
    assert Mappings.Keys == {"gpt-4-1-2025-04-14", "gpt-4.1-2025-04-14", "gpt-4-turbo-2024-04-09", "gpt-4-turbo-preview"};
  }

  /** The dated names the library does not know become the names it does. */
  lemma DatedNamesMapped()
    ensures NormalizeModelName("gpt-4-1-2025-04-14") == "gpt-4.1"
    ensures NormalizeModelName("gpt-4.1-2025-04-14") == "gpt-4.1"
    ensures NormalizeModelName("gpt-4-turbo-2024-04-09") == "gpt-4-turbo"
    ensures NormalizeModelName("gpt-4-turbo-preview") == "gpt-4-turbo"
  {
  }

  /** The model of a client: the explicit argument when it is non-empty,
      else the `LLM_MODEL` variable, else "gpt-4", then normalised. */
  function ResolveModel(model: Option<string>, env: Option<string>): (r: string)
    ensures model.Some? && model.value != "" ==> r == NormalizeModelName(model.value)
    ensures (model.None? || model.value == "") && env.Some? ==> r == NormalizeModelName(env.value)
    ensures (model.None? || model.value == "") && env.None? ==> r == "gpt-4"
  {
    var raw := if model.Some? && model.value != "" then model.value else env.GetOr("gpt-4");
    NormalizeModelName(raw)
  }

  /** What a completion call did: returned a message, or raised an exception
      with this text.  `valueError` says whether the exception is a
      `ValueError`, the one class the prompt-improvement route catches by
      name. */
  datatype Completion = Completed(content: string) | Raised(message: string, valueError: bool)

  /** What `translate_to_english` and `improve_prompt` end with. */
  datatype Outcome =
    | Returned(text: string)
    | ValueError(message: string)
    | RateLimitError(message: string)
    | Reraised(message: string, valueError: bool)    // the original exception, unchanged

  function AuthMessage(provider: string): string {
    provider + " API key is missing or invalid. Please check your configuration."
  }

  function RateLimitMessage(provider: string, message: string): string {
    provider + " API rate limit exceeded: " + message
  }

  predicate AuthKeyword(lower: string) {
    Text.Contains(lower, "authentication") || Text.Contains(lower, "api key")
    || Text.Contains(lower, "invalid") || Text.Contains(lower, "incorrect")
  }

  predicate RateKeyword(lower: string) {
    Text.Contains(lower, "rate limit") || Text.Contains(lower, "too many requests")
  }

  /** The classification of a failed completion, by the lower-cased text of
      its error.  `provider` is the name used in the messages ("LLM" or
      "OpenAI"); `valueError` is the class of the error, kept when it is
      re-raised. */
  function Classify(provider: string, message: string, valueError: bool): (r: Outcome)
    ensures !r.Returned?
    ensures r.ValueError? <==> AuthKeyword(Text.ToLower(message))
    ensures r.RateLimitError? <==> !AuthKeyword(Text.ToLower(message)) && RateKeyword(Text.ToLower(message))
    ensures r.ValueError? ==> r.message == AuthMessage(provider)
    ensures r.RateLimitError? ==> r.message == RateLimitMessage(provider, message)
    ensures r.Reraised? ==> r.message == message && r.valueError == valueError
  {
    var lower := Text.ToLower(message);
    if AuthKeyword(lower) then ValueError(AuthMessage(provider))
    else if RateKeyword(lower) then RateLimitError(RateLimitMessage(provider, message))
    else Reraised(message, valueError)
  }

  /** Both `translate_to_english` and `improve_prompt` after the completion
      call: the stripped content, or the classified error. */
  function Finish(provider: string, completion: Completion): (r: Outcome)
    ensures completion.Completed? ==> r == Returned(Text.Trim(completion.content))
    ensures completion.Raised? ==> r == Classify(provider, completion.message, completion.valueError)
  {
    match completion
    case Completed(content) => Returned(Text.Trim(content))
    case Raised(message, valueError) => Classify(provider, message, valueError)
  }

  /** The client as configured, with the provider name "LLM". */
  function TranslateToEnglish(completion: Completion): Outcome {
    Finish("LLM", completion)
  }

  function ImprovePrompt(completion: Completion): Outcome {
    Finish("LLM", completion)
  }

  lemma LowerCharIdempotent(c: char)
    ensures Text.LowerChar(Text.LowerChar(c)) == Text.LowerChar(c)
  {
  }

  /** Lower-casing twice is lower-casing once. */
  lemma ToLowerIdempotent(s: string)
    ensures Text.ToLower(Text.ToLower(s)) == Text.ToLower(s)
  {
    forall i | 0 <= i < |s| ensures Text.ToLower(Text.ToLower(s))[i] == Text.ToLower(s)[i] {
      LowerCharIdempotent(s[i]);
    }
  }

  /** The classification does not depend on letter case. */
  lemma ClassificationIgnoresCase(provider: string, message: string, valueError: bool)
    ensures Classify(provider, Text.ToLower(message), valueError).ValueError? == Classify(provider, message, valueError).ValueError?
    ensures Classify(provider, Text.ToLower(message), valueError).RateLimitError? == Classify(provider, message, valueError).RateLimitError?
  {
    ToLowerIdempotent(message);
  }

  /** An error mentioning both a key problem and a rate limit counts as a key
      problem. */
  lemma AuthBeforeRateLimit(provider: string, message: string, valueError: bool)
    requires Text.Contains(Text.ToLower(message), "invalid")
    requires Text.Contains(Text.ToLower(message), "rate limit")
    ensures Classify(provider, message, valueError).ValueError?
  {
  }

  /** An error reading "authentication failed" is a configuration error. */
  lemma AuthenticationExample()
    ensures TranslateToEnglish(Raised("authentication failed", false)) == ValueError(AuthMessage("LLM"))
  {
    var a := "authentication failed";
    assert Text.ToLower(a) == a;
    Text.ContainsAt(a, "authentication", 0);
  }

  /** An error reading "Some other error" is re-raised as it is. */
  lemma OtherErrorExample()
    ensures TranslateToEnglish(Raised("Some other error", false)) == Reraised("Some other error", false)
  {
    var lower := "some other error";
    assert Text.ToLower("Some other error") == lower;
    NoKeywordWithoutAI(lower);
  }

  /** Text without 'a' and 'i' names neither a key problem nor a rate
      limit. */
  lemma NoKeywordWithoutAI(lower: string)
    requires 'a' !in lower && 'i' !in lower
    ensures !AuthKeyword(lower) && !RateKeyword(lower)
  {
    NotContained(lower, "authentication", 0);
    NotContained(lower, "api key", 0);
    NotContained(lower, "invalid", 0);
    NotContained(lower, "incorrect", 0);
    NotContained(lower, "rate limit", 1);
    NotContained(lower, "too many requests", 5);
  }

  lemma NotContained(s: string, sub: string, k: nat)
    requires k < |sub| && sub[k] !in s
    ensures !Text.Contains(s, sub)
  {
    if Text.Contains(s, sub) {
      Text.ContainsChar(s, sub, k);
    }
  }
}

=== FILE: mobile_dropdown.dfy ===
/** Placement of an image card's download menu on narrow screens: the menu
    (280 by about 180 CSS pixels) goes above the card when there is room,
    else below it, else it is centred vertically; horizontally it is centred
    on the card and pushed back inside a 20-pixel margin.  While the menu is
    open the page is pinned, its scroll offset kept in the body's `top`
    style and restored from there when the menu closes. */
module MobileDropdown {
  import opened Wrappers
  import Numbers

  /** `isMobileDevice`: the viewport is at most 767.98 CSS pixels wide. */
  predicate IsMobile(innerWidth: real) {
    innerWidth <= 767.98
  }

  const MenuHeight: real := 180.0
  const MenuWidth: real := 280.0
  const Margin: real := 20.0
  const Gap: real := 10.0

  /** The card's bounding rectangle in viewport coordinates. */
  datatype Rect = Rect(top: real, bottom: real, left: real, width: real)

  /** A CSS length: `auto` or a number of pixels. */
  datatype Pos = Auto | Px(v: real)

  function Max(a: real, b: real): real {
    if a >= b then a else b
  }

  /** The menu's `top` and `bottom`: exactly one of them is `auto`, and above
      wins over below when both have room. */
  function Vertical(card: Rect, viewportHeight: real): (r: (Pos, Pos))
    ensures r.0.Auto? != r.1.Auto?
    ensures card.top >= MenuHeight + Margin ==> r == (Auto, Px(viewportHeight - card.top + Gap))
    ensures card.top < MenuHeight + Margin && viewportHeight - card.bottom >= MenuHeight + Margin ==>
      r == (Px(card.bottom + Gap), Auto)
    ensures card.top < MenuHeight + Margin && viewportHeight - card.bottom < MenuHeight + Margin ==>
      && r.1 == Auto && r.0.Px?
      && ((viewportHeight - MenuHeight) / 2.0 >= Margin ==> r.0.v + MenuHeight / 2.0 == viewportHeight / 2.0)
      && ((viewportHeight - MenuHeight) / 2.0 < Margin ==> r.0.v == Margin)
  {
    var spaceAbove := card.top;
    var spaceBelow := viewportHeight - card.bottom;
    if spaceAbove >= MenuHeight + Margin then (Auto, Px(viewportHeight - card.top + Gap))
    else if spaceBelow >= MenuHeight + Margin then (Px(card.bottom + Gap), Auto)
    else (Px(Max(Margin, (viewportHeight - MenuHeight) / 2.0)), Auto)
  }

  /** Where the menu's upper edge lands, measured from the viewport top. */
  function MenuTop(p: (Pos, Pos), viewportHeight: real): real
    requires p.0.Auto? != p.1.Auto?
  {
    if p.0.Px? then p.0.v else viewportHeight - p.1.v - MenuHeight
  }

  /** Placed above or below, the menu keeps a gap of 10 pixels from the card
      and a margin of at least 10 pixels from the viewport's edges. */
  lemma VerticalKeepsClear(card: Rect, viewportHeight: real)
    requires card.top <= card.bottom
    ensures var p := Vertical(card, viewportHeight);
      var top := MenuTop(p, viewportHeight);
      && (card.top >= MenuHeight + Margin ==> Gap <= top && top + MenuHeight + Gap == card.top)
      && (card.top < MenuHeight + Margin && viewportHeight - card.bottom >= MenuHeight + Margin ==>
            top == card.bottom + Gap && top + MenuHeight <= viewportHeight - Gap)
  {
  }

  /** The menu's `left`: centred on the card, then kept inside the margin,
      the left margin winning. */
  function Left(card: Rect, innerWidth: real): (left: real)
    ensures var centred := card.left + card.width / 2.0 - MenuWidth / 2.0;
      && (Margin <= centred && centred + MenuWidth <= innerWidth - Margin ==> left == centred)
      && (centred < Margin ==> left == Margin)
      && (centred >= Margin && centred + MenuWidth > innerWidth - Margin ==> left == innerWidth - MenuWidth - Margin)
  {
    var cardCenterX := card.left + card.width / 2.0;
    var left := cardCenterX - MenuWidth / 2.0;
    if left < Margin then Margin
    else if left + MenuWidth > innerWidth - Margin then innerWidth - MenuWidth - Margin
    else left
  }

  /** On a viewport at least 320 pixels wide the menu lies within the margins. */
  lemma LeftWithinMargins(card: Rect, innerWidth: real)
    requires innerWidth >= MenuWidth + 2.0 * Margin
    ensures Margin <= Left(card, innerWidth) && Left(card, innerWidth) + MenuWidth <= innerWidth - Margin
  {
  }

  datatype Placement = Placement(top: Pos, bottom: Pos, left: real)

  /** The `shown` handler's placement of an image card's menu; none on wide
      screens. */
  function Place(card: Rect, viewportHeight: real, innerWidth: real): (r: Option<Placement>)
    ensures r.Some? <==> IsMobile(innerWidth)
    ensures r.Some? ==>
      && (r.value.top, r.value.bottom) == Vertical(card, viewportHeight)
      && r.value.left == Left(card, innerWidth)
  {
    if !IsMobile(innerWidth) then None
    else
      var (top, bottom) := Vertical(card, viewportHeight);
      Some(Placement(top, bottom, Left(card, innerWidth)))
  }

  /** The body's `top` while the page is pinned at scroll offset `scrollY`. */
  function PinnedTop(scrollY: nat): (top: string)
    ensures |top| > 0
  {
    "-" + Numbers.NatToString(scrollY) + "px"
  }

  /** Where unpinning scrolls to: nowhere when `top` is empty, else the
      negated `parseInt` of it (`NaN` scrolls to 0). */
  function RestoreTarget(top: string): (y: Option<int>)
    ensures top == "" <==> y.None?
  {
    if top == "" then None
    else match Numbers.ParseInt(top)
      case None => Some(0)
      case Some(v) => Some(-v)
  }

  /** Pinning and unpinning returns to the same whole-pixel offset. */
  lemma ScrollRoundTrip(scrollY: nat)
    ensures RestoreTarget(PinnedTop(scrollY)) == Some(scrollY)
  {
    var top := PinnedTop(scrollY);
    NegatedReadsBack(scrollY, "px");
    assert top != "";
  }

  lemma NegatedReadsBack(n: nat, unit: string)
    requires |unit| > 0 && !Numbers.IsDigit(unit[0])
    ensures Numbers.ParseInt("-" + Numbers.NatToString(n) + unit) == Some(-(n as int))
  {
    Numbers.ParseIntOfNegatedNatToString(n, unit);
  }
}

=== FILE: modal_navigation.dfy ===
/** The full-size image viewer: a list of file names taken from the gallery,
    the position shown, and navigation by buttons, arrow keys and horizontal
    swipes, wrapping around at both ends.  The viewer is a state record and
    every handler a function from state to state. */
module ModalNavigation {
  import Text
  import Numbers
  import Constants

  /** The viewer's state: the file names it cycles through, the position
      shown (-1 when none), whether it is displayed, the `src` of its image,
      and the horizontal coordinates of the touch being tracked (0 when
      none). */
  datatype Modal = Modal(images: seq<string>, index: int, visible: bool, imageSrc: string,
                         touchStartX: real, touchEndX: real)

  /** The state at page load. */
  const Initial := Modal([], -1, false, "", 0.0, 0.0)

  /** Closed viewers hold no list and no position; an open one shows a
      position of its non-empty list. */
  predicate ModalInv(m: Modal) {
    && (m.visible ==> |m.images| > 0 && 0 <= m.index < |m.images|)
    && (!m.visible ==> m.images == [] && m.index == -1)
  }

  function ImagePath(filename: string): string {
    "/images/" + filename
  }

  /** `showModalImage(index)`: the position wraps modulo the list length with
      JavaScript's remainder; nothing happens on an empty list. */
  function Show(m: Modal, index: int): (r: Modal)
    ensures m.images == [] ==> r == m
    ensures r.images == m.images && r.visible == m.visible
    ensures r.touchStartX == m.touchStartX && r.touchEndX == m.touchEndX
    ensures m.images != [] && index >= -|m.images| ==>
      && 0 <= r.index < |m.images|
      && r.imageSrc == ImagePath(m.images[r.index])
    ensures m.images != [] && -|m.images| <= index < 2 * |m.images| ==>
      r.index == if index < 0 then index + |m.images| else if index < |m.images| then index else index - |m.images|
  {
    var n := |m.images|;
    if n == 0 then m
    else
      var i := Numbers.JsRemainder(index + n, n);
      assert 0 <= index + n < 3 * n ==> i == WrapOnce(index + n, n) by {
        if 0 <= index + n < 3 * n {
          RemainderBelowThrice(index + n, n);
        }
      }
      var src := if 0 <= i < n then ImagePath(m.images[i]) else ImagePath("undefined");
      m.(index := i, imageSrc := src)
  }

  function WrapOnce(a: int, n: int): int {
    if a < n then a else if a < 2 * n then a - n else a - 2 * n
  }

  lemma RemainderBelowThrice(a: int, n: int)
    requires n > 0 && 0 <= a < 3 * n
    ensures a % n == WrapOnce(a, n)
  {
    if a < n {
    } else if a < 2 * n {
      assert a == 1 * n + (a - n);
    } else {
      assert a == 2 * n + (a - 2 * n);
    }
  }

  /** Stepping back from the first image shows the last, and stepping on
      from the last shows the first. */
  lemma WrapsAround(m: Modal)
    requires |m.images| > 0
    ensures Show(m, -1).index == |m.images| - 1
    ensures Show(m, |m.images|).index == 0
  {
  }

  /** Some source in `srcs` has `name` as its last path segment. */
  predicate NamedIn(srcs: seq<string>, name: string)
  {
    exists k :: 0 <= k < |srcs| && Text.LastSegment(srcs[k], '/') == name
  }

  /** A source list names what its first source names and what the rest
      name. */
  lemma NamedInUncons(srcs: seq<string>, name: string)
    requires |srcs| > 0
    ensures NamedIn(srcs, name) <==> Text.LastSegment(srcs[0], '/') == name || NamedIn(srcs[1..], name)
  {
    if NamedIn(srcs[1..], name) {
      var k :| 0 <= k < |srcs| - 1 && Text.LastSegment(srcs[1..][k], '/') == name;
      assert srcs[1..][k] == srcs[k + 1];
    }
    if NamedIn(srcs, name) && Text.LastSegment(srcs[0], '/') != name {
      var k :| 0 <= k < |srcs| && Text.LastSegment(srcs[k], '/') == name;
      assert srcs[1..][k - 1] == srcs[k];
    }
  }

  /** The file names of the gallery's image sources, empty names dropped. */
  function Filenames(srcs: seq<string>): (names: seq<string>)
    ensures |names| <= |srcs|
    ensures forall k :: 0 <= k < |names| ==> names[k] != ""
    ensures forall name :: name in names <==> name != "" && NamedIn(srcs, name)
  {
    if |srcs| == 0 then []
    else
      var name := Text.LastSegment(srcs[0], '/');
      var rest := Filenames(srcs[1..]);
      assert forall n :: NamedIn(srcs, n) <==> name == n || NamedIn(srcs[1..], n) by {
        forall n ensures NamedIn(srcs, n) <==> name == n || NamedIn(srcs[1..], n) {
          NamedInUncons(srcs, n);
        }
      }
      if name != "" then [name] + rest else rest
  }

  /** The names are taken source by source, in gallery order: the names of
      two runs of sources are the names of the first followed by those of
      the second. */
  lemma {:induction false} FilenamesAppend(a: seq<string>, b: seq<string>)
    ensures Filenames(a + b) == Filenames(a) + Filenames(b)
    decreases |a|
  {
    if |a| == 0 {
      assert a + b == b;
    } else {
      assert (a + b)[1..] == a[1..] + b;
      FilenamesAppend(a[1..], b);
    }
  }

  /** One source contributes its last path segment, or nothing when that
      segment is empty. */
  lemma FilenamesOfOne(src: string)
    ensures Filenames([src]) == if Text.LastSegment(src, '/') != "" then [Text.LastSegment(src, '/')] else []
  {
    assert [src][1..] == [];
  }

  /** `findIndex` for equality: the first position holding `x`, or -1. */
  function FindIndex(s: seq<string>, x: string): (i: int)
    ensures -1 <= i < |s|
    ensures i >= 0 ==> s[i] == x && forall j :: 0 <= j < i ==> s[j] != x
    ensures i == -1 <==> x !in s
  {
    if |s| == 0 then -1
    else if s[0] == x then 0
    else
      var i := FindIndex(s[1..], x);
      if i == -1 then -1 else i + 1
  }

  /** `openImageModal(clickedSrc)` with the sources of the gallery's images.
      When the clicked file is not among them the viewer shows it alone. */
  function Open(ready: bool, m: Modal, gallerySrcs: seq<string>, clickedSrc: string): (r: Modal)
    ensures !ready ==> r == m
    ensures ready ==>
      var clicked := Text.LastSegment(clickedSrc, '/');
      var names := Filenames(gallerySrcs);
      && r.visible && 0 <= r.index < |r.images|
      && r.images[r.index] == clicked
      && (clicked in names ==>
            r.images == names && r.imageSrc == ImagePath(clicked)
            && forall j :: 0 <= j < r.index ==> names[j] != clicked)
      && (clicked !in names ==> r.images == [clicked] && r.imageSrc == clickedSrc)
      && r.touchStartX == m.touchStartX && r.touchEndX == m.touchEndX
  {
    if !ready then m
    else
      var names := Filenames(gallerySrcs);
      var clicked := Text.LastSegment(clickedSrc, '/');
      var i := FindIndex(names, clicked);
      var shown :=
        if i == -1 then m.(images := [clicked], index := 0, imageSrc := clickedSrc)
        else Show(m.(images := names, index := i), i);
      shown.(visible := true)
  }

  /** `closeImageModal()` of the navigation module: hides the viewer and
      forgets the list. */
  function Close(ready: bool, m: Modal): (r: Modal)
    ensures !ready ==> r == m
    ensures ready ==> !r.visible && r.images == [] && r.index == -1 && r.imageSrc == ""
    ensures r.touchStartX == m.touchStartX && r.touchEndX == m.touchEndX
  {
    if !ready then m else m.(visible := false, imageSrc := "", images := [], index := -1)
  }

  /** The close handler defined inside the page's ready handler: it only
      hides the viewer. */
  function HideOnly(m: Modal): (r: Modal)
    ensures !r.visible && r.images == m.images && r.index == m.index
  {
    m.(visible := false)
  }

  /** The key handler: arrows step while the viewer is displayed, Escape
      closes it, anything else is ignored. */
  function Keydown(m: Modal, key: string): (r: Modal)
    ensures !m.visible ==> r == m
    ensures m.visible && key == "ArrowLeft" ==> r == Show(m, m.index - 1)
    ensures m.visible && key == "ArrowRight" ==> r == Show(m, m.index + 1)
    ensures m.visible && key == "Escape" ==> r == Close(true, m)
    ensures key != "ArrowLeft" && key != "ArrowRight" && key != "Escape" ==> r == m
  {
    if !m.visible then m
    else if key == "ArrowLeft" then Show(m, m.index - 1)
    else if key == "ArrowRight" then Show(m, m.index + 1)
    else if key == "Escape" then Close(true, m)
    else m
  }

  /** A new touch records where it starts and forgets any earlier end, so
      that a touch without movement is not taken for a swipe. */
  function TouchStart(m: Modal, x: real): (r: Modal)
    ensures r.touchStartX == x && r.touchEndX == 0.0
    ensures r.images == m.images && r.index == m.index && r.visible == m.visible && r.imageSrc == m.imageSrc
  {
    m.(touchStartX := x, touchEndX := 0.0)
  }

  /** A moving touch records only its latest position. */
  function TouchMove(m: Modal, x: real): (r: Modal)
    ensures r.touchEndX == x && r.touchStartX == m.touchStartX
    ensures r.images == m.images && r.index == m.index && r.visible == m.visible && r.imageSrc == m.imageSrc
  {
    m.(touchEndX := x)
  }

  datatype Swipe = NoSwipe | SwipePrevious | SwipeNext

  /** A swipe needs both coordinates and a horizontal travel strictly longer
      than the threshold; travel to the right goes back. */
  function ClassifySwipe(startX: real, endX: real): (s: Swipe)
    ensures s != NoSwipe <==>
      startX != 0.0 && endX != 0.0 && (endX - startX > Constants.SwipeThreshold as real || startX - endX > Constants.SwipeThreshold as real)
    ensures s == SwipePrevious ==> endX > startX
    ensures s == SwipeNext ==> endX < startX
  {
    if startX == 0.0 || endX == 0.0 then NoSwipe
    else
      var delta := endX - startX;
      var distance := if delta < 0.0 then -delta else delta;
      if distance > Constants.SwipeThreshold as real then (if delta > 0.0 then SwipePrevious else SwipeNext)
      else NoSwipe
  }

  /** The end of a touch: steps as the swipe says, then forgets both
      coordinates; without both coordinates it changes nothing. */
  function TouchEnd(m: Modal): (r: Modal)
    ensures m.touchStartX == 0.0 || m.touchEndX == 0.0 ==> r == m
    ensures m.touchStartX != 0.0 && m.touchEndX != 0.0 ==> r.touchStartX == 0.0 && r.touchEndX == 0.0
    ensures var s := ClassifySwipe(m.touchStartX, m.touchEndX);
      && (s == SwipePrevious ==> r == Show(m, m.index - 1).(touchStartX := 0.0, touchEndX := 0.0))
      && (s == SwipeNext ==> r == Show(m, m.index + 1).(touchStartX := 0.0, touchEndX := 0.0))
      && (s == NoSwipe && m.touchStartX != 0.0 && m.touchEndX != 0.0 ==>
            r == m.(touchStartX := 0.0, touchEndX := 0.0))
  {
    if m.touchStartX == 0.0 || m.touchEndX == 0.0 then m
    else
      var moved := match ClassifySwipe(m.touchStartX, m.touchEndX)
        case SwipePrevious => Show(m, m.index - 1)
        case SwipeNext => Show(m, m.index + 1)
        case NoSwipe => m;
      moved.(touchStartX := 0.0, touchEndX := 0.0)
  }

  /** A touch that never moves changes nothing when it ends; one that
      moves far enough to the left shows the next image and forgets both
      coordinates; one that travels 50 pixels or less keeps the image and
      only forgets the coordinates. */
  lemma TouchGesture(m: Modal, x: real, y: real)
    ensures TouchEnd(TouchStart(m, x)) == TouchStart(m, x)
    ensures x != 0.0 && y != 0.0 && x - y > Constants.SwipeThreshold as real ==>
      TouchEnd(TouchMove(TouchStart(m, x), y)) == Show(m, m.index + 1).(touchStartX := 0.0, touchEndX := 0.0)
    ensures x != 0.0 && y != 0.0 && -(Constants.SwipeThreshold as real) <= y - x <= Constants.SwipeThreshold as real ==>
      TouchEnd(TouchMove(TouchStart(m, x), y)) == m.(touchStartX := 0.0, touchEndX := 0.0)
  {
  }

  /** Everything that can happen to the viewer once the page is set up. */
  datatype Event =
    | OpenEvent(gallerySrcs: seq<string>, clickedSrc: string)
    | CloseEvent
    | KeyEvent(key: string)
    | PreviousButton
    | NextButton
    | TouchStartEvent(x: real)
    | TouchMoveEvent(x: real)
    | TouchEndEvent

  function Step(m: Modal, e: Event): Modal {
    match e
    case OpenEvent(srcs, clicked) => Open(true, m, srcs, clicked)
    case CloseEvent => Close(true, m)
    case KeyEvent(key) => Keydown(m, key)
    case PreviousButton => Show(m, m.index - 1)
    case NextButton => Show(m, m.index + 1)
    case TouchStartEvent(x) => TouchStart(m, x)
    case TouchMoveEvent(x) => TouchMove(m, x)
    case TouchEndEvent => TouchEnd(m)
  }

  /** Every handler of the navigation module keeps the invariant. */
  lemma StepKeepsInvariant(m: Modal, e: Event)
    requires ModalInv(m)
    ensures ModalInv(Step(m, e))
  {
    match e
    case TouchEndEvent =>
      if m.visible {
        assert m.index - 1 >= -|m.images|;
      }
    case _ =>
  }

  /** The invariant holds after any sequence of events from page load. */
  lemma {:induction false} RunKeepsInvariant(events: seq<Event>)
    ensures ModalInv(Run(Initial, events))
    decreases |events|
  {
    if |events| > 0 {
      RunKeepsInvariant(events[..|events| - 1]);
      StepKeepsInvariant(Run(Initial, events[..|events| - 1]), events[|events| - 1]);
    }
  }

  function Run(m: Modal, events: seq<Event>): Modal
    decreases |events|
  {
    if |events| == 0 then m else Step(Run(m, events[..|events| - 1]), events[|events| - 1])
  }

  /** The page's own close handler leaves a hidden viewer that still holds
      its list and position, so the closed-state half of the invariant does
      not survive it. */
  lemma HideOnlyBreaksInvariant()
    ensures var m := Open(true, Initial, ["/images/a.webp"], "/images/a.webp");
      ModalInv(m) && !ModalInv(HideOnly(m))
  {
    var m := Open(true, Initial, ["/images/a.webp"], "/images/a.webp");
    assert m.images != [] by {
      assert m.visible;
    }
  }

  /** What survives the hide-only close: a displayed viewer always shows a
      position of its list. */
  predicate ShownInRange(m: Modal) {
    m.visible ==> |m.images| > 0 && 0 <= m.index < |m.images|
  }

  lemma HideOnlyKeepsShownInRange(m: Modal, e: Event)
    requires ShownInRange(m) && (m.visible || m.index >= -1)
    ensures ShownInRange(HideOnly(m))
    ensures ShownInRange(Step(m, e))
  {
    match e
    case TouchEndEvent =>
      if m.visible {
        assert m.index - 1 >= -|m.images|;
      }
    case _ =>
  }
}

=== FILE: numbers.dfy ===
/** Number handling of the two languages: decimal formatting and the prefix
    parsers `parseInt`/`parseFloat`, `Math.round`, JavaScript's truncating `%`
    and Python's flooring `//`.  Numbers are exact: a parse failure is `None`
    where JavaScript would produce `NaN`. */
module Numbers {
  import opened Wrappers
  import Text

  predicate IsDigit(c: char) {
    '0' <= c <= '9'
  }

  predicate AllDigits(s: string) {
    forall i :: 0 <= i < |s| ==> IsDigit(s[i])
  }

  function DigitValue(c: char): nat
    requires IsDigit(c)
  {
    c as int - '0' as int
  }

  function DigitChar(d: nat): (c: char)
    requires d < 10
    ensures IsDigit(c) && DigitValue(c) == d
  {
    ('0' as int + d) as char
  }

  /** `String(n)` / `str(n)` for a natural number: decimal, no leading zeros. */
  function NatToString(n: nat): (s: string)
    ensures |s| >= 1 && AllDigits(s)
  {
    if n < 10 then [DigitChar(n)] else NatToString(n / 10) + [DigitChar(n % 10)]
  }

  /** The value of a run of decimal digits, most significant first. */
  function DigitsValue(s: string): nat
    requires AllDigits(s)
  {
    if |s| == 0 then 0 else DigitsValue(s[..|s| - 1]) * 10 + DigitValue(s[|s| - 1])
  }

  /** Reading back a formatted number gives the number. */
  lemma {:induction false} DigitsValueOfNatToString(n: nat)
    ensures DigitsValue(NatToString(n)) == n
  {
    if n >= 10 {
      var s := NatToString(n);
      assert s[..|s| - 1] == NatToString(n / 10);
      DigitsValueOfNatToString(n / 10);
    }
  }

  /** Length of the longest prefix made of decimal digits. */
  function DigitRun(s: string): (k: nat)
    ensures k <= |s| && AllDigits(s[..k])
    ensures k < |s| ==> !IsDigit(s[k])
  {
    if |s| > 0 && IsDigit(s[0]) then 1 + DigitRun(s[1..]) else 0
  }

  lemma {:induction false} DigitRunOfDigits(ds: string, rest: string)
    requires AllDigits(ds)
    requires |rest| == 0 || !IsDigit(rest[0])
    ensures DigitRun(ds + rest) == |ds|
    decreases |ds|
  {
    if |ds| > 0 {
      assert (ds + rest)[1..] == ds[1..] + rest;
      DigitRunOfDigits(ds[1..], rest);
    } else {
      assert ds + rest == rest;
    }
  }

  /** Splits off an optional leading sign: the sign factor and the remainder. */
  function Sign(s: string): (int, string) {
    if |s| > 0 && s[0] == '-' then (-1, s[1..])
    else if |s| > 0 && s[0] == '+' then (1, s[1..])
    else (1, s)
  }

  /** JavaScript `parseInt(s)`: leading white space, an optional sign, then the
      longest run of digits; `None` (NaN) when there is no digit. */
  function ParseInt(s: string): Option<int> {
    var (sign, t) := Sign(Text.TrimStart(s));
    var k := DigitRun(t);
    if k == 0 then None else Some(sign * DigitsValue(t[..k]))
  }

  function Pow10(k: nat): (p: nat)
    ensures p >= 1
  {
    if k == 0 then 1 else 10 * Pow10(k - 1)
  }

  /** JavaScript `parseFloat(s)` without exponents: leading white space, an
      optional sign, integer digits, then optionally `.` and fraction digits;
      `None` (NaN) when neither part has a digit. */
  function ParseFloat(s: string): Option<real> {
    ParseSigned(Sign(Text.TrimStart(s)))
  }

  /** `parseFloat` after the white space: the sign applied to the magnitude. */
  function ParseSigned(signed: (int, string)): Option<real> {
    match ParseUnsigned(signed.1)
    case None => None
    case Some(m) => Some(if signed.0 < 0 then -m else m)
  }

  /** `parseFloat` after the white space and the sign: the magnitude. */
  function ParseUnsigned(t: string): Option<real> {
    var k := DigitRun(t);
    var whole := DigitsValue(t[..k]);
    if k < |t| && t[k] == '.' then
      var u := t[k + 1..];
      var f := DigitRun(u);
      if k + f == 0 then None
      else Some(Decimal(whole, u[..f]))
    else if k == 0 then None
    else Some(whole as real)
  }

  /** The value of a decimal with the given whole part and fraction digits. */
  function Decimal(whole: nat, fraction: string): real
    requires AllDigits(fraction)
  {
    whole as real + DigitsValue(fraction) as real / Pow10(|fraction|) as real
  }

  /** `parseInt` reads back a formatted natural number followed by any
      non-digit text. */
  lemma {:induction false} ParseIntOfNatToString(n: nat, rest: string)
    requires |rest| == 0 || !IsDigit(rest[0])
    ensures ParseInt(NatToString(n) + rest) == Some(n)
  {
    var ds := NatToString(n);
    var s := ds + rest;
    assert s[0] == ds[0] && IsDigit(s[0]);
    assert !Text.IsSpace(s[0]) && s[0] != '-' && s[0] != '+';
    assert Text.TrimStart(s) == s;
    assert Sign(s) == (1, s);
    DigitRunOfDigits(ds, rest);
    DigitsValueOfNatToString(n);
    assert s[..|ds|] == ds;
  }

  /** The same with a leading minus sign: the value comes back negated. */
  lemma {:induction false} ParseIntOfNegatedNatToString(n: nat, rest: string)
    requires |rest| == 0 || !IsDigit(rest[0])
    ensures ParseInt("-" + NatToString(n) + rest) == Some(-(n as int))
  {
    var ds := NatToString(n);
    var s := "-" + ds + rest;
    assert Text.TrimStart(s) == s;
    assert s[1..] == ds + rest;
    assert Sign(s) == (-1, ds + rest);
    DigitRunOfDigits(ds, rest);
    DigitsValueOfNatToString(n);
    assert (ds + rest)[..|ds|] == ds;
  }

  /** `parseFloat` of a formatted natural number is that number. */
  lemma {:induction false} ParseFloatOfNatToString(n: nat)
    ensures ParseFloat(NatToString(n)) == Some(n as real)
  {
    var ds := NatToString(n);
    assert ds[0] == ds[0];
    assert Text.TrimStart(ds) == ds;
    assert Sign(ds) == (1, ds);
    DigitRunOfDigits(ds, "");
    DigitsValueOfNatToString(n);
    assert ds + "" == ds;
    assert ds[..|ds|] == ds;
  }

  /** Appending to a text whose leading white space ends inside it (or
      appending text that does not start with white space) leaves the
      trimmed start unchanged. */
  lemma {:induction false} TrimStartAppend(s: string, x: string)
    requires Text.TrimStart(s) != "" || (|x| > 0 && !Text.IsSpace(x[0]))
    ensures Text.TrimStart(s + x) == Text.TrimStart(s) + x
    decreases |s|
  {
    if |s| == 0 {
      assert s + x == x;
    } else if Text.IsSpace(s[0]) {
      assert (s + x)[1..] == s[1..] + x;
      TrimStartAppend(s[1..], x);
    } else {
      assert (s + x)[0] == s[0];
    }
  }

  lemma SignAppend(a: string, x: string)
    requires a != "" || (|x| > 0 && x[0] != '-' && x[0] != '+')
    ensures Sign(a + x) == (Sign(a).0, Sign(a).1 + x)
  {
    if a == "" {
      assert a + x == x;
    } else {
      assert (a + x)[0] == a[0];
      assert (a + x)[1..] == a[1..] + x;
    }
  }

  lemma {:induction false} DigitRunAppend(u: string, x: string)
    requires |x| > 0 && !IsDigit(x[0])
    ensures DigitRun(u + x) == DigitRun(u)
    decreases |u|
  {
    if |u| == 0 {
      assert u + x == x;
    } else {
      assert (u + x)[0] == u[0];
      assert (u + x)[1..] == u[1..] + x;
      DigitRunAppend(u[1..], x);
    }
  }

  /** `parseFloat` reads a prefix: text after a character that cannot
      continue a number changes nothing.  When the text is blank the
      character must not be white space or a sign either, since the parser
      would skip or take it. */
  lemma ParseFloatAppend(s: string, x: string)
    requires |x| > 0 && !IsDigit(x[0]) && x[0] != '.'
    requires Text.TrimStart(s) == "" ==> !Text.IsSpace(x[0]) && x[0] != '-' && x[0] != '+'
    ensures ParseFloat(s + x) == ParseFloat(s)
  {
    TrimStartAppend(s, x);
    ParseSignedAppend(Text.TrimStart(s), x);
  }

  lemma ParseSignedAppend(a: string, x: string)
    requires |x| > 0 && !IsDigit(x[0]) && x[0] != '.'
    requires a == "" ==> x[0] != '-' && x[0] != '+'
    ensures ParseSigned(Sign(a + x)) == ParseSigned(Sign(a))
  {
    SignAppend(a, x);
    ParseUnsignedAppend(Sign(a).1, x);
    ParseSignedOfSameMagnitude(Sign(a + x), Sign(a));
  }

  lemma ParseSignedOfSameMagnitude(p: (int, string), q: (int, string))
    requires p.0 == q.0 && ParseUnsigned(p.1) == ParseUnsigned(q.1)
    ensures ParseSigned(p) == ParseSigned(q)
  {
  }

  lemma ParseUnsignedAppend(u: string, x: string)
    requires |x| > 0 && !IsDigit(x[0]) && x[0] != '.'
    ensures ParseUnsigned(u + x) == ParseUnsigned(u)
  {
    DigitRunAppend(u, x);
    var k := DigitRun(u);
    assert (u + x)[..k] == u[..k];
    if k < |u| {
      assert (u + x)[k] == u[k];
      if u[k] == '.' {
        var v := u[k + 1..];
        assert (u + x)[k + 1..] == v + x;
        DigitRunAppend(v, x);
        var f := DigitRun(v);
        assert (v + x)[..f] == v[..f];
      }
    } else {
      assert (u + x)[k] == x[0];
    }
  }

  /** `parseFloat` of comma-joined text reads only the first piece. */
  lemma ParseFloatStopsAtComma(s: string, t: string)
    ensures ParseFloat(s + "," + t) == ParseFloat(s)
  {
    assert s + "," + t == s + ([','] + t);
    ParseFloatAppend(s, [','] + t);
  }

  /** Whether `t` is one whole decimal literal: an optional sign, then
      digits with at most one `.` among them, and at least one digit. */
  predicate DecimalLiteral(t: string) {
    var u := Sign(t).1;
    var k := DigitRun(u);
    if k == |u| then k > 0
    else u[k] == '.' && k + 1 + DigitRun(u[k + 1..]) == |u| && |u| >= 2
  }

  /** JavaScript `Number(s)` for decimal text: white space around the number
      is ignored, blank text is 0, and text that is not one whole decimal
      literal is `None` (NaN). */
  function NumberOfText(s: string): (r: Option<real>)
    ensures Text.Trim(s) == "" ==> r == Some(0.0)
    ensures Text.Trim(s) != "" ==> (r.Some? <==> DecimalLiteral(Text.Trim(s)))
  {
    var t := Text.Trim(s);
    if t == "" then Some(0.0)
    else if DecimalLiteral(t) then
      assert Text.TrimStart(t) == t;
      ParseFloat(t)
    else None
  }

  /** A number's own decimal text is read back as it. */
  lemma NumberOfNatToString(n: nat)
    ensures NumberOfText(NatToString(n)) == Some(n as real)
  {
    var ds := NatToString(n);
    assert !Text.IsSpace(ds[|ds| - 1]) && !Text.IsSpace(ds[0]);
    assert Text.TrimEnd(ds) == ds && Text.TrimStart(ds) == ds;
    assert Sign(ds) == (1, ds);
    DigitRunOfDigits(ds, "");
    assert ds + "" == ds;
    ParseFloatOfNatToString(n);
  }

  lemma {:induction false} NonSpaceSurvivesTrimStart(s: string, i: nat)
    requires i < |s| && !Text.IsSpace(s[i])
    ensures s[i] in Text.TrimStart(s)
    decreases i
  {
    if Text.IsSpace(s[0]) {
      assert s[1..][i - 1] == s[i];
      NonSpaceSurvivesTrimStart(s[1..], i - 1);
    }
  }

  lemma {:induction false} NonSpaceSurvivesTrimEnd(s: string, i: nat)
    requires i < |s| && !Text.IsSpace(s[i])
    ensures s[i] in Text.TrimEnd(s)
    decreases |s|
  {
    if Text.IsSpace(s[|s| - 1]) {
      assert s[..|s| - 1][i] == s[i];
      NonSpaceSurvivesTrimEnd(s[..|s| - 1], i);
    }
  }

  /** A decimal literal holds only signs, digits and a point. */
  lemma LiteralHasNoComma(t: string)
    requires DecimalLiteral(t)
    ensures ',' !in t
  {
    var u := Sign(t).1;
    var k := DigitRun(u);
    assert AllDigits(u[..k]);
    forall j | 0 <= j < |u| ensures u[j] != ',' {
      if j < k {
        assert u[j] == u[..k][j];
      } else if j > k {
        var v := u[k + 1..];
        assert AllDigits(v[..DigitRun(v)]) && v[..DigitRun(v)] == v;
        assert u[j] == v[j - k - 1];
      }
    }
    assert t == u || t == [t[0]] + u;
  }

  /** `Number` rejects any text holding a comma. */
  lemma NumberRejectsComma(s: string)
    requires ',' in s
    ensures NumberOfText(s) == None
  {
    var i :| 0 <= i < |s| && s[i] == ',';
    NonSpaceSurvivesTrimEnd(s, i);
    var e := Text.TrimEnd(s);
    var j :| 0 <= j < |e| && e[j] == ',';
    NonSpaceSurvivesTrimStart(e, j);
    if DecimalLiteral(Text.Trim(s)) {
      LiteralHasNoComma(Text.Trim(s));
    }
  }

  /** JavaScript `Math.round(x)`: the nearest integer, halves rounded up. */
  function Round(x: real): (r: int)
    ensures x - 0.5 < r as real <= x + 0.5
  {
    (x + 0.5).Floor
  }

  lemma RoundOfInt(k: int)
    ensures Round(k as real) == k
  {
  }

  lemma RoundMonotone(x: real, y: real)
    requires x <= y
    ensures Round(x) <= Round(y)
  {
  }

  /** JavaScript `a % n`: the remainder takes the sign of the dividend. */
  function JsRemainder(a: int, n: int): (r: int)
    requires n > 0
    ensures a >= 0 ==> 0 <= r < n
    ensures a < 0 ==> -n < r <= 0
  {
    if a >= 0 then a % n else -((-a) % n)
  }

  /** Python `a // b`: the quotient rounded toward negative infinity. */
  function FloorDiv(a: int, b: int): (q: int)
    requires b != 0
    ensures b > 0 ==> q * b <= a < q * b + b
    ensures b < 0 ==> q * b >= a > q * b + b
  {
    if b > 0 then a / b else (-a) / (-b)
  }
}

=== FILE: openai_client.dfy ===
/** The older client that calls OpenAI directly.  It always asks "gpt-4" and
    classifies failures exactly as the language-model client does, with
    "OpenAI" in its messages. */
module OpenAiClient {
  import LlmClient
  import Text

  const Model: string := "gpt-4"

  function TranslateToEnglish(completion: LlmClient.Completion): (r: LlmClient.Outcome)
    ensures completion.Completed? ==> r == LlmClient.Returned(Text.Trim(completion.content))
    ensures completion.Raised? && r.ValueError? ==>
      r.message == LlmClient.AuthMessage("OpenAI")
  {
    LlmClient.Finish("OpenAI", completion)
  }

  function ImprovePrompt(completion: LlmClient.Completion): (r: LlmClient.Outcome)
    ensures completion.Completed? ==> r == LlmClient.Returned(Text.Trim(completion.content))
    ensures completion.Raised? && r.RateLimitError? ==>
      r.message == LlmClient.RateLimitMessage("OpenAI", completion.message)
  {
    LlmClient.Finish("OpenAI", completion)
  }

  /** Both clients put a failure in the same class; only the provider name
      in the message differs. */
  lemma SameClassification(message: string, valueError: bool)
    ensures var o, l := TranslateToEnglish(LlmClient.Raised(message, valueError)),
                        LlmClient.TranslateToEnglish(LlmClient.Raised(message, valueError));
      && (o.ValueError? <==> l.ValueError?)
      && (o.RateLimitError? <==> l.RateLimitError?)
      && (o.Reraised? <==> l.Reraised?)
      && (o.Reraised? ==> o == l)
  {
  }
}

=== FILE: replicate_client.dfy ===
/** The image-generation client: the model input built from the caller's
    parameters, the random seed, the choice of the image URL in the model's
    output, the metadata returned with the downloaded file, and the lookup of
    a model's input schema.  The remote calls and the download are foreign;
    their outcomes are parameters. */
module ReplicateClient {
  import opened Wrappers
  import opened Json

  /** `int.from_bytes(bytes, byteorder='big')`. */
  function BigEndian(bytes: seq<nat>): nat
    decreases |bytes|
  {
    if |bytes| == 0 then 0 else BigEndian(bytes[..|bytes| - 1]) * 256 + bytes[|bytes| - 1]
  }

  predicate IsBytes(bytes: seq<nat>) {
    forall i :: 0 <= i < |bytes| ==> bytes[i] < 256
  }

  /** The seed drawn from four random bytes: below one thousand million. */
  function GenerateSeed(entropy: seq<nat>): (seed: nat)
    requires |entropy| == 4 && IsBytes(entropy)
    ensures seed < 1000000000
    ensures seed == BigEndian(entropy) % 1000000000
  {
    BigEndian(entropy) % 1000000000
  }

  /** The big-endian bytes of `n`, `k` of them. */
  function ToBytes(n: nat, k: nat): (bytes: seq<nat>)
    ensures |bytes| == k && IsBytes(bytes)
  {
    if k == 0 then [] else ToBytes(n / 256, k - 1) + [n % 256]
  }

  function Pow256(k: nat): (p: nat)
    ensures p > 0
  {
    if k == 0 then 1 else 256 * Pow256(k - 1)
  }

  /** Reading the bytes of a number back gives the number, when it fits. */
  lemma {:induction false} BigEndianOfToBytes(n: nat, k: nat)
    requires n < Pow256(k)
    ensures BigEndian(ToBytes(n, k)) == n
  {
    if k > 0 {
      var b := ToBytes(n, k);
      assert b[..k - 1] == ToBytes(n / 256, k - 1);
      assert n / 256 < Pow256(k - 1);
      BigEndianOfToBytes(n / 256, k - 1);
    }
  }

  /** Every seed below one thousand million can be drawn. */
  lemma EverySeedPossible(seed: nat)
    requires seed < 1000000000
    ensures GenerateSeed(ToBytes(seed, 4)) == seed
  {
    assert Pow256(4) == 4294967296;
    BigEndianOfToBytes(seed, 4);
  }

  /** The model input: the given prompt replaces any 'prompt' parameter, and
      a seed is added only when the caller sent none. */
  function PrepareInput(params: map<string, Value>, prompt: string, seed: nat): (input: map<string, Value>)
    ensures input.Keys == params.Keys + {"prompt", "seed"}
    ensures input["prompt"] == Str(prompt)
    ensures "seed" in params ==> input["seed"] == params["seed"]
    ensures "seed" !in params ==> input["seed"] == Num(seed as real)
    ensures forall k :: k in params && k != "prompt" ==> input[k] == params[k]
  {
    var withPrompt := params["prompt" := Str(prompt)];
    if "seed" !in withPrompt then withPrompt["seed" := Num(seed as real)] else withPrompt
  }

  /** Preparing an input a second time changes nothing but the prompt. */
  lemma PrepareTwice(params: map<string, Value>, prompt: string, seed: nat, seed2: nat)
    ensures PrepareInput(PrepareInput(params, prompt, seed), prompt, seed2) == PrepareInput(params, prompt, seed)
  {
  }

  /** The URL taken from the model's output: the first element of a list,
      the output itself otherwise; an empty output is an error. */
  function SelectOutput(output: Value): (r: Result<Value, string>)
    ensures r.Failure? <==> !PyTruthy(output)
    ensures r.Failure? ==> r.error == "Replicate API returned no output."
    ensures r.Success? && output.Arr? ==> r.value == output.items[0]
    ensures r.Success? && !output.Arr? ==> r.value == output
  {
    if !PyTruthy(output) then Failure("Replicate API returned no output.")
    else if output.Arr? then Success(output.items[0])
    else Success(output)
  }

  /** The metadata returned with a generated image. */
  function RunMetadata(modelId: string, prompt: string, input: map<string, Value>): map<string, Value> {
    map["model_id" := Str(modelId), "prompt" := Str(prompt), "input_parameters" := Obj(input)]
  }

  /** The successful result of a generation. */
  datatype Generated = Generated(imagePath: string, metadata: map<string, Value>)

  /** `generate_image`.  `run` is the outcome of running the model on the
      prepared input, `download` that of saving the selected URL to a
      temporary file.  The caller's parameter object is changed in place, so
      the prepared input is returned as well. */
  function GenerateImage(prompt: string, modelId: string, params: map<string, Value>, seed: nat,
                         run: Result<Value, string>, download: Result<string, string>)
    : (r: (map<string, Value>, Result<Generated, string>))
    ensures r.0 == PrepareInput(params, prompt, seed)
    ensures r.1.Success? <==> run.Success? && PyTruthy(run.value) && download.Success?
    ensures r.1.Success? ==>
      && r.1.value.imagePath == download.value
      && r.1.value.metadata == RunMetadata(modelId, prompt, r.0)
      && r.1.value.metadata.Keys == {"model_id", "prompt", "input_parameters"}
  {
    var input := PrepareInput(params, prompt, seed);
    var outcome :=
      match run
      case Failure(e) => Failure(e)
      case Success(output) =>
        match SelectOutput(output)
        case Failure(e) => Failure(e)
        case Success(_) =>
          match download
          case Failure(e) => Failure(e)
          case Success(path) =>
            Success(Generated(path, RunMetadata(modelId, prompt, input)));
    (input, outcome)
  }

  /** What looking a model up gave: an error, a model without a version, or
      the latest version's input schema. */
  datatype ModelLookup = LookupFailed | NoVersion | LatestVersion(schema: Value)

  /** `get_model_details`: the schema, or `None` when there is no version,
      no schema, or an error. */
  function GetModelDetails(lookup: ModelLookup): (r: Option<Value>)
    ensures r.Some? <==> lookup.LatestVersion? && PyTruthy(lookup.schema)
    ensures r.Some? ==> r.value == lookup.schema && PyTruthy(r.value)
  {
    match lookup
    case LookupFailed => None
    case NoVersion => None
    case LatestVersion(schema) => if PyTruthy(schema) then Some(schema) else None
  }
}

=== FILE: sorting.dfy ===
/** Stable sorting by a rank, as `Array.prototype.sort` (stable since ES2019)
    and Python's `list.sort` perform it.  A rank is a real number or +infinity;
    two infinite ranks compare equal, as `Infinity - Infinity` (NaN) does in a
    JavaScript comparator.

    The sort is an insertion sort over elements tagged with their original
    position.  Its result is described by the permutation of positions it
    applies: ordered by rank, and equal ranks keep their original order. */
module Sorting {

  datatype Rank = Finite(v: real) | Infinite

  predicate RankLe(a: Rank, b: Rank) {
    b.Infinite? || (a.Finite? && a.v <= b.v)
  }

  predicate RankLt(a: Rank, b: Rank) {
    RankLe(a, b) && !RankLe(b, a)
  }

  /** Position-tagged element `x` comes strictly before `y`. */
  predicate Before<T>(x: (nat, T), y: (nat, T), rank: T -> Rank) {
    RankLe(rank(x.1), rank(y.1)) && (RankLe(rank(y.1), rank(x.1)) ==> x.0 < y.0)
  }

  predicate StrictlySorted<T>(t: seq<(nat, T)>, rank: T -> Rank) {
    forall i, j :: 0 <= i < j < |t| ==> Before(t[i], t[j], rank)
  }

  function Tag<T>(s: seq<T>): (t: seq<(nat, T)>)
    ensures |t| == |s|
    ensures forall i :: 0 <= i < |s| ==> t[i] == (i, s[i])
  {
    seq(|s|, i requires 0 <= i < |s| => (i, s[i]))
  }

  /** Inserts `x` after every element whose rank is not greater than its own. */
  function Insert<T>(t: seq<(nat, T)>, x: (nat, T), rank: T -> Rank): seq<(nat, T)>
  {
    if |t| == 0 then [x]
    else if RankLe(rank(t[|t| - 1].1), rank(x.1)) then t + [x]
    else Insert(t[..|t| - 1], x, rank) + [t[|t| - 1]]
  }

  function SortTagged<T>(t: seq<(nat, T)>, rank: T -> Rank): seq<(nat, T)>
  {
    if |t| == 0 then [] else Insert(SortTagged(t[..|t| - 1], rank), t[|t| - 1], rank)
  }

  lemma {:induction false} InsertSpec<T>(t: seq<(nat, T)>, x: (nat, T), rank: T -> Rank)
    requires StrictlySorted(t, rank)
    requires forall e :: e in t ==> e.0 < x.0
    ensures multiset(Insert(t, x, rank)) == multiset(t) + multiset{x}
    ensures StrictlySorted(Insert(t, x, rank), rank)
  {
    if |t| == 0 {
    } else if RankLe(rank(t[|t| - 1].1), rank(x.1)) {
      forall e | e in t ensures Before(e, x, rank) {
        var i :| 0 <= i < |t| && t[i] == e;
        if i < |t| - 1 {
          assert Before(t[i], t[|t| - 1], rank);
        }
      }
      SortedSnoc(t, x, rank);
    } else {
      var last := t[|t| - 1];
      var init := t[..|t| - 1];
      assert t == init + [last];
      forall e | e in init ensures e.0 < x.0 {
        assert e in t;
      }
      InsertSpec(init, x, rank);
      var m := Insert(init, x, rank);
      forall e | e in m ensures Before(e, last, rank) {
        assert e in multiset(m);
        if e != x {
          assert e in init;
          var k :| 0 <= k < |init| && init[k] == e;
          assert Before(t[k], t[|t| - 1], rank);
        }
      }
      SortedSnoc(m, last, rank);
    }
  }

  /** An element after everything in a sorted sequence extends it. */
  lemma SortedSnoc<T>(t: seq<(nat, T)>, y: (nat, T), rank: T -> Rank)
    requires StrictlySorted(t, rank)
    requires forall e :: e in t ==> Before(e, y, rank)
    ensures StrictlySorted(t + [y], rank)
  {
    var r := t + [y];
    forall i, j | 0 <= i < j < |r| ensures Before(r[i], r[j], rank) {
      if j == |t| {
        assert r[i] in t;
      }
    }
  }

  lemma {:induction false} SortTaggedSpec<T>(t: seq<(nat, T)>, rank: T -> Rank)
    requires forall i, j :: 0 <= i < j < |t| ==> t[i].0 < t[j].0
    ensures multiset(SortTagged(t, rank)) == multiset(t)
    ensures StrictlySorted(SortTagged(t, rank), rank)
  {
    if |t| > 0 {
      var init := t[..|t| - 1];
      var x := t[|t| - 1];
      assert t == init + [x];
      SortTaggedSpec(init, rank);
      var s := SortTagged(init, rank);
      assert forall e :: e in init ==> e.0 < x.0;
      assert forall e :: e in s ==> e in multiset(init);
      InsertSpec(s, x, rank);
    }
  }

  /** The permutation a stable sort by `rank` applies: entry `k` of the result
      is the element at original position `p[k]`. */
  function SortPermutation<T>(s: seq<T>, rank: T -> Rank): (p: seq<nat>)
    ensures |p| == |s|
    ensures forall k :: 0 <= k < |p| ==> p[k] < |s|
    ensures forall k, l :: 0 <= k < l < |p| ==> p[k] != p[l]
    ensures forall k, l :: 0 <= k < l < |p| ==> RankLe(rank(s[p[k]]), rank(s[p[l]]))
    ensures forall k, l :: 0 <= k < l < |p| && RankLe(rank(s[p[l]]), rank(s[p[k]])) ==> p[k] < p[l]
  {
    var sorted := SortTagged(Tag(s), rank);
    SortedTags(s, rank);
    seq(|sorted|, k requires 0 <= k < |sorted| => sorted[k].0)
  }

  /** Sorting the tagged elements keeps every tag with its element. */
  lemma SortedTags<T>(s: seq<T>, rank: T -> Rank)
    ensures var sorted := SortTagged(Tag(s), rank);
      && |sorted| == |s|
      && StrictlySorted(sorted, rank)
      && forall k :: 0 <= k < |sorted| ==> sorted[k].0 < |s| && sorted[k].1 == s[sorted[k].0]
  {
    var tagged := Tag(s);
    SortTaggedSpec(tagged, rank);
    var sorted := SortTagged(tagged, rank);
    assert |sorted| == |s| by {
      assert |multiset(sorted)| == |multiset(tagged)|;
    }
    forall k | 0 <= k < |sorted|
      ensures sorted[k].0 < |s| && sorted[k].1 == s[sorted[k].0]
    {
      assert sorted[k] in multiset(tagged);
    }
  }

  predicate Ordered<T>(s: seq<T>, rank: T -> Rank) {
    forall i, j :: 0 <= i < j < |s| ==> RankLe(rank(s[i]), rank(s[j]))
  }

  /** The payloads of a tagged sequence. */
  function Payloads<T>(t: seq<(nat, T)>): (s: seq<T>)
    ensures |s| == |t|
  {
    if |t| == 0 then [] else [t[0].1] + Payloads(t[1..])
  }

  lemma {:induction false} PayloadsAt<T>(t: seq<(nat, T)>, k: nat)
    requires k < |t|
    ensures Payloads(t)[k] == t[k].1
    decreases k
  {
    if k > 0 {
      PayloadsAt(t[1..], k - 1);
    }
  }

  lemma {:induction false} PayloadsConcat<T>(x: seq<(nat, T)>, y: seq<(nat, T)>)
    ensures Payloads(x + y) == Payloads(x) + Payloads(y)
    decreases |x|
  {
    if |x| > 0 {
      assert (x + y)[1..] == x[1..] + y;
      PayloadsConcat(x[1..], y);
    } else {
      assert x + y == y;
    }
  }

  /** Removing the entry at `j` removes one copy of it from the multiset. */
  lemma RemoveAt<E>(b: seq<E>, j: nat)
    requires j < |b|
    ensures multiset(b[..j] + b[j + 1..]) == multiset(b) - multiset{b[j]}
  {
    assert b == b[..j] + [b[j]] + b[j + 1..];
  }

  lemma MultisetSwap<E>(p: multiset<E>, q: multiset<E>, r: multiset<E>)
    ensures p + q + r == q + p + r
  {
  }

  /** The payloads either side of position `j`, and the one at `j`. */
  lemma PayloadsAround<T>(b: seq<(nat, T)>, j: nat)
    requires j < |b|
    ensures Payloads(b) == Payloads(b[..j]) + [b[j].1] + Payloads(b[j + 1..])
  {
    var rest := b[j..];
    assert b == b[..j] + rest;
    PayloadsConcat(b[..j], rest);
    assert rest[1..] == b[j + 1..];
    PayloadsFirst(rest);
  }

  lemma PayloadsFirst<T>(t: seq<(nat, T)>)
    requires |t| > 0
    ensures Payloads(t) == [t[0].1] + Payloads(t[1..])
  {
  }

  /** Taking out matching entries at the front of `a` and at `j` in `b`
      keeps the payload multisets equal. */
  lemma PayloadsStep<T>(a: seq<(nat, T)>, b: seq<(nat, T)>, j: nat)
    requires 0 < |a| && j < |b| && b[j] == a[0]
    requires multiset(Payloads(a[1..])) == multiset(Payloads(b[..j] + b[j + 1..]))
    ensures multiset(Payloads(a)) == multiset(Payloads(b))
  {
    var x, y := Payloads(b[..j]), Payloads(b[j + 1..]);
    PayloadsConcat(b[..j], b[j + 1..]);
    PayloadsAround(b, j);
    assert multiset(Payloads(a)) == multiset{a[0].1} + multiset(x + y);
    assert multiset(Payloads(b)) == multiset(x) + multiset{a[0].1} + multiset(y);
    MultisetSwap(multiset{a[0].1}, multiset(x), multiset(y));
  }

  /** Rearranging tagged entries rearranges their payloads alike. */
  lemma {:induction false} PayloadsPermutation<T>(a: seq<(nat, T)>, b: seq<(nat, T)>)
    requires multiset(a) == multiset(b)
    ensures multiset(Payloads(a)) == multiset(Payloads(b))
    decreases |a|
  {
    if |a| > 0 {
      assert a[0] in multiset(b);
      var j :| 0 <= j < |b| && b[j] == a[0];
      RemoveAt(b, j);
      assert a == [a[0]] + a[1..];
      PayloadsPermutation(a[1..], b[..j] + b[j + 1..]);
      PayloadsStep(a, b, j);
    } else {
      assert |b| == |multiset(b)| == 0;
      assert Payloads(a) == [] == Payloads(b);
    }
  }

  /** `s` stably sorted by `rank`: a rearrangement of `s` in rank order. */
  function StableSort<T>(s: seq<T>, rank: T -> Rank): (r: seq<T>)
    ensures |r| == |s|
    ensures multiset(r) == multiset(s)
    ensures Ordered(r, rank)
    ensures var p := SortPermutation(s, rank); forall k :: 0 <= k < |r| ==> r[k] == s[p[k]]
  {
    var p := SortPermutation(s, rank);
    var r := seq(|p|, k requires 0 <= k < |p| => s[p[k]]);
    SortedPayloads(s, rank);
    r
  }

  /** The payloads of the sorted tagged elements are a rearrangement of `s`,
      read through the sort's permutation. */
  lemma SortedPayloads<T>(s: seq<T>, rank: T -> Rank)
    ensures var p := SortPermutation(s, rank);
      var sorted := SortTagged(Tag(s), rank);
      && Payloads(sorted) == seq(|p|, k requires 0 <= k < |p| => s[p[k]])
      && multiset(Payloads(sorted)) == multiset(s)
  {
    var p := SortPermutation(s, rank);
    var r := seq(|p|, k requires 0 <= k < |p| => s[p[k]]);
    var tagged := Tag(s);
    SortTaggedSpec(tagged, rank);
    SortedTags(s, rank);
    var sorted := SortTagged(tagged, rank);
    PayloadsPermutation(sorted, tagged);
    assert Payloads(tagged) == s by {
      forall k | 0 <= k < |s| ensures Payloads(tagged)[k] == s[k] {
        PayloadsAt(tagged, k);
      }
    }
    assert Payloads(sorted) == r by {
      forall k | 0 <= k < |r| ensures Payloads(sorted)[k] == r[k] {
        PayloadsAt(sorted, k);
      }
    }
  }

  /** Sorting leaves an already ordered sequence as it is; in particular a
      sequence whose ranks are all infinite keeps its original order. */
  lemma {:induction false} SortTaggedOrdered<T>(t: seq<(nat, T)>, rank: T -> Rank)
    requires forall i, j :: 0 <= i < j < |t| ==> RankLe(rank(t[i].1), rank(t[j].1))
    ensures SortTagged(t, rank) == t
  {
    if |t| > 0 {
      var init := t[..|t| - 1];
      SortTaggedOrdered(init, rank);
      if |init| > 0 {
        assert RankLe(rank(init[|init| - 1].1), rank(t[|t| - 1].1));
      }
      assert init + [t[|t| - 1]] == t;
    }
  }

  lemma StableSortOrdered<T>(s: seq<T>, rank: T -> Rank)
    requires Ordered(s, rank)
    ensures StableSort(s, rank) == s
  {
    var tagged := Tag(s);
    SortTaggedOrdered(tagged, rank);
    var r := StableSort(s, rank);
    forall k | 0 <= k < |s| ensures r[k] == s[k] {
    }
  }
}

=== FILE: storage.dfy ===
/** The back end's file storage: generated image names, metadata files named
    after their image, lookups and deletions that tolerate missing files, and
    the paginated gallery listing of metadata files, newest first.  The
    folders are given as values: a map from file name to contents, or for the
    listing the directory entries in the order the system lists them. */
module Storage {
  import opened Wrappers
  import opened Json
  import Text
  import Numbers
  import Sorting

  /** `_generate_filename(extension)` with the random UUID as a parameter. */
  function GeneratedFilename(uuid: string, extension: string): (name: string)
    ensures Text.StartsWith(name, uuid) && Text.EndsWith(name, "." + extension)
    ensures |name| == |uuid| + 1 + |extension|
  {
    uuid + "." + extension
  }

  /** Saved images always get the "webp" extension. */
  function SavedImageFilename(uuid: string): (name: string)
    ensures Text.EndsWith(name, ".webp")
  {
    GeneratedFilename(uuid, "webp")
  }

  /** Position of the last `c` in `s`, or -1. */
  function LastIndexOf(s: string, c: char): (i: int)
    ensures -1 <= i < |s|
    ensures i >= 0 ==> s[i] == c
    ensures forall j :: i < j < |s| ==> s[j] != c
  {
    if |s| == 0 then -1
    else if s[|s| - 1] == c then |s| - 1
    else LastIndexOf(s[..|s| - 1], c)
  }

  /** Some character of `s[from..to]` is not a dot. */
  predicate NonDotBetween(s: string, from: int, to: int)
    requires 0 <= from && to <= |s|
  {
    exists k :: from <= k < to && s[k] != '.'
  }

  /** Python's `os.path.splitext`: the extension starts at the last dot of
      the last path component, provided something other than dots precedes
      that dot within the component. */
  function SplitExt(path: string): (r: (string, string))
    ensures r.0 + r.1 == path
    ensures r.1 == "" || (r.1[0] == '.' && '.' !in r.1[1..] && '/' !in r.1)
  {
    var sep := LastIndexOf(path, '/');
    var dot := LastIndexOf(path, '.');
    if dot > sep && NonDotBetween(path, sep + 1, dot) then
      assert path[..dot] + path[dot..] == path;
      assert forall j :: 0 <= j < |path[dot..]| - 1 ==> path[dot..][1..][j] == path[dot + 1 + j];
      (path[..dot], path[dot..])
    else (path, "")
  }

  /** A generated name splits back into the UUID and the extension. */
  lemma SplitExtOfGenerated(uuid: string, extension: string)
    requires uuid != "" && '.' !in uuid && '/' !in uuid
    requires '.' !in extension && '/' !in extension
    ensures SplitExt(GeneratedFilename(uuid, extension)) == (uuid, "." + extension)
  {
    var s := GeneratedFilename(uuid, extension);
    var dot := |uuid|;
    assert s[dot] == '.';
    forall j | dot < j < |s| ensures s[j] != '.' && s[j] != '/' {
      assert s[j] == extension[j - dot - 1];
    }
    forall j | 0 <= j < dot ensures s[j] != '/' {
      assert s[j] == uuid[j];
    }
    assert LastIndexOf(s, '.') == dot;
    assert LastIndexOf(s, '/') == -1;
    assert s[0] == uuid[0] != '.';
    assert NonDotBetween(s, 0, dot);
    assert s[..dot] == uuid;
    assert s[dot..] == "." + extension;
  }

  /** `save_metadata`: the metadata file is named after the image's stem, and
      the saved object gains the timestamp and the image's file name. */
  function SaveMetadata(imageFilename: string, metadata: map<string, Value>, timestamp: string)
    : (r: (string, map<string, Value>))
    ensures r.0 == SplitExt(imageFilename).0 + ".json"
    ensures r.1.Keys == metadata.Keys + {"timestamp", "image_filename"}
    ensures r.1["timestamp"] == Str(timestamp) && r.1["image_filename"] == Str(imageFilename)
    ensures forall k :: k in metadata && k != "timestamp" && k != "image_filename" ==> r.1[k] == metadata[k]
  {
    (SplitExt(imageFilename).0 + ".json",
     metadata["timestamp" := Str(timestamp)]["image_filename" := Str(imageFilename)])
  }

  /** The metadata of a generated image lives in "<uuid>.json". */
  lemma MetadataNamedAfterImage(uuid: string, metadata: map<string, Value>, timestamp: string)
    requires uuid != "" && '.' !in uuid && '/' !in uuid
    ensures SaveMetadata(SavedImageFilename(uuid), metadata, timestamp).0 == uuid + ".json"
  {
    SplitExtOfGenerated(uuid, "webp");
  }

  /** `get_metadata`: the parsed JSON of the file, `None` (`null`) when the
      file is missing, and likewise when it holds `null`. */
  function GetMetadata(folder: map<string, Value>, filename: string): (r: Value)
    ensures filename !in folder ==> r == Null
    ensures filename in folder ==> r == folder[filename]
  {
    if filename in folder then folder[filename] else Null
  }

  /** Deleting a file: a missing file only produces a warning (the flag);
      a present one is removed, unless `os.remove` fails (`removable` is
      false), which is re-raised and leaves the folder as it was (`None`). */
  function DeleteFile(folder: set<string>, filename: string, removable: bool): (r: Option<(set<string>, bool)>)
    ensures r.None? <==> filename in folder && !removable
    ensures r.Some? ==> r.value.0 == folder - {filename}
    ensures r.Some? ==> (r.value.1 <==> filename !in folder)
  {
    if filename !in folder then Some((folder, true))
    else if removable then Some((folder - {filename}, false))
    else None
  }

  /** A stored metadata file as the listing sees it: its modification time
      and its parsed contents. */
  datatype StoredFile = StoredFile(mtime: real, contents: Value)

  type Entry = (string, StoredFile)

  /** The entries whose names end in ".json", in listing order. */
  function JsonFiles(entries: seq<Entry>): (r: seq<Entry>)
    ensures |r| <= |entries|
    ensures forall e :: e in r <==> e in entries && Text.EndsWith(e.0, ".json")
  {
    if |entries| == 0 then []
    else
      var rest := JsonFiles(entries[1..]);
      assert forall e :: e in entries <==> e == entries[0] || e in entries[1..];
      if Text.EndsWith(entries[0].0, ".json") then [entries[0]] + rest else rest
  }

  /** Sorting by modification time with `reverse=True` keeps equal times in
      listing order, as an ascending stable sort by the negated time does. */
  function NewestFirstRank(e: Entry): Sorting.Rank {
    Sorting.Finite(-e.1.mtime)
  }

  function Newest(entries: seq<Entry>): (r: seq<Entry>)
    ensures multiset(r) == multiset(JsonFiles(entries))
    ensures forall i, j :: 0 <= i < j < |r| ==> r[i].1.mtime >= r[j].1.mtime
  {
    var r := Sorting.StableSort(JsonFiles(entries), NewestFirstRank);
    assert forall i, j :: 0 <= i < j < |r| ==> Sorting.RankLe(NewestFirstRank(r[i]), NewestFirstRank(r[j]));
    r
  }

  /** Python's slice `s[start:end]`: negative bounds count from the end, and
      bounds are clipped to the sequence. */
  function PySlice<T>(s: seq<T>, start: int, end: int): (r: seq<T>)
    ensures 0 <= start <= end ==>
      r == s[if start < |s| then start else |s|..if end < |s| then end else |s|]
  {
    var n := |s|;
    var a := if start < 0 then (if start + n < 0 then 0 else start + n) else (if start > n then n else start);
    var b := if end < 0 then (if end + n < 0 then 0 else end + n) else (if end > n then n else end);
    if a < b then s[a..b] else []
  }

  /** `(total + per_page - 1) // per_page`. */
  function TotalPages(total: nat, perPage: int): (pages: int)
    requires perPage != 0
    ensures perPage > 0 ==> pages >= 0 && total <= pages * perPage && (pages == 0 || (pages - 1) * perPage < total)
    ensures perPage > 0 ==> (pages == 0 <==> total == 0)
  {
    var q := Numbers.FloorDiv(total + perPage - 1, perPage);
    assert perPage > 0 ==> (q - 1) * perPage == q * perPage - perPage;
    q
  }

  /** The entries of page `page`. */
  function Page<T>(sorted: seq<T>, page: int, perPage: int): seq<T> {
    var start := (page - 1) * perPage;
    PySlice(sorted, start, start + perPage)
  }

  /** A page from 1 on holds the next `perPage` entries from its start, and
      pages past the last are empty. */
  lemma PageContents<T>(sorted: seq<T>, page: int, perPage: int)
    requires page >= 1 && perPage > 0
    ensures var start := (page - 1) * perPage;
      && start >= 0
      && (start < |sorted| ==>
            Page(sorted, page, perPage) == sorted[start..if start + perPage < |sorted| then start + perPage else |sorted|])
      && (start >= |sorted| ==> Page(sorted, page, perPage) == [])
      && |Page(sorted, page, perPage)| <= perPage
    ensures page > TotalPages(|sorted|, perPage) ==> Page(sorted, page, perPage) == []
  {
    var start := (page - 1) * perPage;
    assert start >= 0 by {
      assert page - 1 >= 0;
    }
    if page > TotalPages(|sorted|, perPage) {
      var t := TotalPages(|sorted|, perPage);
      assert start >= t * perPage by {
        assert page - 1 >= t;
        MulMonotone(t, page - 1, perPage);
      }
    }
  }

  lemma MulMonotone(a: int, b: int, c: nat)
    requires a <= b
    ensures a * c <= b * c
  {
  }

  /** Pages 1 to k, one after the other. */
  function Pages<T>(sorted: seq<T>, k: nat, perPage: int): seq<T> {
    if k == 0 then [] else Pages(sorted, k - 1, perPage) + Page(sorted, k, perPage)
  }

  /** The first k pages are exactly the first k * perPage entries: no entry
      is on two pages and none is skipped. */
  lemma {:induction false} PagesArePrefix<T>(sorted: seq<T>, k: nat, perPage: int)
    requires perPage > 0
    ensures k * perPage >= 0
    ensures Pages(sorted, k, perPage) == sorted[..if k * perPage < |sorted| then k * perPage else |sorted|]
  {
    if k > 0 {
      PagesArePrefix(sorted, k - 1, perPage);
      PageContents(sorted, k, perPage);
      assert (k - 1) * perPage + perPage == k * perPage;
      var n := |sorted|;
      var a := (k - 1) * perPage;
      if a < n {
        var b := if k * perPage < n then k * perPage else n;
        assert sorted[..a] + sorted[a..b] == sorted[..b];
      }
    }
  }

  /** Together the pages 1 to `total_pages` list every entry once, in
      order. */
  lemma AllPagesListEverything<T>(sorted: seq<T>, perPage: int)
    requires perPage > 0
    ensures Pages(sorted, TotalPages(|sorted|, perPage) as nat, perPage) == sorted
  {
    var t := TotalPages(|sorted|, perPage);
    PagesArePrefix(sorted, t as nat, perPage);
  }

  /** The metadata of the page's files, files whose contents are falsy
      skipped. */
  function Images(files: seq<Entry>): (r: seq<Value>)
    ensures |r| <= |files|
    ensures forall v :: v in r <==> exists i :: 0 <= i < |files| && files[i].1.contents == v && PyTruthy(v)
  {
    if |files| == 0 then []
    else
      var rest := Images(files[1..]);
      assert forall i :: 1 <= i < |files| ==> files[i] == files[1..][i - 1];
      var v := files[0].1.contents;
      if PyTruthy(v) then [v] + rest else rest
  }

  /** The page's metadata is read file by file, in listing order: the
      images of two runs of files are those of the first followed by those
      of the second. */
  lemma {:induction false} ImagesAppend(a: seq<Entry>, b: seq<Entry>)
    ensures Images(a + b) == Images(a) + Images(b)
    decreases |a|
  {
    if |a| == 0 {
      assert a + b == b;
    } else {
      assert (a + b)[1..] == a[1..] + b;
      ImagesAppend(a[1..], b);
    }
  }

  /** One file contributes its contents, or nothing when they are falsy. */
  lemma ImagesOfOne(file: Entry)
    ensures Images([file]) == if PyTruthy(file.1.contents) then [file.1.contents] else []
  {
    assert [file][1..] == [];
  }

  datatype Listing = Listing(images: seq<Value>, totalPages: int)

  /** `list_images(page, per_page)`; a `per_page` of 0 raises. */
  function ListImages(entries: seq<Entry>, page: int, perPage: int): (r: Result<Listing, string>)
    ensures r.Failure? <==> perPage == 0
    ensures r.Success? ==>
      var sorted := Newest(entries);
      && r.value.totalPages == TotalPages(|sorted|, perPage)
      && r.value.images == Images(Page(sorted, page, perPage))
  {
    if perPage == 0 then Failure("integer division or modulo by zero")
    else
      var sorted := Newest(entries);
      Success(Listing(Images(Page(sorted, page, perPage)), TotalPages(|sorted|, perPage)))
  }

  /** A page holds at most `per_page` images, and a page past the last holds
      none while reporting the same page count. */
  lemma ListingBounds(entries: seq<Entry>, page: int, perPage: int)
    requires page >= 1 && perPage > 0
    ensures var r := ListImages(entries, page, perPage);
      && r.Success?
      && |r.value.images| <= perPage
      && (page > r.value.totalPages ==> r.value.images == [])
      && r.value.totalPages == ListImages(entries, 1, perPage).value.totalPages
  {
    PageContents(Newest(entries), page, perPage);
  }
}

=== FILE: submission.dfy ===
/** The submit handler of the generation form: the values of the generated
    parameter inputs are collected into a parameters object, the prompt and
    the model are checked, the form state is saved, and the request payload
    gets the `aspect_ratio: "custom"` marker when both dimensions are sent. */
module Submission {
  import opened Wrappers
  import opened Json
  import Text
  import Numbers

  /** What a parameter input yields: a checkbox its checked state, a number
      or range input its text (read with `parseFloat`), any other input its
      `.val()`. */
  datatype InputKind =
    | CheckboxInput(checked: bool)
    | NumberInput(raw: string)
    | OtherInput(value: Value)

  /** A `.model-param` element: its `name` attribute (absent when `None`) and
      its kind. */
  datatype ParamInput = ParamInput(name: Option<string>, kind: InputKind)

  predicate HasName(c: ParamInput) {
    c.name.Some? && c.name.value != ""
  }

  /** The number input holds text that `parseFloat` reads as `NaN`. */
  predicate InvalidNumber(c: ParamInput) {
    c.kind.NumberInput? && Numbers.ParseFloat(c.kind.raw).None?
  }

  /** The value read from an input that is not an invalid number input. */
  function InputValue(c: ParamInput): Value
    requires !InvalidNumber(c)
  {
    match c.kind
    case CheckboxInput(b) => Bool(b)
    case NumberInput(raw) => Num(Numbers.ParseFloat(raw).value)
    case OtherInput(v) => v
  }

  /** A value that is neither `undefined`, `null` nor the empty string. */
  predicate Admissible(v: Value) {
    v != Undefined && v != Null && v != Str("")
  }

  /** Input `c` writes parameter `key`. */
  predicate Sets(c: ParamInput, key: string) {
    !InvalidNumber(c) && HasName(c) && c.name.value == key && Admissible(InputValue(c))
  }

  /** The name as a template literal prints it. */
  function NameText(name: Option<string>): string {
    match name
    case None => "undefined"
    case Some(s) => s
  }

  function InvalidNumberWarning(c: ParamInput): string
    requires c.kind.NumberInput?
  {
    "Invalid number value for " + NameText(c.name) + ": " + c.kind.raw
  }

  datatype Collected = Collected(parameters: map<string, Value>, warnings: seq<string>)

  /** What one iteration of the collecting loop does with one input: warn
      about a number that does not parse, write a parameter, or nothing. */
  datatype Effect = Warn(warning: string) | Write(key: string, value: Value) | Skip

  function EffectOf(c: ParamInput): Effect {
    if InvalidNumber(c) then Warn(InvalidNumberWarning(c))
    else if HasName(c) && Admissible(InputValue(c)) then Write(c.name.value, InputValue(c))
    else Skip
  }

  predicate Writes(e: Effect, key: string) {
    e.Write? && e.key == key
  }

  function Apply(acc: Collected, e: Effect): Collected {
    match e
    case Warn(w) => Collected(acc.parameters, acc.warnings + [w])
    case Write(key, v) => Collected(acc.parameters[key := v], acc.warnings)
    case Skip => acc
  }

  /** The effects applied in order, starting from no parameters and no
      warnings. */
  function Run(effects: seq<Effect>): Collected {
    if |effects| == 0 then Collected(map[], [])
    else Apply(Run(effects[..|effects| - 1]), effects[|effects| - 1])
  }

  function Effects(inputs: seq<ParamInput>): (es: seq<Effect>)
    ensures |es| == |inputs|
    ensures forall i :: 0 <= i < |inputs| ==> es[i] == EffectOf(inputs[i])
  {
    seq(|inputs|, i requires 0 <= i < |inputs| => EffectOf(inputs[i]))
  }

  lemma EffectsConcat(x: seq<ParamInput>, y: seq<ParamInput>)
    ensures Effects(x + y) == Effects(x) + Effects(y)
  {
    assert forall i :: 0 <= i < |x| + |y| ==> (x + y)[i] == if i < |x| then x[i] else y[i - |x|];
  }

  /** The collecting loop over the inputs in document order: at most one
      warning per input, and only inputs with a non-empty name give
      parameters. */
  function Collect(inputs: seq<ParamInput>): (c: Collected)
    ensures |c.warnings| <= |inputs|
    ensures forall k :: k in c.parameters ==> k != ""
  {
    var es := Effects(inputs);
    RunBounds(es);
    Run(es)
  }

  /** A run warns at most once per effect and writes only the keys its
      effects name. */
  lemma {:induction false} RunBounds(es: seq<Effect>)
    requires forall i :: 0 <= i < |es| && es[i].Write? ==> es[i].key != ""
    ensures |Run(es).warnings| <= |es|
    ensures forall k :: k in Run(es).parameters ==> k != ""
    decreases |es|
  {
    if |es| > 0 {
      RunBounds(es[..|es| - 1]);
    }
  }

  /** A parameter is present after a run exactly when some effect writes it,
      and it holds the value of the last such effect. */
  lemma RunParameters(effects: seq<Effect>, key: string)
    ensures key in Run(effects).parameters <==> exists i :: 0 <= i < |effects| && Writes(effects[i], key)
    ensures key in Run(effects).parameters ==>
      exists i :: 0 <= i < |effects| && Writes(effects[i], key) && Run(effects).parameters[key] == effects[i].value
        && forall j :: i < j < |effects| ==> !Writes(effects[j], key)
  {
    RunHas(effects, key);
    if key in Run(effects).parameters {
      RunValue(effects, key);
    }
  }

  lemma {:induction false} RunHas(effects: seq<Effect>, key: string)
    ensures key in Run(effects).parameters <==> exists i :: 0 <= i < |effects| && Writes(effects[i], key)
    decreases |effects|
  {
    if |effects| > 0 {
      var init := effects[..|effects| - 1];
      RunHas(init, key);
      if exists i :: 0 <= i < |effects| && Writes(effects[i], key) {
        var i :| 0 <= i < |effects| && Writes(effects[i], key);
        if i < |init| {
          assert Writes(init[i], key);
        }
      }
      if exists i :: 0 <= i < |init| && Writes(init[i], key) {
        var i :| 0 <= i < |init| && Writes(init[i], key);
        assert Writes(effects[i], key);
      }
    }
  }

  lemma {:induction false} RunValue(effects: seq<Effect>, key: string)
    requires key in Run(effects).parameters
    ensures exists i :: (0 <= i < |effects| && Writes(effects[i], key) && Run(effects).parameters[key] == effects[i].value
                         && forall j :: i < j < |effects| ==> !Writes(effects[j], key))
    decreases |effects|
  {
    var n := |effects|;
    var init := effects[..n - 1];
    if Writes(effects[n - 1], key) {
      assert Run(effects).parameters[key] == effects[n - 1].value;
    } else {
      assert key in Run(init).parameters && Run(effects).parameters[key] == Run(init).parameters[key];
      RunValue(init, key);
      var i :| 0 <= i < |init| && Writes(init[i], key) && Run(init).parameters[key] == init[i].value
        && forall j :: i < j < |init| ==> !Writes(init[j], key);
      assert effects[i] == init[i];
      assert forall j :: i < j < n - 1 ==> effects[j] == init[j];
    }
  }

  /** The warnings after a run are exactly those of its warning effects. */
  lemma {:induction false} RunWarnings(effects: seq<Effect>, w: string)
    ensures w in Run(effects).warnings <==> exists i :: 0 <= i < |effects| && effects[i] == Warn(w)
    decreases |effects|
  {
    if |effects| > 0 {
      var init := effects[..|effects| - 1];
      RunWarnings(init, w);
      assert forall i :: 0 <= i < |init| ==> init[i] == effects[i];
      if exists i :: 0 <= i < |effects| && effects[i] == Warn(w) {
        var i :| 0 <= i < |effects| && effects[i] == Warn(w);
        if i < |init| {
          assert init[i] == Warn(w);
        }
      }
    }
  }

  /** A warning effect leaves the parameters of every later step alone. */
  lemma {:induction false} WarnLeavesParameters(a: seq<Effect>, w: string, b: seq<Effect>)
    ensures Run(a + [Warn(w)] + b).parameters == Run(a + b).parameters
    decreases |b|
  {
    if |b| == 0 {
      assert a + [Warn(w)] + b == a + [Warn(w)];
      assert (a + [Warn(w)])[..|a|] == a;
      assert a + b == a;
    } else {
      var init := b[..|b| - 1];
      WarnLeavesParameters(a, w, init);
      assert (a + [Warn(w)] + b)[..|a| + |b|] == a + [Warn(w)] + init;
      assert (a + b)[..|a| + |b| - 1] == a + init;
    }
  }

  lemma SetsIsWrite(c: ParamInput, key: string)
    ensures Sets(c, key) <==> Writes(EffectOf(c), key)
    ensures Sets(c, key) ==> EffectOf(c).value == InputValue(c)
  {
  }

  /** A parameter is present exactly when some input writes it, and it holds
      the value of the last input that does. */
  lemma CollectedParameters(inputs: seq<ParamInput>, key: string)
    ensures key in Collect(inputs).parameters <==> exists i :: 0 <= i < |inputs| && Sets(inputs[i], key)
    ensures key in Collect(inputs).parameters ==>
      exists i :: 0 <= i < |inputs| && Sets(inputs[i], key) && Collect(inputs).parameters[key] == InputValue(inputs[i])
        && forall j :: i < j < |inputs| ==> !Sets(inputs[j], key)
  {
    var es := Effects(inputs);
    RunParameters(es, key);
    forall i | 0 <= i < |inputs| ensures Sets(inputs[i], key) <==> Writes(es[i], key) {
      SetsIsWrite(inputs[i], key);
    }
    if key in Collect(inputs).parameters {
      var i :| 0 <= i < |es| && Writes(es[i], key) && Run(es).parameters[key] == es[i].value
        && forall j :: i < j < |es| ==> !Writes(es[j], key);
      SetsIsWrite(inputs[i], key);
    }
  }

  /** Warnings name exactly the number inputs that do not parse. */
  lemma CollectedWarnings(inputs: seq<ParamInput>, w: string)
    ensures w in Collect(inputs).warnings <==>
      exists i :: 0 <= i < |inputs| && InvalidNumber(inputs[i]) && w == InvalidNumberWarning(inputs[i])
  {
    var es := Effects(inputs);
    RunWarnings(es, w);
    assert forall i :: 0 <= i < |inputs| ==>
      (es[i] == Warn(w) <==> InvalidNumber(inputs[i]) && w == InvalidNumberWarning(inputs[i]));
  }

  /** An unchecked checkbox is sent as `false`, not left out. */
  lemma UncheckedBoxIsSent(inputs: seq<ParamInput>, name: string)
    requires name != ""
    ensures Collect(inputs + [ParamInput(Some(name), CheckboxInput(false))]).parameters[name] == Bool(false)
  {
    var es := Effects(inputs + [ParamInput(Some(name), CheckboxInput(false))]);
    assert es[..|inputs|] == Effects(inputs);
  }

  /** An input whose number does not parse is skipped alone: the parameters
      are those collected without it. */
  lemma InvalidNumberSkipsOnlyItself(a: seq<ParamInput>, bad: ParamInput, b: seq<ParamInput>)
    requires InvalidNumber(bad)
    ensures Collect(a + [bad] + b).parameters == Collect(a + b).parameters
  {
    EffectsConcat(a + [bad], b);
    EffectsConcat(a, [bad]);
    EffectsConcat(a, b);
    assert Effects([bad]) == [Warn(InvalidNumberWarning(bad))];
    WarnLeavesParameters(Effects(a), InvalidNumberWarning(bad), Effects(b));
  }

  const AspectRatioKey := "aspect_ratio"

  /** The marker added before sending: `aspect_ratio` becomes "custom" when
      both `width` and `height` are present, and nothing else changes. */
  function WithCustomMarker(parameters: map<string, Value>): (r: map<string, Value>)
    ensures "width" in parameters && "height" in parameters ==>
      AspectRatioKey in r && r[AspectRatioKey] == Str("custom")
    ensures !("width" in parameters && "height" in parameters) ==> r == parameters
    ensures forall k :: k != AspectRatioKey ==> (k in r <==> k in parameters)
    ensures forall k :: k in parameters && k != AspectRatioKey ==> r[k] == parameters[k]
  {
    if "width" in parameters && "height" in parameters then parameters[AspectRatioKey := Str("custom")]
    else parameters
  }

  /** Adding the marker twice is adding it once. */
  lemma CustomMarkerIdempotent(parameters: map<string, Value>)
    ensures WithCustomMarker(WithCustomMarker(parameters)) == WithCustomMarker(parameters)
  {
  }

  /** The value of the model select: `None` when no option is selected. */
  predicate ModelChosen(model: Option<string>) {
    model.Some? && model.value != ""
  }

  datatype SavedState = SavedState(prompt: string, model: string)

  /** `saveFormState`: the prompt text and the model are stored only when a
      model is selected. */
  function SaveFormState(prompt: string, model: Option<string>): (r: Option<SavedState>)
    ensures r.Some? <==> ModelChosen(model)
    ensures r.Some? ==> r.value.prompt == prompt && r.value.model == model.value
  {
    if ModelChosen(model) then Some(SavedState(prompt, model.value)) else None
  }

  datatype Payload = Payload(prompt: string, modelId: string, parameters: map<string, Value>)

  const PromptMissing := "Please enter a prompt to generate an image."
  const ModelMissing := "Please select a model for generation."

  /** What a submit does.  The parameters are collected before the prompt
      and model are checked, so the console warnings of unparsable number
      inputs are logged whether or not the request is sent. */
  datatype SubmitOutcome =
    | Ignored                                                          // a generation is in progress
    | Rejected(message: string, warnings: seq<string>)                 // shown in the error modal
    | Sent(payload: Payload, saved: SavedState, warnings: seq<string>) // state saved, request sent

  /** The form's submit handler. */
  function Submit(isGenerating: bool, promptText: string, model: Option<string>, inputs: seq<ParamInput>)
    : (r: SubmitOutcome)
    ensures r.Ignored? <==> isGenerating
    ensures r.Rejected? && r.message == PromptMissing <==> !isGenerating && Text.Trim(promptText) == ""
    ensures r.Rejected? && r.message == ModelMissing <==>
      !isGenerating && Text.Trim(promptText) != "" && !ModelChosen(model)
    ensures !r.Ignored? ==> r.warnings == Collect(inputs).warnings
    ensures r.Sent? <==> !isGenerating && Text.Trim(promptText) != "" && ModelChosen(model)
    ensures r.Sent? ==>
      && r.payload.prompt == Text.Trim(promptText)
      && r.payload.modelId == model.value
      && r.payload.parameters == WithCustomMarker(Collect(inputs).parameters)
      && SaveFormState(promptText, model) == Some(r.saved)
  {
    if isGenerating then Ignored
    else
      var prompt := Text.Trim(promptText);
      var collected := Collect(inputs);
      if prompt == "" then Rejected(PromptMissing, collected.warnings)
      else if !ModelChosen(model) then Rejected(ModelMissing, collected.warnings)
      else Sent(Payload(prompt, model.value, WithCustomMarker(collected.parameters)),
                SavedState(promptText, model.value), collected.warnings)
  }

  /** A prompt of white space alone is reported before a missing model, and
      nothing is sent. */
  lemma BlankPromptReportedFirst(promptText: string, model: Option<string>, inputs: seq<ParamInput>)
    requires forall i :: 0 <= i < |promptText| ==> Text.IsSpace(promptText[i])
    ensures Submit(false, promptText, model, inputs) == Rejected(PromptMissing, Collect(inputs).warnings)
  {
    Text.TrimEmptyIffBlank(promptText);
  }
}

=== FILE: text.dfy ===
/** String helpers with the semantics of the JavaScript and Python built-ins the
    application calls (`split`, `pop`, `includes`, `toLowerCase`, `trim`,
    `replace`).  Case mapping covers ASCII letters only. */
module Text {

  function LowerChar(c: char): char {
    if 'A' <= c <= 'Z' then (c as int - 'A' as int + 'a' as int) as char else c
  }

  /** `s.toLowerCase()` / `s.lower()` on ASCII text. */
  function ToLower(s: string): (r: string)
    ensures |r| == |s|
    ensures forall i :: 0 <= i < |s| ==> r[i] == LowerChar(s[i])
  {
    seq(|s|, i requires 0 <= i < |s| => LowerChar(s[i]))
  }

  /** `s.includes(sub)` / `sub in s`. */
  function Contains(s: string, sub: string): bool
    decreases |s|
  {
    if |sub| > |s| then false
    else if sub <= s then true
    else Contains(s[1..], sub)
  }

  /** An occurrence of `sub` at position `k` of `s` is found by `Contains`. */
  lemma {:induction false} ContainsAt(s: string, sub: string, k: nat)
    requires k + |sub| <= |s| && s[k..k + |sub|] == sub
    ensures Contains(s, sub)
    decreases k
  {
    if k > 0 && !(sub <= s) {
      assert s[1..][k - 1..k - 1 + |sub|] == s[k..k + |sub|];
      ContainsAt(s[1..], sub, k - 1);
    }
  }

  /** Every character of a contained string occurs in the containing one. */
  lemma {:induction false} ContainsChar(s: string, sub: string, k: nat)
    requires k < |sub| && Contains(s, sub)
    ensures sub[k] in s
    decreases |s|
  {
    if sub <= s {
      assert s[k] == sub[k];
    } else {
      ContainsChar(s[1..], sub, k);
    }
  }

  predicate StartsWith(s: string, prefix: string) {
    prefix <= s
  }

  predicate EndsWith(s: string, suffix: string) {
    |suffix| <= |s| && s[|s| - |suffix|..] == suffix
  }

  /** Index of the first occurrence of `c`, or `|s|` when there is none. */
  function IndexOf(s: string, c: char): (i: nat)
    ensures i <= |s|
    ensures i < |s| ==> s[i] == c
    ensures forall j :: 0 <= j < i ==> s[j] != c
    ensures i == |s| <==> c !in s
  {
    if |s| == 0 then 0
    else if s[0] == c then 0
    else 1 + IndexOf(s[1..], c)
  }

  /** `s.split(c)` for a one-character separator (JavaScript and Python agree
      here): the pieces between separators, empty pieces included. */
  function Split(s: string, c: char): (parts: seq<string>)
    ensures |parts| >= 1
    ensures forall k :: 0 <= k < |parts| ==> c !in parts[k]
    decreases |s|
  {
    var i := IndexOf(s, c);
    if i == |s| then [s]
    else [s[..i]] + Split(s[i + 1..], c)
  }

  /** Text without the separator is a single piece. */
  lemma SplitNone(s: string, c: char)
    requires c !in s
    ensures Split(s, c) == [s]
  {
  }

  /** The piece before the first separator, then the pieces of the rest. */
  lemma SplitFirst(a: string, c: char, b: string)
    requires c !in a
    ensures Split(a + [c] + b, c) == [a] + Split(b, c)
  {
    var s := a + [c] + b;
    assert IndexOf(s, c) == |a| by {
      assert s[|a|] == c;
      forall j | 0 <= j < |a| ensures s[j] != c {
        assert s[j] == a[j];
      }
    }
    assert s[..|a|] == a;
    assert s[|a| + 1..] == b;
  }

  /** Two pieces without the separator, joined by it, split back apart. */
  lemma SplitPair(a: string, c: char, b: string)
    requires c !in a && c !in b
    ensures Split(a + [c] + b, c) == [a, b]
  {
    SplitFirst(a, c, b);
    SplitNone(b, c);
  }

  /** `c.join(parts)`. */
  function Join(parts: seq<string>, c: char): string
    requires |parts| >= 1
  {
    if |parts| == 1 then parts[0]
    else parts[0] + [c] + Join(parts[1..], c)
  }

  /** Splitting and joining again gives back the original text. */
  lemma {:induction false} JoinSplit(s: string, c: char)
    ensures Join(Split(s, c), c) == s
    decreases |s|
  {
    var i := IndexOf(s, c);
    if i < |s| {
      var rest := Split(s[i + 1..], c);
      var parts := [s[..i]] + rest;
      assert Split(s, c) == parts;
      assert parts[0] == s[..i] && parts[1..] == rest;
      JoinSplit(s[i + 1..], c);
      calc {
        Join(parts, c);
        s[..i] + [c] + Join(rest, c);
        s[..i] + [c] + s[i + 1..];
        s;
      }
    }
  }

  /** `s.split(sep).pop()`: the text after the last separator, the whole text
      when there is none. */
  function LastSegment(s: string, sep: char): (r: string)
    ensures sep !in r
    ensures EndsWith(s, r)
    ensures |r| == |s| || s[|s| - |r| - 1] == sep
  {
    if |s| == 0 then s
    else if s[|s| - 1] == sep then ""
    else LastSegment(s[..|s| - 1], sep) + [s[|s| - 1]]
  }

  /** `s.replace(/from/g, to)` for single characters. */
  function ReplaceAll(s: string, from: char, to: char): (r: string)
    ensures |r| == |s|
    ensures forall i :: 0 <= i < |s| ==> r[i] == (if s[i] == from then to else s[i])
  {
    seq(|s|, i requires 0 <= i < |s| => if s[i] == from then to else s[i])
  }

  predicate IsSpace(c: char) {
    c == ' ' || c == '\t' || c == '\n' || c == '\r' || c == '\U{B}' || c == '\U{C}'
  }

  function TrimStart(s: string): (r: string)
    ensures |r| <= |s| && s[|s| - |r|..] == r
    ensures |r| > 0 ==> !IsSpace(r[0])
  {
    if |s| > 0 && IsSpace(s[0]) then TrimStart(s[1..]) else s
  }

  function TrimEnd(s: string): (r: string)
    ensures r <= s
    ensures |r| > 0 ==> !IsSpace(r[|r| - 1])
  {
    if |s| > 0 && IsSpace(s[|s| - 1]) then TrimEnd(s[..|s| - 1]) else s
  }

  /** `s.trim()` / `s.strip()` for ASCII white space. */
  function Trim(s: string): (r: string)
    ensures |r| > 0 ==> !IsSpace(r[0]) && !IsSpace(r[|r| - 1])
  {
    TrimStart(TrimEnd(s))
  }

  predicate Blank(s: string) {
    forall i :: 0 <= i < |s| ==> IsSpace(s[i])
  }

  /** Trimming removes only white space: a text that is all white space trims
      to the empty string, and any other text keeps a character. */
  lemma TrimEmptyIffBlank(s: string)
    ensures Trim(s) == "" <==> forall i :: 0 <= i < |s| ==> IsSpace(s[i])
  {
    TrimEndKeepsBlankness(s);
    TrimStartEmptyIffBlank(TrimEnd(s));
  }

  lemma {:induction false} TrimStartEmptyIffBlank(s: string)
    ensures TrimStart(s) == "" <==> Blank(s)
    decreases |s|
  {
    if |s| > 0 && IsSpace(s[0]) {
      TrimStartEmptyIffBlank(s[1..]);
      assert forall i :: 1 <= i < |s| ==> s[i] == s[1..][i - 1];
    }
  }

  lemma {:induction false} TrimEndKeepsBlankness(s: string)
    ensures Blank(TrimEnd(s)) <==> Blank(s)
    decreases |s|
  {
    if |s| > 0 && IsSpace(s[|s| - 1]) {
      TrimEndKeepsBlankness(s[..|s| - 1]);
      assert forall i :: 0 <= i < |s| - 1 ==> s[i] == s[..|s| - 1][i];
    }
  }
}

=== FILE: wrappers.dfy ===
/** Optional values and results with an error payload, used throughout the model
    for JavaScript `undefined`/`null`, Python `None` and raised exceptions. */
module Wrappers {

  datatype Option<+T> = None | Some(value: T) {

    /** The value held, or `default` when there is none. */
    function GetOr(default: T): T {
      match this
      case Some(v) => v
      case None => default
    }
  }

  datatype Result<+R, +E> = Success(value: R) | Failure(error: E) {

    predicate IsFailure() {
      Failure?
    }

    function PropagateFailure<U>(): Result<U, E>
      requires Failure?
    {
      Failure(error)
    }

    function Extract(): R
      requires Success?
    {
      value
    }
  }
}
